=== FILE: README.md ===
# financas — a verified model of the rules of a personal-finance app

`financas` is a Django application for personal finances. Users are people (CPF) or
companies (CNPJ). Each user has accounts, categories, transactions of three types
(`receita`, `despesa`, `saida`), installment plans, and monthly closings. Every row
carries the owner's tenant id.

This project models the deterministic rules of that application in Dafny, as pure
functions over immutable datatypes. It then proves what those rules promise. Querysets
become in-memory sequences of records. Decimal amounts are exact `real`s. "Today" and
"now" are parameters.

The modules follow the application's own structure:

- **Wrappers, Text, Dates, Money**: shared vocabulary.
  - Wrappers: the Option and Result datatypes.
  - Text: ASCII digits, `strip`, `lower` on ASCII and Latin-1 letters, substring search,
    and the regex-free forms of the `re.sub` calls.
  - Dates: the proleptic Gregorian calendar as `datetime.date` counts it, plus
    `relativedelta(months=1)` and `strptime('%Y-%m-%d')`.
  - Money: plain decimal literals as Python's `Decimal` reads them, half-even and
    half-up rounding, and Brazilian digit grouping.
- **Validators**: the strong-password rule, the CPF and CNPJ check-digit algorithms,
  their Django wrappers, and the display masks.
- **CurrencyUtils**: the server's `parse_currency_value`, `format_currency_br` and
  `validar_data_futura`.
- **CurrencyFilter**: the `currency_br` template filter.
- **CurrencyMask**: the browser's `CurrencyFormatter`, which reads the typed digit stream
  as cents.
- **Constants**: the transaction-type vocabulary `TipoTransacao`.
- **Users**: `CustomUser.clean`, `save`, `get_documento` and `pode_acessar_schema`, and
  the password-reset token.
- **Tenancy**: the `TenantManager` row filter and its creation stamping.
- **Middleware**: schema-name sanitisation, the per-request tenant set and clear, the
  client IP, and the request-timeout choice.
- **Categories**: `Categoria.clean` and the add and edit views' validation.
- **Ledger**: transaction records, `Conta.atualizar_saldo`, paid flags,
  `calcular_totalizadores`, `obter_resumo_financeiro` and `criar_transacao`.
- **Listing**: `listar_transacoes_com_filtros`, covering the filters and the
  newest-first order.
- **Installments**: installment plans, the `gerar_parcelas` schedule, paid and pending
  totals, paying and reopening a planned installment, and the partial-payment view.
- **Closing**: monthly closings, the opening balance, the closing period, the automatic
  closing, the closing page's month navigation, and the safe account deletion.

## Model

| member | source | states |
|---|---|---|
| Validators.Search | financas/validators.py:27-40 | the scan finds a character of the class iff the password contains one |
| Validators.ValidarSenhaForte | financas/validators.py:6-42 | a password is accepted iff it has at least 8 characters and a lower-case letter, an upper-case letter, a digit and one of the listed specials |
| Validators.DjangoValidarSenhaForte | financas/validators.py:44-58 | the validator raises exactly for passwords that are not strong, always with the same message |
| Validators.StrongExample | financas/validators.py:23-42 | "Senha@123" is strong |
| Validators.NoSpecialExample | financas/validators.py:39-40 | a password without a special character is refused even when everything else holds |
| Validators.TooShortExample | financas/validators.py:23-24 | a password shorter than 8 characters is refused even with every character class |
| Validators.CheckDigit | financas/validators.py:83-84 | the check digit is below 10 and completes the weighted sum to a multiple of 11, or is 0 when the remainder is below 2 |
| Validators.CheckDigits | financas/validators.py:82-96 | the two check digits are two decimal digits |
| Validators.ValidDigits | financas/validators.py:74-96 | a digit string is valid iff it has the full length, is not one repeated digit, and ends in the check digits of its body |
| Validators.ValidarCpf | financas/validators.py:60-96 | a CPF is valid iff its digits, with everything else removed, are 11 digits, not all equal, ending in the check digits of weights 10..2 and 11..2 |
| Validators.ValidarCnpj | financas/validators.py:98-136 | a CNPJ is valid iff its digits are 14, not all equal, ending in the check digits of the two listed weight vectors |
| Validators.CpfFromBody | financas/validators.py:82-96 | any 9-digit body that is not one repeated digit becomes a valid CPF once its check digits are appended |
| Validators.CnpjFromBody | financas/validators.py:120-136 | any 12-digit body that is not one repeated digit becomes a valid CNPJ once its check digits are appended |
| Validators.CpfCheckDigitsUnique | financas/validators.py:82-96 | two valid CPFs with the same first nine digits are the same CPF |
| Validators.RepeatedDigitsRejected | financas/validators.py:78-79 | eleven or fourteen copies of one digit are never a valid CPF or CNPJ |
| Validators.DjangoValidarCpf | financas/validators.py:138-149 | the validator raises "CPF inválido." exactly when the CPF is invalid |
| Validators.DjangoValidarCnpj | financas/validators.py:151-162 | the validator raises "CNPJ inválido." exactly when the CNPJ is invalid |
| Validators.CpfMask | financas/validators.py:176 | the mask is 14 characters with '.', '.' and '-' at positions 3, 7 and 11 |
| Validators.CnpjMask | financas/validators.py:191 | the mask is 18 characters with '.', '.', '/' and '-' at positions 2, 6, 10 and 15 |
| Validators.CpfMaskDigits | financas/validators.py:176 | removing the non-digits from a masked CPF gives back its 11 digits |
| Validators.CnpjMaskDigits | financas/validators.py:191 | removing the non-digits from a masked CNPJ gives back its 14 digits |
| Validators.FormatarCpf | financas/validators.py:164-177 | the display keeps exactly the input's digits: masked when they are 11, bare otherwise |
| Validators.FormatarCnpj | financas/validators.py:179-192 | the display keeps exactly the input's digits: masked when they are 14, bare otherwise |
| Validators.FormatPreservesValidity | financas/validators.py:71-72 | a CPF or CNPJ is valid after formatting iff it was valid before |
| Validators.FormatIdempotent | financas/validators.py:164-192 | formatting a formatted document changes nothing |
| Money.TakeDigits | financas/utils.py:71 | the longest leading run of digits: all digits, a prefix, and stopped by a non-digit or the end |
| Money.FractionValue | financas/utils.py:71 | the digits after a decimal point are worth at least 0 and less than 1 |
| Money.FractionTwoDigits | financas/utils.py:71 | two fraction digits are that many hundredths |
| Money.ParseUnsigned | financas/utils.py:71 | an accepted unsigned literal consists of digits and points and is never negative |
| Money.ParseDecimal | financas/utils.py:70-73 | `Decimal(s)` accepts no comma, starts with a digit, sign or point, and is negative only after a leading '-' |
| Money.ParseUnsignedTwoPoints | financas/utils.py:89-92 | a literal with two decimal points is refused |
| Money.ParseDecimalTwoPoints | financas/utils.py:89-92 | a signed literal with two decimal points is refused |
| Money.ParseDecimalDigits | financas/utils.py:70-71 | a run of digits is read as the whole number it spells |
| Money.ParseDecimalStart | financas/utils.py:70-73 | text starting with anything but a digit, sign or point is not a decimal |
| Money.ParsePointText | financas/utils.py:71 | the `units.cents` text of a cent count reads back as that amount |
| Money.RoundHalfEven | financas/utils.py:236 | two-place formatting of a Decimal rounds to within half a unit, and to the even neighbour on a tie |
| Money.RoundHalfUp | financas/static/financas/js/currency-formatter.js:131-134 | the browser rounds to within half a unit, upwards on a tie |
| Money.RoundWhole | financas/utils.py:236 | whole numbers pass through either rounding unchanged |
| Money.RoundingsDiffer | financas/utils.py:236 | at a half cent the two roundings part: 0.125 gives 12 cents half-even and 13 half-up |
| Money.Group3 | financas/utils.py:236 | short integers stay as they are; any digit string becomes a well-formed grouped integer |
| Money.UngroupGroup | financas/utils.py:236 | removing the separators from a grouped integer gives back its digits |
| Money.GroupUngroup | financas/utils.py:236 | every well-formed grouped integer is the grouping of its own digits |
| Money.ChunkJoinGroups | financas/templatetags/currency_filters.py:44-48 | reversing, cutting into threes from the left, joining with '.' and reversing back is grouping from the right |
| Money.FormatCents | financas/utils.py:236 | the rendering of a cent count ends in ',' and two digits after a grouped integer, and holds only digits, '.' and ',' |
| Money.FormatCentsDigits | financas/utils.py:236 | the digits of a rendering, read as one number, are its cent count |
| Money.FormatCentsUngrouped | financas/utils.py:236 | without its group separators a rendering is `units,cents` |
| Money.FormatCentsInjective | financas/utils.py:236 | two different cent counts never share a rendering |
| Money.FormatSignedCents | financas/utils.py:229-242 | a signed rendering starts with '-' iff the amount is negative |
| Money.SignedRendering | financas/utils.py:239-242 | a '-' in front keeps the shape, the grouping, the two fraction digits and the cent count of the magnitude's rendering |
| Money.FormatCentsExamples | financas/utils.py:224 | 0, 12 and 123456 cents render as "0,00", "0,12" and "1.234,56" |
| CurrencyUtils.ValidarDataFutura | financas/utils.py:31-48 | a date counts as future iff it is given and lies after today |
| CurrencyUtils.KeepMoneyChars | financas/utils.py:76 | the cleaning step keeps only digits, commas and points taken from the text, and never lengthens it |
| CurrencyUtils.KeepMoneyCharsAppend | financas/utils.py:76 | cleaning distributes over concatenation |
| CurrencyUtils.ParseCleaned | financas/utils.py:78-92 | the cleaned text reads as a non-negative amount; nothing left reads as 0.00; it fails only when a separator is present |
| CurrencyUtils.ParseCurrencyValue | financas/utils.py:50-92 | no text is 0.00; an error carries the stripped input and needs a separator after cleaning; a negative result comes only from a text that already was a negative decimal |
| CurrencyUtils.NoMoneyCharsReadAsZero | financas/utils.py:70-82 | a text with no digit, comma or point is not a decimal and reads as 0.00 |
| CurrencyUtils.NoMoneyCharsCleanEmpty | financas/utils.py:76 | cleaning a text with no digit, comma or point leaves nothing |
| CurrencyUtils.TwoCommasRefused | financas/utils.py:84-92 | a text whose cleaned form holds two commas becomes a literal with two points and is refused with ValueError |
| CurrencyUtils.DropPointsKeepsCommas | financas/utils.py:86-87 | dropping the thousands points keeps both commas of a text |
| CurrencyUtils.ParseStripped | financas/utils.py:63-67 | a non-empty value is read after stripping its surrounding blanks |
| CurrencyUtils.ParsePlainDigits | financas/utils.py:70-71 | bare digits are read as a whole number, so "600" is 600.00 |
| CurrencyUtils.ParseAsDecimal | financas/utils.py:67-73 | a trimmed text that already is a decimal is read at that value |
| CurrencyUtils.ParsePrefixedDigits | financas/utils.py:76-82 | digits behind a symbol prefix are read as cents, so "R$ 600" is 6.00 |
| CurrencyUtils.ParseThroughCleaning | financas/utils.py:75-92 | a trimmed text that is not a decimal is read through the cleaning step |
| CurrencyUtils.ParseBrazilianExample | financas/utils.py:84-87 | "1.234,56" reads as 1234.56 |
| CurrencyUtils.FormatCurrencyBr | financas/utils.py:215-242 | the output starts with '-' iff the value is negative, has a '.'-grouped integer part, a ',' and two digits, and its digits spell the magnitude's cent count rounded half-even |
| CurrencyUtils.FormatCurrencyBrCents | financas/utils.py:229-242 | a whole number of cents is rendered exactly, sign included |
| CurrencyUtils.FormatNotDecimal | financas/utils.py:70-73 | a rendering always holds a decimal comma, so it never parses as a decimal as it stands |
| CurrencyUtils.ParseFormatRoundTrip | financas/utils.py:76 | reading back a two-place rendering gives the amount when it is not negative, and its magnitude when it is, because the '-' is cleaned away |
| CurrencyUtils.ParseSignedCents | financas/utils.py:76-87 | the same round trip stated on signed cent renderings |
| CurrencyFilter.RenderCents | financas/templatetags/currency_filters.py:38-54 | the filter's output is prefixed "R$ " or "-R$ " by the sign, with two digits after the last ',' |
| CurrencyFilter.Render | financas/templatetags/currency_filters.py:31-54 | negative amounts are prefixed "-R$ " and others "R$ ", with two fraction digits |
| CurrencyFilter.RenderBody | financas/templatetags/currency_filters.py:41-48 | after the prefix, the filter's own grouping gives the same text as the server's rendering |
| CurrencyFilter.CurrencyBr | financas/templatetags/currency_filters.py:6-57 | None, the empty string, blank text and text that is not a decimal all give "R$ 0,00"; every output has the prefix and two fraction digits |
| CurrencyFilter.CurrencyBrMatchesFormat | financas/templatetags/currency_filters.py:31-54 | the filter is "R$ " in front of the server's `format_currency_br`, with the minus moved in front of "R$" for negatives |
| CurrencyFilter.CurrencyBrText | financas/templatetags/currency_filters.py:17-23 | a string is rendered as the amount it spells |
| CurrencyFilter.CurrencyBrBlankExamples | financas/templatetags/currency_filters.py:12-21 | None and blank text render as "R$ 0,00" |
| CurrencyFilter.CurrencyBrCents | financas/templatetags/currency_filters.py:38-54 | a whole number of cents is rendered exactly |
| CurrencyFilter.CurrencyBrNegativeZero | financas/templatetags/currency_filters.py:32-52 | a negative amount that rounds to zero cents keeps its minus: "-R$ 0,00" |
| CurrencyMask.FormatNumber | financas/static/financas/js/currency-formatter.js:131-134 | the pt-BR rendering starts with '-' iff the number is negative, has a '.'-grouped integer part, a ',' and two digits, and its digits spell the magnitude's cent count rounded half up |
| CurrencyMask.FormatCurrency | financas/static/financas/js/currency-formatter.js:126-135 | NaN shows as "0,00"; any number shows with its sign, a grouped integer part, two fraction digits and its cent count rounded half up |
| CurrencyMask.FormatCurrencyCents | financas/static/financas/js/currency-formatter.js:126-135 | on whole cents the browser's rendering equals the server's `format_currency_br` |
| CurrencyMask.FormatCurrencyRoundsAway | financas/static/financas/js/currency-formatter.js:131-134 | between whole cents they differ: 0.125 shows as "0,13" in the field and "0,12" on the server |
| CurrencyMask.ParseFloat | financas/static/financas/js/currency-formatter.js:150 | `parseFloat` returns a negative number only when the text holds a '-' |
| CurrencyMask.ParseFloatNeedsDigit | financas/static/financas/js/currency-formatter.js:150 | text without a digit is NaN |
| CurrencyMask.ParseFloatSigned | financas/static/financas/js/currency-formatter.js:150 | a number starting with a digit, with or without a '-' in front, is read with its sign |
| CurrencyMask.ParseNumericValue | financas/static/financas/js/currency-formatter.js:142-152 | empty text is 0, and the result is negative only when the text holds a '-' |
| CurrencyMask.ParseNumericValueNeedsDigit | financas/static/financas/js/currency-formatter.js:142-152 | text without digits reads as 0 |
| CurrencyMask.ParseNumericValueFormat | financas/static/financas/js/currency-formatter.js:146-150 | reading back the rendering of a signed cent count gives that amount |
| CurrencyMask.HandleInput | financas/static/financas/js/currency-formatter.js:50-70 | the field shows, and the event announces, the cent count spelled by the typed digits, with no digits counting as 0 |
| CurrencyMask.Shown | financas/static/financas/js/currency-formatter.js:63-69 | reading n cents, the field shows and announces n/100 |
| CurrencyMask.HandleInputAnnouncesShown | financas/static/financas/js/currency-formatter.js:63-69 | the announced number is the one the field now shows |
| CurrencyMask.TypeDigit | financas/static/financas/js/currency-formatter.js:55-64 | typing digit d after the display of c cents shows c·10 + d cents |
| CurrencyMask.HandleInputShows | financas/static/financas/js/currency-formatter.js:55-64 | text whose digits spell n is displayed as n cents |
| CurrencyMask.Backspace | financas/static/financas/js/currency-formatter.js:55-64 | deleting the last character of a display drops its last cent digit |
| CurrencyMask.TypingScenario | financas/static/financas/js/currency-formatter.js:55-64 | "0,01", then the key 2, then the key 3, shows "0,12" and then "1,23" |
| CurrencyMask.HandleBlur | financas/static/financas/js/currency-formatter.js:86-92 | leaving the field always leaves two fraction digits, and an empty field shows "0,00" |
| CurrencyMask.HandleBlurNoDigits | financas/static/financas/js/currency-formatter.js:86-92 | leaving a field without digits shows zero |
| CurrencyMask.BlurKeepsRendering | financas/static/financas/js/currency-formatter.js:88-91 | leaving the field changes nothing that already renders whole cents |
| CurrencyMask.HandleKeydown | financas/static/financas/js/currency-formatter.js:98-119 | a single digit, a listed key and Ctrl with A, C, V or X always go through; nothing else does |
| CurrencyMask.KeydownExamples | financas/static/financas/js/currency-formatter.js:99-118 | "7", "Backspace" and Ctrl+V pass; "v" without Ctrl, "-", "," and "12" are stopped |
| CurrencyMask.SetNumericValue | financas/static/financas/js/currency-formatter.js:168-173 | the event carries exactly the given number, and NaN shows "0,00" |
| CurrencyMask.SetNumericValueShown | financas/static/financas/js/currency-formatter.js:168-172 | for whole cents the announced number is the one the field shows |
| CurrencyMask.InitialDisplay | financas/static/financas/js/currency-formatter.js:33-37 | an empty value shows "0,00", a numeric one its rendering, and any other text is left as it is |
| CurrencyMask.InitialDisplayOfPointText | financas/static/financas/js/currency-formatter.js:33-34 | the server's `units.cents` text is shown as its Brazilian rendering |
| CurrencyMask.MaskToServer | financas/static/financas/js/currency-formatter.js:55-64 | what the mask shows for typed cents, the server's parser reads back as that amount |
| Constants.AllTypes | financas/constants.py:14-23 | the types are exactly the `CHOICES` keys in order |
| Constants.ExpenseTypes | financas/constants.py:26-28 | the expense types are all valid types and exclude `receita` |
| Constants.TypesDistinct | financas/constants.py:10-12 | the three type codes are distinct |
| Constants.ValidTypeIff | financas/constants.py:31-33 | a type is valid iff it is `receita`, `despesa` or `saida` |
| Constants.ExpenseTypeIff | financas/constants.py:36-38 | a type is an expense iff it is `despesa` or `saida`; every expense type is valid, and the valid non-expense type is `receita` |
| Users.DocumentError | financas/models.py:166-178 | no error iff a person has a CPF and no CNPJ, a company has a CNPJ and no CPF, or the user is neither |
| Users.Clean | financas/models.py:160-184 | cleaning fails exactly on a document error; on success CPF and CNPJ hold only digits, keep their digits, and nothing else changes |
| Users.CleanIdempotent | financas/models.py:180-184 | cleaning a cleaned user changes nothing, as long as its documents kept a digit |
| Users.CleanEmptiesPunctuation | financas/models.py:166-184 | a CPF of only punctuation passes once and is emptied, so the next clean rejects it |
| Users.Save | financas/models.py:186-199 | an existing schema name is never overwritten; an empty one becomes "user_" + the digits of the person's CPF or the company's CNPJ; nothing else changes |
| Users.SaveIdempotent | financas/models.py:191 | saving twice is saving once |
| Users.SchemaNameFits | financas/models.py:186-199 | a generated name from a document of at most 15 digits fits the 20-character column |
| Users.GetDocumento | financas/models.py:201-209 | the CPF of a person, the CNPJ of a company, and nothing otherwise |
| Users.OwnSchemaAfterSave | financas/models.py:237-241 | after clean and save, a user reaches the schema named after their own document, and an ordinary user reaches no other |
| Users.PodeAcessarSchema | financas/models.py:237-241 | a user may use their own schema, and a superuser any schema |
| Users.MarcarComoUsado | financas/models.py:904-909 | the token is marked used and nothing else changes |
| Users.TokenValido | financas/models.py:897-902 | a token is valid while it is unused and not yet expired |
| Users.TokenLifecycle | financas/models.py:897-909 | a used token is never valid; a valid token was valid at every earlier time; no token is valid from its expiry on |
| Tenancy.Visible | financas/models.py:253-260 | with a current tenant, only that tenant's rows remain; without one, every row |
| Tenancy.VisibleIff | financas/models.py:257-258 | with a current tenant, a row is visible iff it is stored and belongs to that tenant |
| Tenancy.VisibleAppend | financas/models.py:257-258 | the visible part of two lists together is the visible parts in order |
| Tenancy.Stamp | financas/models.py:264-265 | creating under a current tenant stamps its id and keeps the data; without one the row is kept as given |
| Tenancy.Create | financas/models.py:262-266 | creation appends one row with the given data and keeps the existing rows |
| Tenancy.CreateVisible | financas/models.py:262-266 | a row created under a tenant is visible to that tenant, after what it saw before |
| Tenancy.BulkFill | financas/models.py:268-273 | bulk creation keeps every row's data, leaves rows that already have a tenant untouched, and fills only the missing ids |
| Tenancy.BulkCreate | financas/models.py:268-274 | bulk creation appends the filled rows, which all carry a tenant when one is current |
| Middleware.SanitizeSchemaName | financas/middleware.py:238-246 | an empty identifier gives nothing; any other gives "user_" followed by characters of the identifier, keeping every character other than '.', '-' and '/' and none of those; an identifier without them is kept whole |
| Middleware.DigitsAndSeparatorsJoin | financas/middleware.py:244 | text of digits and separators stays so when joined |
| Middleware.DropSeparatorsKeepsDigits | financas/middleware.py:244 | on text of digits and separators, removing the separators keeps exactly the digits |
| Middleware.CpfMaskSeparated | financas/middleware.py:244 | a masked CPF holds only digits and separators |
| Middleware.CnpjMaskSeparated | financas/middleware.py:244 | a masked CNPJ holds only digits and separators |
| Middleware.SanitizeFormatted | financas/middleware.py:244-246 | a formatted CPF or CNPJ gives the same schema name as its bare digits |
| Middleware.Identifier | financas/middleware.py:262 | the identifier is never empty: the CPF, else the CNPJ, else "id_" and the user id |
| Middleware.ProcessRequest | financas/middleware.py:248-302 | an anonymous request leaves no tenant on the connection; an authenticated one sets the user's id and a schema name from the identifier |
| Middleware.ProcessRequestForgets | financas/middleware.py:249-253 | what the connection held before the request has no effect on it |
| Middleware.ProcessResponse | financas/middleware.py:304-311 | after the response no tenant state remains |
| Middleware.RequestCycleClears | financas/middleware.py:248-311 | a full request cycle leaves the connection clear |
| Middleware.MiddlewareSelectsSavedSchema | financas/middleware.py:262-278 | for a cleaned and saved user the middleware selects the schema that save generated |
| Middleware.GetClientIp | financas/middleware.py:171-178 | no forwarded header gives the remote address; otherwise its text before the first comma, untrimmed |
| Middleware.ClientIpFirstHop | financas/middleware.py:175 | the first hop of a forwarded list is the client address |
| Middleware.RequestTimeout | financas/middleware.py:57-77 | admin and static paths get no timeout; import paths get the import timeout; others get the request limit |
| Middleware.ImportTimeout | financas/middleware.py:70-72 | an import path gets 120 seconds by default |
| Middleware.PageTimeout | financas/middleware.py:57-75 | an ordinary page gets 60 seconds by default |
| Middleware.AdminUntimed | financas/middleware.py:66-67 | admin paths get no timeout |
| Categories.CleanCategoria | financas/models.py:322-341 | the name error is absent iff the stripped name has at least 2 characters and the raw name at most 50, and is "required" iff the stripped name is empty; the colour error fires iff a colour is given and does not match `#RRGGBB` |
| Categories.NomeRule | financas/views.py:438-489 | a name is accepted iff it has 2 to 50 characters and no case-insensitive duplicate; "required" iff it is empty |
| Categories.SubmittedCorAsWritten | financas/views.py:491-493 | the written check keeps exactly the 7-character colours starting with '#', whatever their other characters, and gives the default for every other text |
| Categories.SubmittedCor | financas/views.py:491-493 | every stored colour is a valid `#RRGGBB`; a valid one is kept, anything else becomes the default |
| Categories.ColourCheckTooWeak | financas/views.py:491-493 | "#zzzzzz" passes the written check but is not a colour; on valid colours both checks agree |
| Categories.AddAsWritten | financas/views.py:431-439 | a blank name ends in a server error; any other name does not |
| Categories.Add | financas/views.py:431-535 | a category is created iff its stripped name has 2 to 50 characters and no case-insensitive duplicate; it then holds the submitted fields with a valid colour |
| Categories.AddAsWrittenAgrees | financas/views.py:451-535 | for every non-blank name the view as written and the corrected one reach the same outcome |
| Categories.BlankNameCrashes | financas/views.py:438-439 | a blank name crashes the view as written, where the intended answer is "name required" |
| Categories.AddedIsClean | financas/models.py:329-338 | whatever the view creates passes the model's own clean |
| Categories.NomeRuleMatchesClean | financas/models.py:329-334 | on a stripped name, the view's length rule and the model's agree |
| Categories.AddThenDuplicate | financas/views.py:477-478 | once a name is added, the same name in any letter case is refused |
| Categories.AccentedDuplicate | financas/views.py:477-478 | the duplicate test folds accented capitals too: a category "água" makes "ÁGUA" a duplicate |
| Categories.Others | financas/views.py:593 | the other categories are exactly those with a different id |
| Categories.Edit | financas/views.py:568-605 | the corrected edit: it succeeds iff the name rules hold with the category itself excluded from the duplicate check, and then changes only name, type and colour, the colour being a valid `#RRGGBB` or the default |
| Categories.EditAsWritten | financas/views.py:568-605 | the edit as written: the same outcome as the corrected one; it changes only name, type and colour, storing the submitted colour whenever it has 7 characters starting with '#' and the default otherwise |
| Categories.EditAsWrittenAgrees | financas/views.py:597-599 | the written and corrected edits differ only in the stored colour, and agree whenever the submitted colour is a hex colour or fails the written check |
| Categories.DuplicateOthers | financas/views.py:593 | a duplicate excluding one id is a duplicate among the other categories |
| Categories.EditIsAddWithoutSelf | financas/views.py:580-599 | editing is adding the same form among the other categories, under the same id |
| Categories.EditKeepsOwnName | financas/views.py:592-593 | re-submitting a category's own name is never refused as a duplicate |
| Ledger.Quantos | financas/services.py:201 | a window counts at most all rows |
| Ledger.SomaAppend | financas/services.py:166-172 | a sum over two lists together is the sum of their sums |
| Ledger.SomaUnion | financas/services.py:170-172 | summing over two disjoint type sets is summing over each |
| Ledger.SomaOutside | financas/services.py:158-172 | rows outside the window contribute nothing |
| Ledger.SomaReplace | financas/models.py:394-404 | replacing a row by one with the same account, date, type, value and plan leaves every sum unchanged |
| Ledger.SomaNextMonth | financas/services.py:175-191 | the sum before the next month's first day is the sum before this month's first day plus this month |
| Ledger.AtualizarSaldo | financas/models.py:580-611 | an account with no income and no `despesa` rows has a zero balance |
| Ledger.SaldoAfterAppend | financas/models.py:594-608 | a new income raises the balance by its value, a new `despesa` lowers it, anything else leaves it |
| Ledger.SaldoIgnoresPago | financas/models.py:597-605 | marking a row paid or unpaid does not move the balance |
| Ledger.MarcarComoPago | financas/models.py:394-398 | the row is paid on the given date, or today when none is given, and nothing else changes |
| Ledger.MarcarComoNaoPago | financas/models.py:400-404 | the row is unpaid with no payment date, and nothing else changes |
| Ledger.PagoRoundTrip | financas/models.py:394-404 | paying and then unpaying an unpaid row gives it back unchanged |
| Ledger.CalcularTotalizadores | financas/services.py:392-420 | the net balance is income minus expenses, the count is the number of rows, and an empty list gives zeros |
| Ledger.QuantosTudo | financas/services.py:413 | the window without conditions counts every row |
| Ledger.TotalizadoresAppend | financas/services.py:404-413 | the totals of two lists together are the sums of their totals |
| Ledger.TotalizadoresSingle | financas/services.py:404-410 | one row counts as income when `receita`, as expense when `despesa` or `saida`, and always in the count |
| Ledger.SaldoVersusTotalizadores | financas/models.py:598-608 | over one account, the balance equals the service's net total plus the `saida` rows, which only the service subtracts |
| Ledger.PeriodoPedido | financas/services.py:152-155 | a given month and year are kept; a missing one defaults to today's |
| Ledger.ObterResumo | financas/services.py:134-230 | a missing account is an error; the month's movement is income minus expenses, and the current balance is the previous balance plus the movement |
| Ledger.ResumoContinuity | financas/services.py:175-191 | the balance a month ends with is the balance the next month starts from |
| Ledger.ResumoIgnoresInstallments | financas/services.py:158-179 | a row that belongs to an installment plan never moves the summary |
| Ledger.QuantosAppend | financas/services.py:201 | counts over two lists add up |
| Ledger.CriarTransacao | financas/services.py:245-338 | a transaction is created only for an existing account, a positive value, a valid type, a given date not after the São Paulo date `hoje` and a category that exists, stored on the given date or, without one, on the UTC date `hojeUtc`; a missing account, a non-positive value, an unknown type, a future date, an unknown category name each give their own error, and a missing category or a name two categories share gives the generic creation error |
| Ledger.CategoriasComNome | financas/services.py:285 | the ids returned all carry the name, and every category of that name is returned |
| Ledger.CategoriasComNomeEmpty | financas/services.py:284-287 | the lookup is empty iff no category has the name |
| Ledger.CategoriasComNomeTwo | financas/services.py:285-290 | two categories of the name make the lookup hold at least two ids |
| Ledger.CategoriasComNomeOne | financas/services.py:285 | a name only one category carries finds exactly its id |
| Ledger.DefaultDateAfterToday | financas/services.py:277-297 | at 22:00 on 14 September 2025 in São Paulo a call without a date stores 15 September, which the same call refuses as future when given explicitly |
| Ledger.CriarTransacaoDataLocal | financas/services.py:245-338 | with the default read on the São Paulo clock, every stored transaction's date is the given one or today and never after today |
| Ledger.CriarDataLocalAgrees | financas/services.py:277-297 | the written and corrected creations refuse alike with the same error and store the same row, except for the default date when the two clocks differ |
| Ledger.CriarAccepts | financas/services.py:266-297 | a well-formed call naming a category only one category carries creates the transaction, on the given date or else the UTC date, with that category, the new id and the description |
| Listing.ParseInt | financas/services.py:476 | `int(s)` succeeds only on text with a digit |
| Listing.ParseIntOfDigits | financas/services.py:476 | a run of digits reads as its decimal value |
| Listing.ParseIntDigits | financas/services.py:476 | the decimal text of a number reads back as that number |
| Listing.Filtrar | financas/services.py:458-495 | a row is kept iff it is present and passes every filter that is given and readable; the result is never longer |
| Listing.FiltrarSame | financas/services.py:458-495 | filters that pass the same rows select the same list |
| Listing.Insert | financas/services.py:498 | insertion adds exactly one copy of the row |
| Listing.InsertSorted | financas/services.py:498 | inserting into a newest-first list keeps it newest first |
| Listing.Ordenar | financas/services.py:498 | ordering is a permutation |
| Listing.OrdenarSorted | financas/services.py:498 | the ordered list is by date descending, then id descending |
| Listing.Listar | financas/services.py:432-516 | the listing is a permutation of the filtered rows, newest first, holding a row iff it passes the filters |
| Listing.ListarAll | financas/services.py:454-498 | without filters every transaction is listed, each as often as it occurs |
| Listing.FiltrarAll | financas/services.py:458-495 | no filter keeps every row in order |
| Listing.FilterNarrows | financas/services.py:458-495 | dropping any one filter can only add rows |
| Listing.MalformedDateIgnored | financas/services.py:458-472 | a start or end date that does not parse is ignored |
| Listing.MalformedCategoryIgnored | financas/services.py:474-480 | a category id that is not an integer is ignored |
| Listing.UnknownTypeIgnored | financas/services.py:482-487 | an unknown type is ignored |
| Listing.TextFilterIgnoresCase | financas/services.py:489-495 | the responsible and description filters ignore letter case |
| Installments.ValorParcela | financas/models.py:444-446 | no installment value exists without installments; otherwise n installments of that value make the total |
| Installments.Adjust | financas/models.py:488-489 | a due day above 1 moves the date to that day capped at 28; otherwise the date is kept |
| Installments.AdjustIdempotent | financas/models.py:488-489 | adjusting twice is adjusting once |
| Installments.Step | financas/models.py:499-508 | a monthly plan steps one calendar month; the others step their number of days |
| Installments.DueDate | financas/models.py:484-508 | every due date is a valid date |
| Installments.DueDateDays | financas/models.py:503-508 | without day adjustment, a day-based plan's k-th due date is k steps of days after the first |
| Installments.DueDatesIncrease | financas/models.py:503-508 | with a positive step, due dates strictly increase |
| Installments.DueDateRepeats | financas/models.py:507-508 | a custom interval without a number of days repeats the first date |
| Installments.MonthsAfter | financas/models.py:502 | counting months forward stays in 1..12 |
| Installments.DueDateMonthly | financas/models.py:488-502 | a monthly plan with a due day falls k months after the first, on the capped day |
| Installments.MonthlyDrift | financas/models.py:484-502 | a monthly plan starting on 31 January without a due day keeps the clamped day: 28 February, then 28 March |
| Installments.GerarParcelas | financas/models.py:478-511 | an already generated plan gives nothing new; zero installments is a division error; otherwise exactly n installments numbered 1..n at the schedule's dates and values, and the plan flagged |
| Installments.SomaParcelas | financas/models.py:460-466 | the sum of the installments with a given paid flag is zero when none has it and the total when all have it |
| Installments.Total | financas/models.py:460-466 | installments of non-negative values total a non-negative amount |
| Installments.ValorPago | financas/models.py:460-462 | the paid total is zero while nothing is paid and the whole total once everything is |
| Installments.ValorPendente | financas/models.py:464-466 | the pending total is the whole total while nothing is paid and zero once everything is |
| Installments.PagoMaisPendente | financas/models.py:460-466 | the paid and pending totals add up to the total |
| Installments.TotalOfEqual | financas/models.py:460-466 | n installments of equal value total n times that value |
| Installments.GeneratedAddUp | financas/models.py:483-497 | freshly generated installments total the plan's value, all of it pending |
| Installments.QuantisedTotalBound | financas/models.py:483-497 | stored to the cent, n installments of total / n miss the total by at most n half cents |
| Installments.QuantisedThirdsLoseCent | financas/models.py:483-497 | 100.00 in three installments is stored as 33.33 each, 99.99 in all |
| Installments.PagarPlanejada | financas/models.py:815-845 | paying marks the installment paid on the date, linked to a new paid `despesa` on the plan's account worth the amount paid, or the installment's value by default |
| Installments.SemId | financas/models.py:851-852 | removing a transaction by id keeps exactly the others |
| Installments.ReabrirPlanejada | financas/models.py:847-857 | reopening clears paid, date and link, and deletes the linked transaction if any |
| Installments.SemIdFresh | financas/models.py:851-852 | removing an id that is not present changes nothing |
| Installments.SemIdAppend | financas/models.py:851-852 | removal distributes over concatenation |
| Installments.PagarThenReabrir | financas/models.py:815-860 | paying lowers the account balance by the amount; reopening restores the installment and the transactions exactly |
| Installments.ProcessarPagamento | financas/views.py:2321-2444 | with both fields filled in, a payment is accepted iff the date parses, is not after today and is not in a closed month, and the amount parses, is positive and at most the installment; otherwise missing fields, an unreadable date, a future date, a closed month, an unreadable amount, a non-positive amount and an overpayment each give their own error, in that order; a full payment marks the row paid; a partial one splits it into the paid part and an unpaid remainder that add up to the original value |
| Installments.Aplicar | financas/views.py:2372-2430 | a payment writes one row, plus one when partial |
| Installments.PaymentMovesSaldoByAmount | financas/views.py:2372-2437 | full or partial, a payment lowers the account balance by exactly the amount paid |
| Installments.SaldoAfterPagamento | financas/views.py:2395-2430 | a value-conserving payment moves the balance by the amount paid |
| Installments.SaldoChange | financas/models.py:603-608 | changing one `despesa` row's value moves the balance by the difference |
| Installments.OverpaymentRefused | financas/views.py:2367-2369 | paying more than the installment is refused |
| Closing.ExistsExtends | financas/views.py:1296 | adding closings never removes an existing one |
| Closing.Ultimo | financas/views.py:1337-1347 | the latest selected closing is one of them and no selected closing is later; none exactly when none is selected |
| Closing.UltimoSame | financas/views.py:1337-1347 | selectors that agree on the list pick the same closing |
| Closing.SaldoInicialAsWritten | financas/views.py:1337-1351 | the opening balance as written takes the latest closing of an earlier year whenever one exists |
| Closing.SaldoInicial | financas/models.py:734-742 | the opening balance is zero when the account has no earlier closing |
| Closing.SaldoInicialAsWrittenAgrees | financas/views.py:1337-1351 | when the same year has no earlier closing, the written and corrected opening balances agree |
| Closing.SaldoInicialSkipsEarlierMonth | financas/views.py:1337-1351 | with December 2024 at 100 and January 2025 at 150, the written rule opens February 2025 at 100, the corrected one at 150 |
| Closing.SaldoInicialChains | financas/models.py:734-742 | with one closing per account and month, the next month opens at this month's final balance |
| Closing.PeriodoFechamento | financas/views.py:1299-1320 | the period starts on the 1st and is early iff today lies in that month before its last day; it then ends today, otherwise on the last day |
| Closing.DiasConsiderados | financas/views.py:1484 | the days counted lie between 1 and the month's length: today's day when early, the whole month otherwise |
| Closing.NovoFechamento | financas/views.py:1322-1373 | a closing holds the period's `receita` and `despesa` sums and ends at opening plus income minus expenses |
| Closing.FecharComAbertura | financas/views.py:1280-1381 | the closing action with the opening balance given: refused for an account that is not the tenant's, then when the month is not allowed, when the account already has a closing for it, or for an impossible month; otherwise a closing of that month opening at the given balance, holding the period's sums |
| Closing.FecharConta | financas/views.py:1280-1381 | the corrected closing action: the same refusals in the same order, a closing made exactly when none applies, opening at the latest earlier closing's final balance, with the period's sums and the balance identity |
| Closing.FecharContaAsWritten | financas/views.py:1280-1381 | the closing action as written: the same refusals in the same order, and a failure on every request that passes them, because the row is created with `eh_parcial`, which `FechamentoMensal` (financas/models.py:630-667) does not declare |
| Closing.Aplicar | financas/views.py:1358-1381 | a closing made is appended and its final balance becomes the account's; a refusal or a failure changes neither |
| Closing.FecharContaAsWrittenNeverStores | financas/views.py:1358-1381 | as written, no request changes the stored closings or the balance; it refuses what the corrected action refuses and fails exactly where that one stores a closing |
| Closing.FecharContaAsWrittenFails | financas/views.py:1337-1373 | after December 2024 at 100 and January 2025 at 150, closing February 2025 as written computes an opening of 100 and then fails; the corrected action stores a closing opening at 150 |
| Closing.FecharContaOnce | financas/views.py:1296-1297 | a second closing of the same account and month is refused |
| Closing.ConsecutiveClosings | financas/models.py:734-742 | with the corrected opening rule, the month after a closing opens at its final balance |
| Closing.InMonthBetween | financas/views.py:1322-1326 | a date lies in a month iff it is between the month's first and last days |
| Closing.FullMonthSums | financas/views.py:1322-1334 | the full-month period sums exactly the month's rows |
| Closing.FechamentoAutomaticoAsWritten | financas/models.py:691-709 | as written the automatic closing fails every day: not the 1st, or an undefined name on the 1st |
| Closing.AutomaticNeverCloses | financas/models.py:705-709 | as written the automatic closing never closes anything |
| Closing.FechamentoCompleto | financas/models.py:721-758 | a full-month closing of the previous month, never partial, with the corrected opening balance and the balance identity |
| Closing.UltimoIgnoresUnselected | financas/models.py:734-742 | closings the selection passes over do not change the latest selected one |
| Closing.OtherAccountsUnchanged | financas/models.py:716-742 | closings of other accounts leave an account's opening balance and its closed months unchanged |
| Closing.FecharTodas | financas/models.py:711-760 | each closing made is for a listed account not yet closed for that month, is exactly that account's full-month closing with the opening taken from the closings before the run, and no account is closed twice |
| Closing.FecharTodasCovers | financas/models.py:715-760 | afterwards every listed account has a closing for the month |
| Closing.FecharTodasNothingLeft | financas/models.py:716-719 | when every account is closed, nothing more is closed |
| Closing.FechamentoAutomatico | financas/models.py:680-763 | it fails iff today is not the 1st; otherwise each closing is a listed account's full-month closing of the previous month, with its sums and its opening at the latest earlier final balance, for an account not yet closed |
| Closing.AutomaticIdempotent | financas/models.py:716-719 | run twice on the same day, it closes nothing the second time |
| Closing.AutomaticMatchesManual | financas/models.py:696-758 | on the 1st, the automatic closing of an account equals the page's closing of the previous month |
| Closing.MesAutomatico | financas/views.py:1589-1620 | refused when automatic closing is disabled; when only the previous month is allowed, it is chosen on the 1st and refused otherwise; else the current month |
| Closing.MesPadrao | financas/views.py:1393-1435 | the default month is the previous one when only that is allowed, otherwise the current one |
| Closing.MesExibido | financas/views.py:1408-1435 | the month shown is always valid; it differs from the default only when both parameters are integers with a month in 1..12 |
| Closing.MesExibidoNavigation | financas/views.py:1412-1426 | a month in 1..12 is shown as requested; a larger one falls back to the default |
| Closing.PeriodoPreviewAsWritten | financas/views.py:1438-1484 | as written the preview is early whenever the current month is allowed and today is before the shown month's last day |
| Closing.PreviewOverreaches | financas/views.py:1442-1484 | on 10 June 2025, showing March gives a preview running to today, 102 days long, where the month has 31 |
| Closing.PlanosDaConta | financas/views.py:970-987 | the plan count is none exactly when no plan is on the account |
| Closing.MotivosBloqueio | financas/views.py:967-988 | no reason iff the balance is zero and the account has no transactions and no plans; one reason per failing condition |
| Closing.ExcluirContaSegura | financas/views.py:990-1011 | deletion happens iff it is a POST, nothing blocks it, and the confirmation is exactly "CONFIRMO A EXCLUSAO" |
| Closing.QuantosPositive | financas/views.py:969-982 | an account with a transaction has a positive transaction count |
| Closing.EmptyAccountSums | financas/models.py:594-608 | an account without transactions sums to zero |
| Closing.DeletionGuard | financas/views.py:967-997 | an account with a transaction or a plan is never deleted; one with neither has a zero balance and is deleted on the confirmed POST |
| Dates.DaysInMonth | financas/views.py:1308 | a month has 28 to 31 days, and 29 exactly for February of a leap year |
| Dates.AddDaysOrdinal | financas/models.py:504-508 | adding n days moves the day number by exactly n |
| Dates.AddOneMonth | financas/models.py:502 | one month later is in the next month, on the same day or that month's last day |
| Dates.PrevMonth | financas/views.py:1400-1406 | the previous month is in 1..12 and has this month as its next |
| Dates.ParseIsoFormat | financas/services.py:460 | a date written as `YYYY-MM-DD` parses back to itself |
| Dates.ParseIsoDate | financas/services.py:460 | a parsed `YYYY-MM-DD` date is a valid date with a year in 1..9999 |
| Dates.BeforeOrdinal | financas/services.py:461 | date order is the order of day numbers |

## Left out

- Persistence: the ORM, querysets, migrations, `save()`/`delete()` side effects and the maintenance scripts are not modelled. Rows are in-memory sequences; ids of new rows are parameters.
- Signals, logging, timing, request ids: `financas/signals.py` and the middleware's logging and timing are not modelled. The balance update a signal would trigger is stated as a lemma about `Conta.atualizar_saldo` instead.
- Network and mail: `buscar_dados_cnpj`, e-mail verification and password-reset mail flows, and random codes and tokens are not modelled. A token's times are integers supplied by the caller.
- Clocks and time zones: `get_data_atual_brasil`, `timezone.now()` and `date.today()` become a `hoje`/`agora` parameter. Where one operation reads two clocks, each gets its own parameter: `Ledger.CriarTransacao` checks against the São Paulo date `hoje` and defaults to the date of `timezone.now()`, `hojeUtc`. That date is the UTC date when Django's `USE_TZ` is on; the settings file is not part of this model.
- `verificar_mes_fechado` is not part of this model. The payment view takes the closed (year, month) pairs of the account as a set.
- `ConfiguracaoFechamento` is not defined in models.py, so `views.py` cannot import it. Its flags and the verdict of `pode_fechar_mes` are boolean parameters: `permitir_fechamento_apenas_mes_anterior` is `apenasAnterior`, `fechamento_automatico` is the `habilitado` parameter of `Closing.MesAutomatico`, and the verdict is `podeFechar`.
- The HTML, JSON and redirect shapes of the views and their messages are not modelled, except where an error message is part of a validator's contract.
- `get_tenant_id` is not modelled, because it uses the per-process randomised `hash`.
- `handleFocus` is not modelled: it only selects the text after a timeout.
- Floating point: JavaScript numbers and `parseFloat`/`parseInt` are exact reals here, so binary rounding, exponents and `Infinity` are left out. Python's `Decimal` is read on plain signed decimal literals only, without exponents, NaN, Infinity, underscores or its 28-digit context. Python's `int()` underscores are covered in the text-handling line below.
- Installments.GeneratedAddUp: installment values are exact quotients, so it holds for exact values. The database's quantisation of `valor` to two places is left out; `Installments.QuantisedTotalBound` and `Installments.QuantisedThirdsLoseCent` state what the rounding costs.
- Text handling covers ASCII digits and the ASCII/Latin-1 blanks only. Python's `\d`, `int()` and `strip()` also accept other Unicode digits and spaces, and `int()` also accepts underscores between digits (`int("1_0")` is 10), which `Listing.ParseInt` refuses.
- Categories.Add: the `nome__iexact` duplicate test folds the capitals of ASCII and Latin-1 only (`Text.LowerChar`). PostgreSQL's `UPPER` also folds other Unicode letters, following the database's locale, and those names are compared as they are.
- Categories.AddAsWritten: the same duplicate test as `Categories.Add`, with the same ASCII and Latin-1 folding.
- Categories.Edit: the same duplicate test as `Categories.Add`, with the same ASCII and Latin-1 folding.
- Categories.EditAsWritten: the same duplicate test as `Categories.Add`, with the same ASCII and Latin-1 folding.
- Listing.Filtrar: the `__icontains` filters fold the capitals of ASCII and Latin-1 only. Other Unicode letters are matched with their case, where PostgreSQL's `UPPER` would fold them by the database's locale.
- Listing.Listar: built on `Listing.Filtrar`, with the same ASCII and Latin-1 folding.
- Listing.TextFilterIgnoresCase: states case-insensitivity for the ASCII and Latin-1 capitals only, as `Listing.Filtrar` folds them.
- Dates are proleptic Gregorian dates without Python's bound of 1..9999, except where parsing or a constructor would raise.
- Listing.ParseInt: its own contract only says that success needs a digit. Its exact value on digit strings is stated by `Listing.ParseIntOfDigits` and `Listing.ParseIntDigits`.
- Ledger.Soma: the sum carries no contract of its own. Its meaning is stated by the append, union, replacement and outside-the-window lemmas listed above, and the balance built on it by `Ledger.SaldoAfterAppend`.

## Findings

| source | as written | input that shows it | evidently intended | confidence | as-written member | corrected member |
|---|---|---|---|---|---|---|
| financas/views.py:1337-1351 | the opening balance takes the latest closing of any earlier year and only then looks at earlier months of the same year | closings for December 2024 (final 100) and January 2025 (final 150); closing February 2025 computes an opening of 100, the balance the row would carry once the failure of the next row is removed | open at the final balance of the latest earlier closing, as `realizar_fechamento_automatico` does at models.py:735-742 | high, not executed | Closing.SaldoInicialAsWritten (shown by Closing.SaldoInicialSkipsEarlierMonth; Closing.FecharContaAsWrittenFails shows the view computing it) | Closing.SaldoInicial and Closing.FecharConta (proved by Closing.SaldoInicialChains and Closing.ConsecutiveClosings) |
| financas/views.py:1361-1373 | the closing row is created with the keyword `eh_parcial`, a field the `FechamentoMensal` model (models.py:630-667) does not declare, so Django raises TypeError before saving; the `try` has only a `finally` | any `fechar_conta` POST for an allowed, not yet closed, valid month of the tenant's account ends in a server error with no closing stored and the balance unchanged | store the closing with its early flag and set the account's balance to its final balance | high, not executed | Closing.FecharContaAsWritten (shown by Closing.FecharContaAsWrittenNeverStores and Closing.FecharContaAsWrittenFails) | Closing.FecharConta (proved by Closing.FecharContaOnce and Closing.ConsecutiveClosings) |
| financas/views.py:1442-1445, 1475-1484 | the preview's early flag compares today's day with the shown month's length, whatever month is shown | on 10 June 2025 with the current month allowed, showing March 2025 gives a period from 1 March to 10 June, 102 days | early only when the shown month is the current one, as the POST branch at views.py:1310-1314 does | high, not executed | Closing.PeriodoPreviewAsWritten (shown by Closing.PreviewOverreaches) | Closing.PeriodoFechamento and Closing.DiasConsiderados |
| financas/services.py:277-297 | the future check compares with the São Paulo date (utils.py:29, 47), but a call without a date stores `timezone.now().date()`, the UTC date | at 22:00 on 14 September 2025 in São Paulo (01:00 UTC on the 15th) a call without a date stores 15 September, a date the same call refuses as future when it is given | default to the São Paulo date `get_data_atual_brasil()` that the future check uses | medium (assumes `USE_TZ` is on), not executed | Ledger.CriarTransacao (shown by Ledger.DefaultDateAfterToday) | Ledger.CriarTransacaoDataLocal (with Ledger.CriarDataLocalAgrees) |
| financas/models.py:705-709 | `date` and `timedelta` are used but never imported in models.py | any call on the 1st of a month raises NameError before any account is closed | close the previous month in full for every account not yet closed | high, not executed | Closing.FechamentoAutomaticoAsWritten (shown by Closing.AutomaticNeverCloses) | Closing.FechamentoAutomatico (proved by Closing.AutomaticIdempotent and Closing.AutomaticMatchesManual) |
| financas/views.py:438-439 | a blank name reads `ErrorMessages.CATEGORIA_NOME_OBRIGATORIO`, which constants.py:50-59 does not define | a POST with `nome` empty or blank raises AttributeError | reject with a "name required" error | high, not executed | Categories.AddAsWritten (shown by Categories.BlankNameCrashes) | Categories.Add |
| financas/views.py:491-493, 597-599 | the colour check accepts any 7-character text starting with '#' | `#zzzzzz` is stored, and `Categoria.clean` (models.py:337-338) would reject it | store only `#RRGGBB` colours and otherwise use the default | medium, not executed | Categories.SubmittedCorAsWritten and Categories.EditAsWritten (shown by Categories.ColourCheckTooWeak) | Categories.SubmittedCor and Categories.Edit |

=== FILE: categories.dfy ===
/** Transaction categories: the model-level validation `Categoria.clean`, and the rules
    the "add" and "edit" category views apply to a submitted form before they store it. */
module Categories {
  import opened Wrappers
  import opened Text

  /** A category row of the current tenant (the tenant column is handled by the tenant
      manager and left out here). */
  datatype Categoria = Categoria(id: nat, nome: string, tipo: string, cor: string)

  /** The name rules, in the order both layers test them. */
  datatype NomeError = NomeObrigatorio | NomeCurto | NomeLongo | NomeDuplicado

  const MinNome: nat := 2
  const MaxNome: nat := 50
  const DefaultCor: string := "#007bff"
  const DefaultTipo: string := "ambos"

  predicate IsHexDigit(c: char) {
    IsDigit(c) || 'a' <= c <= 'f' || 'A' <= c <= 'F'
  }

  /** '#' followed by exactly six hexadecimal digits. */
  predicate IsHexColor(s: string) {
    |s| == 7 && s[0] == '#' && forall i :: 1 <= i < 7 ==> IsHexDigit(s[i])
  }

  /** Python's `re.match(r'^#[0-9A-Fa-f]{6}$', s)`: `$` also matches just before a final
      line feed, so one trailing "\n" is accepted. */
  predicate MatchesHexPattern(s: string) {
    IsHexColor(s) || (|s| == 8 && s[7] == '\n' && IsHexColor(s[..7]))
  }

  /** What `Categoria.clean` reports: at most one name error, and whether the colour is
      rejected. */
  datatype CleanReport = CleanReport(nome: Option<NomeError>, corInvalida: bool)

  /** `Categoria.clean`: the stripped name must have at least 2 characters, the raw name
      at most 50, and a non-empty colour must match the hexadecimal pattern. */
  function CleanCategoria(c: Categoria): (r: CleanReport)
    ensures r.nome.None? <==> |Strip(c.nome)| >= MinNome && |c.nome| <= MaxNome
    ensures r.nome == Some(NomeObrigatorio) <==> Strip(c.nome) == []
    ensures r.nome != Some(NomeDuplicado)
    ensures r.corInvalida <==> c.cor != [] && !MatchesHexPattern(c.cor)
  {
    var t := Strip(c.nome);
    var nome :=
      if t == [] then Some(NomeObrigatorio)
      else if |t| < MinNome then Some(NomeCurto)
      else if |c.nome| > MaxNome then Some(NomeLongo)
      else None;
    CleanReport(nome, c.cor != [] && !MatchesHexPattern(c.cor))
  }

  /** `clean` raises no ValidationError. */
  predicate IsClean(c: Categoria) {
    CleanCategoria(c) == CleanReport(None, false)
  }

  /** Another category of the list has the same name up to letter case (`nome__iexact`);
      `exclude` is the id of the category being edited. */
  predicate Duplicate(nome: string, existing: seq<Categoria>, exclude: Option<nat>) {
    exists i :: 0 <= i < |existing| && Lower(existing[i].nome) == Lower(nome)
      && (exclude.None? || existing[i].id != exclude.value)
  }

  /** The views' name rule on the stripped name: present, 2 to 50 characters, and not
      taken by another category. */
  function NomeRule(nome: string, existing: seq<Categoria>, exclude: Option<nat>): (r: Option<NomeError>)
    ensures r.None? <==> MinNome <= |nome| <= MaxNome && !Duplicate(nome, existing, exclude)
    ensures r == Some(NomeObrigatorio) <==> nome == []
    ensures r == Some(NomeDuplicado) ==> Duplicate(nome, existing, exclude)
  {
    if nome == [] then Some(NomeObrigatorio)
    else if |nome| < MinNome then Some(NomeCurto)
    else if |nome| > MaxNome then Some(NomeLongo)
    else if Duplicate(nome, existing, exclude) then Some(NomeDuplicado)
    else None
  }

  /** The posted form; a field that was not posted is None. */
  datatype Form = Form(nome: Option<string>, tipo: Option<string>, cor: Option<string>)

  function FormNome(f: Form): string { Strip(f.nome.GetOr([])) }
  function FormTipo(f: Form): string { Strip(f.tipo.GetOr(DefaultTipo)) }
  function FormCor(f: Form): string { Strip(f.cor.GetOr(DefaultCor)) }

  /** The colour check both views write: anything that starts with '#' and is 7
      characters long is kept, whatever its other characters. */
  function SubmittedCorAsWritten(cor: string): (r: string)
    ensures r == cor || r == DefaultCor
    ensures |r| == 7 && r[0] == '#'
    ensures |cor| == 7 && cor[0] == '#' ==> r == cor
    ensures !(|cor| == 7 && cor[0] == '#') ==> r == DefaultCor
  {
    if StartsWith(cor, "#") && |cor| == 7 then cor else DefaultCor
  }

  /** The colour check the views evidently mean (their comment says "hexadecimal
      format"): a colour that is not '#RRGGBB' is replaced by the default blue. */
  function SubmittedCor(cor: string): (r: string)
    ensures IsHexColor(r)
    ensures IsHexColor(cor) ==> r == cor
    ensures !IsHexColor(cor) ==> r == DefaultCor
  {
    if IsHexColor(cor) then cor else DefaultCor
  }

  /** The written check lets through a colour `Categoria.clean` refuses, and the two checks
      agree on every real hexadecimal colour. */
  lemma ColourCheckTooWeak(cor: string)
    ensures var bad := "#zzzzzz";
      SubmittedCorAsWritten(bad) == bad && !MatchesHexPattern(bad) && SubmittedCor(bad) == DefaultCor
    ensures IsHexColor(cor) ==> SubmittedCorAsWritten(cor) == SubmittedCor(cor)
  {
    var bad := "#zzzzzz";
    assert bad[..1] == "#";
    assert !IsHexDigit(bad[1]);
    assert !IsHexColor(bad[..7]) by { assert bad[..7] == bad; }
    if IsHexColor(cor) {
      assert cor[..1] == "#";
    }
  }

  /** How a POST to a category view ends: the category is stored, the form is shown again
      with a name error, or the request fails with a server error. */
  datatype Outcome = Saved(categoria: Categoria) | Rejected(error: NomeError) | ServerError

  /** `adicionar_categoria` as written: a blank name reads a message constant that the
      error catalogue does not define, so the request fails instead of showing the form
      again; the colour check is the written one. */
  function AddAsWritten(f: Form, existing: seq<Categoria>, newId: nat): (r: Outcome)
    ensures FormNome(f) == [] ==> r == ServerError
    ensures FormNome(f) != [] ==> r != ServerError
  {
    var nome := FormNome(f);
    if nome == [] then ServerError
    else match NomeRule(nome, existing, None)
      case Some(e) => Rejected(e)
      case None => Saved(Categoria(newId, nome, FormTipo(f), SubmittedCorAsWritten(FormCor(f))))
  }

  /** `adicionar_categoria` as intended: every broken name rule is a form error, and the
      stored colour is a real hexadecimal colour. */
  function Add(f: Form, existing: seq<Categoria>, newId: nat): (r: Result<Categoria, NomeError>)
    ensures r.Ok? <==> MinNome <= |FormNome(f)| <= MaxNome && !Duplicate(FormNome(f), existing, None)
    ensures r.Err? ==> r.error == NomeRule(FormNome(f), existing, None).value
    ensures r.Ok? ==> r.value == Categoria(newId, FormNome(f), FormTipo(f), SubmittedCor(FormCor(f)))
    ensures r.Ok? ==> forall i :: 0 <= i < |existing| ==> Lower(existing[i].nome) != Lower(r.value.nome)
  {
    match NomeRule(FormNome(f), existing, None)
    case Some(e) => Err(e)
    case None => Ok(Categoria(newId, FormNome(f), FormTipo(f), SubmittedCor(FormCor(f))))
  }

  /** Written and intended views differ only on a blank name and on a colour that is
      '#' and six other characters. */
  lemma AddAsWrittenAgrees(f: Form, existing: seq<Categoria>, newId: nat)
    requires FormNome(f) != []
    requires IsHexColor(FormCor(f)) || !StartsWith(FormCor(f), "#") || |FormCor(f)| != 7
    ensures Add(f, existing, newId).Err? ==> AddAsWritten(f, existing, newId) == Rejected(Add(f, existing, newId).error)
    ensures Add(f, existing, newId).Ok? ==> AddAsWritten(f, existing, newId) == Saved(Add(f, existing, newId).value)
  {
    var cor := FormCor(f);
    if IsHexColor(cor) {
      assert cor[..1] == "#";
    }
  }

  /** A blank name fails the written view, and the intended view reports it. */
  lemma BlankNameCrashes(f: Form, existing: seq<Categoria>, newId: nat)
    requires FormNome(f) == []
    ensures AddAsWritten(f, existing, newId) == ServerError
    ensures Add(f, existing, newId) == Err(NomeObrigatorio)
  {
  }

  /** Every category the intended view stores passes `Categoria.clean`. */
  lemma AddedIsClean(f: Form, existing: seq<Categoria>, newId: nat)
    requires Add(f, existing, newId).Ok?
    ensures IsClean(Add(f, existing, newId).value)
  {
    var c := Add(f, existing, newId).value;
    StripIdempotent(f.nome.GetOr([]));
    assert Strip(c.nome) == c.nome;
  }

  /** The view's name rule and `clean`'s agree on every stripped name that is not taken. */
  lemma NomeRuleMatchesClean(c: Categoria)
    requires Strip(c.nome) == c.nome
    ensures NomeRule(c.nome, [], None) == CleanCategoria(c).nome
  {
    assert !Duplicate(c.nome, [], None);
  }

  /** Letter case is ignored on accented capitals as well: "ÁGUA" is taken by "água". */
  lemma AccentedDuplicate(id: nat, tipo: string, cor: string)
    ensures Duplicate("ÁGUA", [Categoria(id, "água", tipo, cor)], None)
  {
    var existing := [Categoria(id, "água", tipo, cor)];
    assert Lower("ÁGUA") == "água" == Lower(existing[0].nome);
  }

  /** Once a category is added, the same name in any letter case is refused as a duplicate. */
  lemma AddThenDuplicate(f: Form, g: Form, existing: seq<Categoria>, id1: nat, id2: nat)
    requires Add(f, existing, id1).Ok?
    requires Lower(FormNome(g)) == Lower(FormNome(f))
    ensures Add(g, existing + [Add(f, existing, id1).value], id2) == Err(NomeDuplicado)
  {
    var c := Add(f, existing, id1).value;
    var all := existing + [c];
    assert all[|existing|] == c;
    assert Duplicate(FormNome(g), all, None);
    assert |FormNome(g)| == |FormNome(f)|;
  }

  /** The list without the category that has id `id`. */
  function Others(existing: seq<Categoria>, id: nat): (r: seq<Categoria>)
    ensures forall c :: c in r <==> c in existing && c.id != id
  {
    if existing == [] then []
    else (if existing[0].id == id then [] else [existing[0]]) + Others(existing[1..], id)
  }

  /** `editar_categoria`: the same name and colour rules, the uniqueness test ignoring the
      category itself; the id is kept. A missing category is a 404 before any of this. */
  function Edit(f: Form, cat: Categoria, existing: seq<Categoria>): (r: Result<Categoria, NomeError>)
    ensures r.Ok? <==> MinNome <= |FormNome(f)| <= MaxNome && !Duplicate(FormNome(f), existing, Some(cat.id))
    ensures r.Err? ==> r.error == NomeRule(FormNome(f), existing, Some(cat.id)).value
    ensures r.Ok? ==> r.value == cat.(nome := FormNome(f), tipo := FormTipo(f), cor := SubmittedCor(FormCor(f)))
  {
    match NomeRule(FormNome(f), existing, Some(cat.id))
    case Some(e) => Err(e)
    case None => Ok(cat.(nome := FormNome(f), tipo := FormTipo(f), cor := SubmittedCor(FormCor(f))))
  }

  /** `editar_categoria` as written: the same name rules, and the written colour check,
      which keeps any 7-character text starting with '#'. */
  function EditAsWritten(f: Form, cat: Categoria, existing: seq<Categoria>): (r: Result<Categoria, NomeError>)
    ensures r.Ok? <==> MinNome <= |FormNome(f)| <= MaxNome && !Duplicate(FormNome(f), existing, Some(cat.id))
    ensures r.Err? ==> r.error == NomeRule(FormNome(f), existing, Some(cat.id)).value
    ensures r.Ok? ==> r.value.id == cat.id && r.value.nome == FormNome(f) && r.value.tipo == FormTipo(f)
    ensures r.Ok? ==> |r.value.cor| == 7 && r.value.cor[0] == '#'
    ensures r.Ok? && |FormCor(f)| == 7 && FormCor(f)[0] == '#' ==> r.value.cor == FormCor(f)
    ensures r.Ok? && !(|FormCor(f)| == 7 && FormCor(f)[0] == '#') ==> r.value.cor == DefaultCor
    ensures r.Ok? ==> r.value.(nome := cat.nome, tipo := cat.tipo, cor := cat.cor) == cat
  {
    match NomeRule(FormNome(f), existing, Some(cat.id))
    case Some(e) => Err(e)
    case None => Ok(cat.(nome := FormNome(f), tipo := FormTipo(f), cor := SubmittedCorAsWritten(FormCor(f))))
  }

  /** The written and intended edits reach the same outcome and differ at most in the
      stored colour, and not even there unless the colour is '#' and six characters that
      are not all hexadecimal digits. */
  lemma EditAsWrittenAgrees(f: Form, cat: Categoria, existing: seq<Categoria>)
    ensures EditAsWritten(f, cat, existing).Ok? <==> Edit(f, cat, existing).Ok?
    ensures Edit(f, cat, existing).Err? ==> EditAsWritten(f, cat, existing) == Edit(f, cat, existing)
    ensures Edit(f, cat, existing).Ok? ==>
      EditAsWritten(f, cat, existing).value == Edit(f, cat, existing).value.(cor := SubmittedCorAsWritten(FormCor(f)))
    ensures IsHexColor(FormCor(f)) || !StartsWith(FormCor(f), "#") || |FormCor(f)| != 7 ==>
      EditAsWritten(f, cat, existing) == Edit(f, cat, existing)
  {
    var cor := FormCor(f);
    if IsHexColor(cor) {
      assert cor[..1] == "#";
    }
  }

  lemma DuplicateOthers(nome: string, existing: seq<Categoria>, id: nat)
    ensures Duplicate(nome, existing, Some(id)) <==> Duplicate(nome, Others(existing, id), None)
  {
    var o := Others(existing, id);
    if Duplicate(nome, existing, Some(id)) {
      var i :| 0 <= i < |existing| && Lower(existing[i].nome) == Lower(nome) && existing[i].id != id;
      assert existing[i] in o;
      var j :| 0 <= j < |o| && o[j] == existing[i];
    }
    if Duplicate(nome, o, None) {
      var j :| 0 <= j < |o| && Lower(o[j].nome) == Lower(nome);
      assert o[j] in existing;
      var i :| 0 <= i < |existing| && existing[i] == o[j];
    }
  }

  /** Editing is adding into the list without the edited category, under its own id. */
  lemma EditIsAddWithoutSelf(f: Form, cat: Categoria, existing: seq<Categoria>)
    ensures Edit(f, cat, existing) == Add(f, Others(existing, cat.id), cat.id)
  {
    DuplicateOthers(FormNome(f), existing, cat.id);
  }

  /** Saving a category again under its own name never counts as a duplicate of itself. */
  lemma EditKeepsOwnName(f: Form, cat: Categoria, existing: seq<Categoria>)
    requires FormNome(f) == cat.nome && MinNome <= |cat.nome| <= MaxNome
    requires forall i :: 0 <= i < |existing| && existing[i].id != cat.id ==> Lower(existing[i].nome) != Lower(cat.nome)
    ensures Edit(f, cat, existing).Ok?
  {
  }
}

=== FILE: closing.dfy ===
/** Monthly closing (`FechamentoMensal`): the month a closing covers, the period actually
    summed, the opening balance taken from earlier closings, the automatic closing of the
    previous month, the month shown by the closing page, and the guard in front of
    deleting an account. */
module Closing {
  import opened Wrappers
  import opened Text
  import opened Dates
  import opened Constants
  import opened Ledger
  import Listing
  import Installments

  /** A `FechamentoMensal` row; `inicio` and `fim` are the period summed. `parcial` is the
      `eh_parcial` flag of a closing of the current month before its last day: the view
      passes it and a table script adds its column, but the Django model declares no such
      field (see `FecharContaAsWritten`). */
  datatype Fechamento = Fechamento(
    conta: nat,
    mes: int,
    ano: int,
    saldoInicial: real,
    totalReceitas: real,
    totalDespesas: real,
    saldoFinal: real,
    parcial: bool,
    inicio: Date,
    fim: Date)

  predicate SameKey(f: Fechamento, conta: nat, mes: int, ano: int) {
    f.conta == conta && f.mes == mes && f.ano == ano
  }

  predicate Exists(fs: seq<Fechamento>, conta: nat, mes: int, ano: int) {
    exists i :: 0 <= i < |fs| && SameKey(fs[i], conta, mes, ano)
  }

  /** Every stored month lies in 1..12. */
  predicate MonthsValid(fs: seq<Fechamento>) {
    forall i :: 0 <= i < |fs| ==> 1 <= fs[i].mes <= 12
  }

  lemma ExistsExtends(fs: seq<Fechamento>, g: seq<Fechamento>, conta: nat, mes: int, ano: int)
    ensures Exists(fs, conta, mes, ano) ==> Exists(fs + g, conta, mes, ano)
  {
    if Exists(fs, conta, mes, ano) {
      var i :| 0 <= i < |fs| && SameKey(fs[i], conta, mes, ano);
      assert (fs + g)[i] == fs[i];
    }
  }

  /** `unique_together = [('conta', 'mes', 'ano')]`. */
  predicate UniqueKeys(fs: seq<Fechamento>) {
    forall i, j :: 0 <= i < j < |fs| ==> !SameKey(fs[i], fs[j].conta, fs[j].mes, fs[j].ano)
  }

  /** (year, month) `a` comes strictly before (year, month) `b`. */
  predicate PeriodoAntes(a: (int, int), b: (int, int)) {
    a.0 < b.0 || (a.0 == b.0 && a.1 < b.1)
  }

  function Periodo(f: Fechamento): (int, int) {
    (f.ano, f.mes)
  }

  /** `.order_by('-ano', '-mes').first()` over the closings `sel` selects. */
  function Ultimo(fs: seq<Fechamento>, sel: Fechamento -> bool): (r: Option<Fechamento>)
    ensures r.None? <==> forall i :: 0 <= i < |fs| ==> !sel(fs[i])
    ensures r.Some? ==> r.value in fs && sel(r.value)
    ensures r.Some? ==> forall i :: 0 <= i < |fs| && sel(fs[i]) ==> !PeriodoAntes(Periodo(r.value), Periodo(fs[i]))
  {
    if fs == [] then None
    else
      var rest := Ultimo(fs[1..], sel);
      assert forall i :: 1 <= i < |fs| ==> fs[i] == fs[1..][i - 1];
      if !sel(fs[0]) then rest
      else if rest.Some? && PeriodoAntes(Periodo(fs[0]), Periodo(rest.value)) then rest
      else Some(fs[0])
  }

  /** Two selections that agree on every closing pick the same one. */
  lemma {:induction false} UltimoSame(fs: seq<Fechamento>, s: Fechamento -> bool, u: Fechamento -> bool)
    requires forall i :: 0 <= i < |fs| ==> s(fs[i]) == u(fs[i])
    ensures Ultimo(fs, s) == Ultimo(fs, u)
  {
    if fs != [] {
      assert forall i :: 1 <= i < |fs| ==> fs[i] == fs[1..][i - 1];
      UltimoSame(fs[1..], s, u);
    }
  }

  /** The account's closings of an earlier year. */
  function AnoAnterior(conta: nat, ano: int): Fechamento -> bool {
    (f: Fechamento) => f.conta == conta && f.ano < ano
  }

  /** The account's closings of an earlier month of the same year. */
  function MesmoAnoAntes(conta: nat, ano: int, mes: int): Fechamento -> bool {
    (f: Fechamento) => f.conta == conta && f.ano == ano && f.mes < mes
  }

  /** The account's closings of any earlier month. */
  function Anterior(conta: nat, ano: int, mes: int): Fechamento -> bool {
    (f: Fechamento) => f.conta == conta && PeriodoAntes(Periodo(f), (ano, mes))
  }

  // ---------------------------------------------------------------- opening balance

  /** The opening balance as the closing view computes it: the latest closing of an
      earlier YEAR wins whenever there is one, and only otherwise the latest earlier
      month of the same year; 0 when there is neither. */
  function SaldoInicialAsWritten(fs: seq<Fechamento>, conta: nat, ano: int, mes: int): (r: real)
    ensures Ultimo(fs, AnoAnterior(conta, ano)).Some? ==> r == Ultimo(fs, AnoAnterior(conta, ano)).value.saldoFinal
  {
    var a := Ultimo(fs, AnoAnterior(conta, ano));
    var b := if a.Some? then a else Ultimo(fs, MesmoAnoAntes(conta, ano, mes));
    if b.Some? then b.value.saldoFinal else 0.0
  }

  /** The opening balance: the closing balance of the account's latest earlier closing,
      or 0 when it has none (the query of the automatic closing). */
  function SaldoInicial(fs: seq<Fechamento>, conta: nat, ano: int, mes: int): (r: real)
    ensures (forall i :: 0 <= i < |fs| ==> !(fs[i].conta == conta && PeriodoAntes(Periodo(fs[i]), (ano, mes)))) ==> r == 0.0
  {
    var a := Ultimo(fs, Anterior(conta, ano, mes));
    if a.Some? then a.value.saldoFinal else 0.0
  }

  /** The two rules agree unless the account has closings both in an earlier year and
      earlier in the same year. */
  lemma SaldoInicialAsWrittenAgrees(fs: seq<Fechamento>, conta: nat, ano: int, mes: int)
    requires (forall i :: 0 <= i < |fs| ==> !AnoAnterior(conta, ano)(fs[i]))
          || (forall i :: 0 <= i < |fs| ==> !MesmoAnoAntes(conta, ano, mes)(fs[i]))
    ensures SaldoInicialAsWritten(fs, conta, ano, mes) == SaldoInicial(fs, conta, ano, mes)
  {
    if forall i :: 0 <= i < |fs| ==> !AnoAnterior(conta, ano)(fs[i]) {
      UltimoSame(fs, MesmoAnoAntes(conta, ano, mes), Anterior(conta, ano, mes));
    } else {
      UltimoSame(fs, AnoAnterior(conta, ano), Anterior(conta, ano, mes));
    }
  }

  /** With closings for December 2024 (balance 100) and January 2025 (balance 150), the
      view opens February 2025 at 100, skipping January. */
  lemma SaldoInicialSkipsEarlierMonth(conta: nat, d: Date)
    ensures var fs := [Fechamento(conta, 12, 2024, 0.0, 100.0, 0.0, 100.0, false, d, d),
                       Fechamento(conta, 1, 2025, 100.0, 50.0, 0.0, 150.0, false, d, d)];
      SaldoInicialAsWritten(fs, conta, 2025, 2) == 100.0 && SaldoInicial(fs, conta, 2025, 2) == 150.0
  {
    var fs := [Fechamento(conta, 12, 2024, 0.0, 100.0, 0.0, 100.0, false, d, d),
               Fechamento(conta, 1, 2025, 100.0, 50.0, 0.0, 150.0, false, d, d)];
    assert AnoAnterior(conta, 2025)(fs[0]) && !AnoAnterior(conta, 2025)(fs[1]);
    assert Anterior(conta, 2025, 2)(fs[0]) && Anterior(conta, 2025, 2)(fs[1]);
    var a := Ultimo(fs, AnoAnterior(conta, 2025));
    assert a == Some(fs[0]);
    var b := Ultimo(fs, Anterior(conta, 2025, 2));
    assert b.Some? && !PeriodoAntes(Periodo(b.value), Periodo(fs[1]));
    assert b == Some(fs[1]);
  }

  /** Closings chain: the month after a closing opens at that closing's final balance. */
  lemma SaldoInicialChains(fs: seq<Fechamento>, k: nat)
    requires k < |fs| && UniqueKeys(fs) && MonthsValid(fs)
    ensures var (ny, nm) := NextMonth(fs[k].ano, fs[k].mes);
      SaldoInicial(fs, fs[k].conta, ny, nm) == fs[k].saldoFinal
  {
    var f := fs[k];
    var (ny, nm) := NextMonth(f.ano, f.mes);
    var sel := Anterior(f.conta, ny, nm);
    assert sel(fs[k]);
    var a := Ultimo(fs, sel);
    var i :| 0 <= i < |fs| && fs[i] == a.value;
    assert !PeriodoAntes(Periodo(a.value), Periodo(fs[k]));
    assert sel(fs[i]) && 1 <= fs[i].mes <= 12;
    assert SameKey(fs[i], f.conta, f.mes, f.ano);
    assert i == k;
  }

  // ---------------------------------------------------------------- closing one account

  /** Why `fechar_conta` does not close: the account is not among the tenant's, the
      configuration refuses the month, the month is closed already, the month has no
      valid dates, or the row is created with a keyword its model does not declare. */
  datatype FechamentoError = ContaNaoEncontrada | NaoPermitido | JaExiste | DataInvalida | CampoDesconhecido

  /** The month `datetime(ano, mes, 1)` and the first day of the following month accept. */
  predicate MesValido(ano: int, mes: int) {
    1 <= mes <= 12 && 1 <= ano && NextMonth(ano, mes).0 <= 9999
  }

  /** The period a closing of (`ano`, `mes`) sums: from the first of the month to its last
      day, or only to today when the month is the current one and not yet over; the
      flag says which. */
  function PeriodoFechamento(ano: int, mes: int, hoje: Date): (r: (Date, Date, bool))
    requires 1 <= mes <= 12 && Valid(hoje)
    ensures r.0 == FirstOfMonth(ano, mes) && Valid(r.1)
    ensures r.2 <==> InMonth(hoje, ano, mes) && hoje.day < DaysInMonth(ano, mes)
    ensures r.1 == if r.2 then hoje else LastOfMonth(ano, mes)
  {
    var antecipado := ano == hoje.year && mes == hoje.month && hoje.day < DaysInMonth(ano, mes);
    (FirstOfMonth(ano, mes), if antecipado then hoje else LastOfMonth(ano, mes), antecipado)
  }

  /** `dias_considerados`: the days from the first to the last day of a period. */
  function Dias(inicio: Date, fim: Date): int
    requires Valid(inicio) && Valid(fim)
  {
    Ordinal(fim) - Ordinal(inicio) + 1
  }

  /** The closing period covers the whole month, or the month up to today; either way
      between 1 and the month's length of days, all inside the month. */
  function DiasConsiderados(ano: int, mes: int, hoje: Date): (r: int)
    requires 1 <= mes <= 12 && Valid(hoje)
    ensures 1 <= r <= DaysInMonth(ano, mes)
    ensures PeriodoFechamento(ano, mes, hoje).2 ==> r == hoje.day
    ensures !PeriodoFechamento(ano, mes, hoje).2 ==> r == DaysInMonth(ano, mes)
  {
    var (inicio, fim, _) := PeriodoFechamento(ano, mes, hoje);
    Dias(inicio, fim)
  }

  /** The window of an account over a period. */
  function JanelaPeriodo(conta: nat, inicio: Date, fim: Date): Janela {
    Janela(Some(conta), Entre(inicio, fim), false)
  }

  /** The closing of an account for a month with the given period and opening balance. */
  function NovoFechamento(ts: seq<Transacao>, conta: nat, ano: int, mes: int, saldoInicial: real,
                          inicio: Date, fim: Date, parcial: bool): (r: Fechamento)
    ensures SameKey(r, conta, mes, ano) && r.saldoInicial == saldoInicial
    ensures r.totalReceitas == Soma(ts, JanelaPeriodo(conta, inicio, fim), {Receita})
    ensures r.totalDespesas == Soma(ts, JanelaPeriodo(conta, inicio, fim), {Despesa})
    ensures r.saldoFinal == r.saldoInicial + r.totalReceitas - r.totalDespesas
    ensures (r.inicio, r.fim, r.parcial) == (inicio, fim, parcial)
  {
    var j := JanelaPeriodo(conta, inicio, fim);
    var receitas := Soma(ts, j, {Receita});
    var despesas := Soma(ts, j, {Despesa});
    Fechamento(conta, mes, ano, saldoInicial, receitas, despesas, saldoInicial + receitas - despesas, parcial, inicio, fim)
  }

  /** The `fechar_conta` action of the closing view with a given opening balance: refused
      when the account is not among the tenant's accounts `contas`, when the configuration
      does not allow the month (`podeFechar`, a rule not part of this model) or when the
      account already has a closing for it; otherwise the account's "receita" and
      "despesa" of the period are summed onto the opening balance. The account's stored
      balance becomes the closing's final balance. */
  function FecharComAbertura(ts: seq<Transacao>, fs: seq<Fechamento>, contas: set<nat>, conta: nat, mes: int, ano: int,
                             hoje: Date, podeFechar: bool, abertura: real): (r: Result<Fechamento, FechamentoError>)
    requires Valid(hoje)
    ensures conta !in contas ==> r == Err(ContaNaoEncontrada)
    ensures conta in contas ==> (r == Err(NaoPermitido) <==> !podeFechar)
    ensures conta in contas && podeFechar ==> (r == Err(JaExiste) <==> Exists(fs, conta, mes, ano))
    ensures conta in contas && podeFechar && !Exists(fs, conta, mes, ano) ==> (r == Err(DataInvalida) <==> !MesValido(ano, mes))
    ensures r != Err(CampoDesconhecido)
    ensures r.Ok? ==> MesValido(ano, mes) && r.value.saldoInicial == abertura
    ensures r.Ok? ==> (r.value.inicio, r.value.fim, r.value.parcial) == PeriodoFechamento(ano, mes, hoje)
    ensures r.Ok? ==> r.value == NovoFechamento(ts, conta, ano, mes, abertura, r.value.inicio, r.value.fim, r.value.parcial)
  {
    if conta !in contas then Err(ContaNaoEncontrada)
    else if !podeFechar then Err(NaoPermitido)
    else if Exists(fs, conta, mes, ano) then Err(JaExiste)
    else if !MesValido(ano, mes) then Err(DataInvalida)
    else
      var (inicio, fim, parcial) := PeriodoFechamento(ano, mes, hoje);
      Ok(NovoFechamento(ts, conta, ano, mes, abertura, inicio, fim, parcial))
  }

  /** `fechar_conta` as written: the refusals are those of the intended action, and the
      opening balance follows the view's own earlier-year-first rule, but the row is
      created with `eh_parcial`, a keyword `FechamentoMensal` does not declare. Django
      refuses the keyword before anything is saved, so every request that passes the
      checks fails, no closing is stored and the account's balance is not updated. */
  function FecharContaAsWritten(ts: seq<Transacao>, fs: seq<Fechamento>, contas: set<nat>, conta: nat, mes: int, ano: int,
                                hoje: Date, podeFechar: bool): (r: Result<Fechamento, FechamentoError>)
    requires Valid(hoje)
    ensures conta !in contas ==> r == Err(ContaNaoEncontrada)
    ensures conta in contas ==> (r == Err(NaoPermitido) <==> !podeFechar)
    ensures conta in contas && podeFechar ==> (r == Err(JaExiste) <==> Exists(fs, conta, mes, ano))
    ensures conta in contas && podeFechar && !Exists(fs, conta, mes, ano) ==> (r == Err(DataInvalida) <==> !MesValido(ano, mes))
    ensures r == Err(CampoDesconhecido) <==> conta in contas && podeFechar && !Exists(fs, conta, mes, ano) && MesValido(ano, mes)
  {
    match FecharComAbertura(ts, fs, contas, conta, mes, ano, hoje, podeFechar, SaldoInicialAsWritten(fs, conta, ano, mes))
    case Ok(_) => Err(CampoDesconhecido)
    case Err(e) => Err(e)
  }

  /** `fechar_conta` as intended: the row is created with the fields the model declares,
      and the opening balance is the account's latest earlier closing, as the automatic
      closing computes it. */
  function FecharConta(ts: seq<Transacao>, fs: seq<Fechamento>, contas: set<nat>, conta: nat, mes: int, ano: int,
                       hoje: Date, podeFechar: bool): (r: Result<Fechamento, FechamentoError>)
    requires Valid(hoje)
    ensures conta !in contas ==> r == Err(ContaNaoEncontrada)
    ensures conta in contas ==> (r == Err(NaoPermitido) <==> !podeFechar)
    ensures conta in contas && podeFechar ==> (r == Err(JaExiste) <==> Exists(fs, conta, mes, ano))
    ensures conta in contas && podeFechar && !Exists(fs, conta, mes, ano) ==> (r == Err(DataInvalida) <==> !MesValido(ano, mes))
    ensures r.Ok? <==> conta in contas && podeFechar && !Exists(fs, conta, mes, ano) && MesValido(ano, mes)
    ensures r.Ok? ==> SameKey(r.value, conta, mes, ano) && r.value.saldoInicial == SaldoInicial(fs, conta, ano, mes)
    ensures r.Ok? ==> (r.value.inicio, r.value.fim, r.value.parcial) == PeriodoFechamento(ano, mes, hoje)
    ensures r.Ok? ==> r.value.saldoFinal == r.value.saldoInicial + r.value.totalReceitas - r.value.totalDespesas
    ensures r.Ok? ==> r.value == NovoFechamento(ts, conta, ano, mes, r.value.saldoInicial, r.value.inicio, r.value.fim, r.value.parcial)
  {
    FecharComAbertura(ts, fs, contas, conta, mes, ano, hoje, podeFechar, SaldoInicial(fs, conta, ano, mes))
  }

  /** The closings and the account balance after a `fechar_conta` request: a closing made
      is appended and its final balance becomes the account's; a refusal or a failure
      changes neither. */
  datatype Estado = Estado(fechamentos: seq<Fechamento>, saldo: real)

  function Aplicar(e: Estado, r: Result<Fechamento, FechamentoError>): (s: Estado)
    ensures r.Ok? ==> |s.fechamentos| == |e.fechamentos| + 1 && s.fechamentos[|e.fechamentos|] == r.value
    ensures r.Ok? ==> s.fechamentos[..|e.fechamentos|] == e.fechamentos && s.saldo == r.value.saldoFinal
    ensures r.Err? ==> s == e
  {
    if r.Ok? then Estado(e.fechamentos + [r.value], r.value.saldoFinal) else e
  }

  /** As written, `fechar_conta` never stores a closing nor moves the balance: it refuses
      what the intended action refuses, with the same reason, and fails exactly where the
      intended action would store one. */
  lemma FecharContaAsWrittenNeverStores(ts: seq<Transacao>, e: Estado, contas: set<nat>, conta: nat, mes: int, ano: int,
                                        hoje: Date, podeFechar: bool)
    requires Valid(hoje)
    ensures var w := FecharContaAsWritten(ts, e.fechamentos, contas, conta, mes, ano, hoje, podeFechar);
      var c := FecharConta(ts, e.fechamentos, contas, conta, mes, ano, hoje, podeFechar);
      Aplicar(e, w) == e && w == (if c.Ok? then Err(CampoDesconhecido) else c)
  {
  }

  /** A new account with closings for December 2024 (balance 100) and January 2025
      (balance 150): closing February 2025 as written fails, after computing an opening
      balance of 100; the intended action stores a closing opening at 150. */
  lemma FecharContaAsWrittenFails(ts: seq<Transacao>, conta: nat, d: Date, hoje: Date)
    requires Valid(hoje)
    ensures var fs := [Fechamento(conta, 12, 2024, 0.0, 100.0, 0.0, 100.0, false, d, d),
                       Fechamento(conta, 1, 2025, 100.0, 50.0, 0.0, 150.0, false, d, d)];
      var w := FecharContaAsWritten(ts, fs, {conta}, conta, 2, 2025, hoje, true);
      var c := FecharConta(ts, fs, {conta}, conta, 2, 2025, hoje, true);
      w == Err(CampoDesconhecido) && SaldoInicialAsWritten(fs, conta, 2025, 2) == 100.0
      && c.Ok? && c.value.saldoInicial == 150.0
  {
    var fs := [Fechamento(conta, 12, 2024, 0.0, 100.0, 0.0, 100.0, false, d, d),
               Fechamento(conta, 1, 2025, 100.0, 50.0, 0.0, 150.0, false, d, d)];
    SaldoInicialSkipsEarlierMonth(conta, d);
    assert !Exists(fs, conta, 2, 2025) by {
      assert !SameKey(fs[0], conta, 2, 2025) && !SameKey(fs[1], conta, 2, 2025);
    }
    assert MesValido(2025, 2);
  }

  /** A closing is made once: after it, the same month is refused, and the keys stay unique. */
  lemma FecharContaOnce(ts: seq<Transacao>, fs: seq<Fechamento>, contas: set<nat>, conta: nat, mes: int, ano: int, hoje: Date)
    requires Valid(hoje) && FecharConta(ts, fs, contas, conta, mes, ano, hoje, true).Ok?
    ensures var f := FecharConta(ts, fs, contas, conta, mes, ano, hoje, true).value;
      FecharConta(ts, fs + [f], contas, conta, mes, ano, hoje, true) == Err(JaExiste)
      && (UniqueKeys(fs) ==> UniqueKeys(fs + [f]))
  {
    var f := FecharConta(ts, fs, contas, conta, mes, ano, hoje, true).value;
    assert (fs + [f])[|fs|] == f;
  }

  /** Closing two consecutive months: the second opens at the first one's final balance. */
  lemma ConsecutiveClosings(ts: seq<Transacao>, fs: seq<Fechamento>, contas: set<nat>, conta: nat, mes: int, ano: int, hoje: Date)
    requires Valid(hoje) && UniqueKeys(fs) && MonthsValid(fs) && FecharConta(ts, fs, contas, conta, mes, ano, hoje, true).Ok?
    ensures var f := FecharConta(ts, fs, contas, conta, mes, ano, hoje, true).value;
      var (ny, nm) := NextMonth(ano, mes);
      var g := FecharConta(ts, fs + [f], contas, conta, nm, ny, hoje, true);
      g.Ok? ==> g.value.saldoInicial == f.saldoFinal
  {
    var f := FecharConta(ts, fs, contas, conta, mes, ano, hoje, true).value;
    FecharContaOnce(ts, fs, contas, conta, mes, ano, hoje);
    assert (fs + [f])[|fs|] == f;
    assert MonthsValid(fs + [f]);
    SaldoInicialChains(fs + [f], |fs|);
  }

  /** Two dates of a month lie between its first and last day, and only those. */
  lemma InMonthBetween(d: Date, ano: int, mes: int)
    requires Valid(d) && 1 <= mes <= 12
    ensures InMonth(d, ano, mes) <==> AtMost(FirstOfMonth(ano, mes), d) && AtMost(d, LastOfMonth(ano, mes))
  {
  }

  /** A closing that is not early sums exactly the calendar month, the same rows the
      financial summary counts for that month (apart from the installment rows, which the
      closing includes). */
  lemma {:induction false} FullMonthSums(ts: seq<Transacao>, conta: nat, ano: int, mes: int, tipos: set<string>)
    requires 1 <= mes <= 12 && forall i :: 0 <= i < |ts| ==> Valid(ts[i].data)
    ensures Soma(ts, JanelaPeriodo(conta, FirstOfMonth(ano, mes), LastOfMonth(ano, mes)), tipos)
         == Soma(ts, Janela(Some(conta), NoMes(ano, mes), false), tipos)
  {
    if ts != [] {
      InMonthBetween(ts[0].data, ano, mes);
      FullMonthSums(ts[1..], conta, ano, mes, tipos);
    }
  }

  // ---------------------------------------------------------------- automatic closing

  datatype AutoError = NaoEDia1 | NomeIndefinido | Desabilitado

  /** `realizar_fechamento_automatico` as written: on any day but the 1st it declines; on
      the 1st the first use of `date`, a name the module never imports, raises. */
  function FechamentoAutomaticoAsWritten(hoje: Date): (r: Result<seq<Fechamento>, AutoError>)
    ensures r == Err(if hoje.day == 1 then NomeIndefinido else NaoEDia1)
  {
    if hoje.day != 1 then Err(NaoEDia1) else Err(NomeIndefinido)
  }

  /** The automatic closing as written never closes anything. */
  lemma AutomaticNeverCloses(hoje: Date)
    ensures !FechamentoAutomaticoAsWritten(hoje).Ok?
  {
  }

  /** The full-month closing of one account, opening at its latest earlier closing. */
  function FechamentoCompleto(ts: seq<Transacao>, fs: seq<Fechamento>, conta: nat, ano: int, mes: int): (r: Fechamento)
    requires 1 <= mes <= 12
    ensures SameKey(r, conta, mes, ano) && !r.parcial
    ensures r.inicio == FirstOfMonth(ano, mes) && r.fim == LastOfMonth(ano, mes)
    ensures r.saldoInicial == SaldoInicial(fs, conta, ano, mes)
    ensures r.saldoFinal == r.saldoInicial + r.totalReceitas - r.totalDespesas
  {
    NovoFechamento(ts, conta, ano, mes, SaldoInicial(fs, conta, ano, mes), FirstOfMonth(ano, mes), LastOfMonth(ano, mes), false)
  }

  /** `Ultimo` is not moved by closings its selection passes over. */
  lemma {:induction false} UltimoIgnoresUnselected(fs: seq<Fechamento>, g: seq<Fechamento>, sel: Fechamento -> bool)
    requires forall i :: 0 <= i < |g| ==> !sel(g[i])
    ensures Ultimo(fs + g, sel) == Ultimo(fs, sel)
  {
    if fs == [] {
      assert fs + g == g;
    } else {
      assert (fs + g)[1..] == fs[1..] + g;
      UltimoIgnoresUnselected(fs[1..], g, sel);
    }
  }

  /** Closings of other accounts leave an account's opening balance and its closed months
      as they were. */
  lemma OtherAccountsUnchanged(fs: seq<Fechamento>, g: seq<Fechamento>, conta: nat, ano: int, mes: int)
    requires forall i :: 0 <= i < |g| ==> g[i].conta != conta
    ensures SaldoInicial(fs + g, conta, ano, mes) == SaldoInicial(fs, conta, ano, mes)
    ensures Exists(fs + g, conta, mes, ano) <==> Exists(fs, conta, mes, ano)
  {
    UltimoIgnoresUnselected(fs, g, Anterior(conta, ano, mes));
    ExistsExtends(fs, g, conta, mes, ano);
    if Exists(fs + g, conta, mes, ano) {
      var i :| 0 <= i < |fs + g| && SameKey((fs + g)[i], conta, mes, ano);
      assert forall j :: |fs| <= j < |fs + g| ==> (fs + g)[j] == g[j - |fs|];
      assert i < |fs|;
      assert (fs + g)[i] == fs[i];
    }
  }

  /** The loop over the accounts: an account already closed for the month is skipped,
      every other one gets a full-month closing, which later accounts see. Each closing
      made is the account's own full-month closing over the closings there were before
      the loop, and no account is closed twice. */
  function FecharTodas(ts: seq<Transacao>, fs: seq<Fechamento>, contas: seq<nat>, ano: int, mes: int): (r: seq<Fechamento>)
    requires 1 <= mes <= 12
    ensures |r| <= |contas|
    ensures forall k :: 0 <= k < |r| ==>
      r[k].conta in contas && r[k].mes == mes && r[k].ano == ano && !r[k].parcial && !Exists(fs, r[k].conta, mes, ano)
    ensures forall k :: 0 <= k < |r| ==> r[k] == FechamentoCompleto(ts, fs, r[k].conta, ano, mes)
    ensures forall k, l :: 0 <= k < l < |r| ==> r[k].conta != r[l].conta
    decreases |contas|
  {
    if contas == [] then []
    else
      var c := contas[0];
      if Exists(fs, c, mes, ano) then FecharTodas(ts, fs, contas[1..], ano, mes)
      else
        var f := FechamentoCompleto(ts, fs, c, ano, mes);
        var rest := FecharTodas(ts, fs + [f], contas[1..], ano, mes);
        assert forall k :: 0 <= k < |rest| ==>
          rest[k].conta != c && !Exists(fs, rest[k].conta, mes, ano)
          && rest[k] == FechamentoCompleto(ts, fs, rest[k].conta, ano, mes) by {
          forall k | 0 <= k < |rest|
            ensures rest[k].conta != c && !Exists(fs, rest[k].conta, mes, ano)
            ensures rest[k] == FechamentoCompleto(ts, fs, rest[k].conta, ano, mes)
          {
            assert (fs + [f])[|fs|] == f;
            assert rest[k].conta != c;
            ExistsExtends(fs, [f], rest[k].conta, mes, ano);
            OtherAccountsUnchanged(fs, [f], rest[k].conta, ano, mes);
          }
        }
        [f] + rest
  }

  /** After the loop every account has its closing for the month, so running it again
      closes nothing. */
  lemma {:induction false} FecharTodasCovers(ts: seq<Transacao>, fs: seq<Fechamento>, contas: seq<nat>, ano: int, mes: int)
    requires 1 <= mes <= 12
    ensures forall c :: c in contas ==> Exists(fs + FecharTodas(ts, fs, contas, ano, mes), c, mes, ano)
    decreases |contas|
  {
    if contas != [] {
      var c := contas[0];
      var r := FecharTodas(ts, fs, contas, ano, mes);
      if Exists(fs, c, mes, ano) {
        FecharTodasCovers(ts, fs, contas[1..], ano, mes);
        var i :| 0 <= i < |fs| && SameKey(fs[i], c, mes, ano);
        assert (fs + r)[i] == fs[i];
      } else {
        var f := FechamentoCompleto(ts, fs, c, ano, mes);
        var rest := FecharTodas(ts, fs + [f], contas[1..], ano, mes);
        FecharTodasCovers(ts, fs + [f], contas[1..], ano, mes);
        assert fs + r == (fs + [f]) + rest;
        assert (fs + r)[|fs|] == f;
      }
    }
  }

  lemma {:induction false} FecharTodasNothingLeft(ts: seq<Transacao>, fs: seq<Fechamento>, contas: seq<nat>, ano: int, mes: int)
    requires 1 <= mes <= 12 && forall c :: c in contas ==> Exists(fs, c, mes, ano)
    ensures FecharTodas(ts, fs, contas, ano, mes) == []
    decreases |contas|
  {
    if contas != [] {
      FecharTodasNothingLeft(ts, fs, contas[1..], ano, mes);
    }
  }

  /** The automatic closing as intended: on the 1st, every account not yet closed for
      the previous month gets a full-month closing of it. */
  function FechamentoAutomatico(ts: seq<Transacao>, fs: seq<Fechamento>, contas: seq<nat>, hoje: Date): (r: Result<seq<Fechamento>, AutoError>)
    requires Valid(hoje)
    ensures r.Err? <==> hoje.day != 1
    ensures r.Err? ==> r.error == NaoEDia1
    ensures r.Ok? ==> forall k :: 0 <= k < |r.value| ==>
      (r.value[k].ano, r.value[k].mes) == PrevMonth(hoje.year, hoje.month) && !r.value[k].parcial
    ensures r.Ok? ==> var (ano, mes) := PrevMonth(hoje.year, hoje.month);
      forall k :: 0 <= k < |r.value| ==>
        r.value[k].conta in contas && !Exists(fs, r.value[k].conta, mes, ano)
        && r.value[k] == FechamentoCompleto(ts, fs, r.value[k].conta, ano, mes)
  {
    if hoje.day != 1 then Err(NaoEDia1)
    else
      var (ano, mes) := PrevMonth(hoje.year, hoje.month);
      Ok(FecharTodas(ts, fs, contas, ano, mes))
  }

  /** Run twice on the same day, the automatic closing closes nothing the second time. */
  lemma AutomaticIdempotent(ts: seq<Transacao>, fs: seq<Fechamento>, contas: seq<nat>, hoje: Date)
    requires Valid(hoje) && hoje.day == 1
    ensures var r := FechamentoAutomatico(ts, fs, contas, hoje).value;
      FechamentoAutomatico(ts, fs + r, contas, hoje) == Ok([])
  {
    var (ano, mes) := PrevMonth(hoje.year, hoje.month);
    FecharTodasCovers(ts, fs, contas, ano, mes);
    FecharTodasNothingLeft(ts, fs + FecharTodas(ts, fs, contas, ano, mes), contas, ano, mes);
  }

  /** On the 1st, the automatic closing of an account makes the very closing the view's
      action would make for the previous month: that month is over, so never early. */
  lemma AutomaticMatchesManual(ts: seq<Transacao>, fs: seq<Fechamento>, contas: set<nat>, conta: nat, hoje: Date)
    requires Valid(hoje) && hoje.day == 1 && conta in contas
    requires var (ano, mes) := PrevMonth(hoje.year, hoje.month); MesValido(ano, mes) && !Exists(fs, conta, mes, ano)
    ensures var (ano, mes) := PrevMonth(hoje.year, hoje.month);
      FecharConta(ts, fs, contas, conta, mes, ano, hoje, true) == Ok(FechamentoCompleto(ts, fs, conta, ano, mes))
      && FechamentoAutomatico(ts, fs, [conta], hoje) == Ok([FechamentoCompleto(ts, fs, conta, ano, mes)])
  {
    var (ano, mes) := PrevMonth(hoje.year, hoje.month);
    assert !InMonth(hoje, ano, mes);
    var f := FechamentoCompleto(ts, fs, conta, ano, mes);
    assert [conta][1..] == [];
    assert FecharTodas(ts, fs + [f], [], ano, mes) == [];
    assert !Exists(fs, [conta][0], mes, ano);
    assert FecharTodas(ts, fs, [conta], ano, mes) == [f];
  }

  /** `executar_fechamento_automatico`: which month to close. Refused outright when the
      configuration does not enable the automatic closing; restricted to the previous
      month, only on the 1st and then the previous month; otherwise the current month. */
  function MesAutomatico(hoje: Date, habilitado: bool, apenasAnterior: bool): (r: Result<(int, int), AutoError>)
    requires Valid(hoje)
    ensures !habilitado ==> r == Err(Desabilitado)
    ensures habilitado ==> (r.Err? <==> apenasAnterior && hoje.day != 1)
    ensures r.Err? && habilitado ==> r.error == NaoEDia1
    ensures r.Ok? ==> 1 <= r.value.1 <= 12
    ensures r.Ok? && apenasAnterior ==> NextMonth(r.value.0, r.value.1) == (hoje.year, hoje.month)
    ensures r.Ok? && !apenasAnterior ==> r.value == (hoje.year, hoje.month)
  {
    if !habilitado then Err(Desabilitado)
    else if apenasAnterior then
      if hoje.day != 1 then Err(NaoEDia1) else Ok(PrevMonth(hoje.year, hoje.month))
    else Ok((hoje.year, hoje.month))
  }

  // ---------------------------------------------------------------- the closing page

  /** The month the page shows by default. */
  function MesPadrao(hoje: Date, apenasAnterior: bool): (r: (int, int))
    requires Valid(hoje)
    ensures 1 <= r.1 <= 12
    ensures apenasAnterior ==> NextMonth(r.0, r.1) == (hoje.year, hoje.month)
    ensures !apenasAnterior ==> r == (hoje.year, hoje.month)
  {
    if apenasAnterior then PrevMonth(hoje.year, hoje.month) else (hoje.year, hoje.month)
  }

  /** The (year, month) the page shows: the requested pair when both are given, read as
      integers and the month lies in 1..12; the default otherwise. */
  function MesExibido(mesTexto: Option<string>, anoTexto: Option<string>, hoje: Date, apenasAnterior: bool): (r: (int, int))
    requires Valid(hoje)
    ensures 1 <= r.1 <= 12
    ensures r != MesPadrao(hoje, apenasAnterior) ==>
      Given(mesTexto) && Given(anoTexto) && Listing.ParseInt(mesTexto.value) == Some(r.1) && Listing.ParseInt(anoTexto.value) == Some(r.0)
    ensures !Given(mesTexto) || !Given(anoTexto) ==> r == MesPadrao(hoje, apenasAnterior)
  {
    if Given(mesTexto) && Given(anoTexto) then
      match (Listing.ParseInt(mesTexto.value), Listing.ParseInt(anoTexto.value))
      case (Some(m), Some(a)) => if 1 <= m <= 12 then (a, m) else MesPadrao(hoje, apenasAnterior)
      case _ => MesPadrao(hoje, apenasAnterior)
    else MesPadrao(hoje, apenasAnterior)
  }

  /** Navigating by the decimal text of a month and year shows exactly that month, and a
      month number out of range falls back to the default. */
  lemma MesExibidoNavigation(m: nat, a: nat, hoje: Date, apenasAnterior: bool)
    requires Valid(hoje)
    ensures 1 <= m <= 12 ==> MesExibido(Some(NatToDigits(m)), Some(NatToDigits(a)), hoje, apenasAnterior) == (a, m)
    ensures m > 12 ==> MesExibido(Some(NatToDigits(m)), Some(NatToDigits(a)), hoje, apenasAnterior) == MesPadrao(hoje, apenasAnterior)
  {
    Listing.ParseIntDigits(m);
    Listing.ParseIntDigits(a);
  }

  /** The page's preview period as written: the "early" flag compares today's day with
      the length of the SHOWN month, whether or not that month is the current one. */
  function PeriodoPreviewAsWritten(ano: int, mes: int, hoje: Date, apenasAnterior: bool): (r: (Date, Date, bool))
    requires 1 <= mes <= 12 && Valid(hoje)
    ensures r.0 == FirstOfMonth(ano, mes)
    ensures r.2 <==> !apenasAnterior && hoje.day < DaysInMonth(ano, mes)
  {
    var antecipado := if apenasAnterior then false else hoje.day < DaysInMonth(ano, mes);
    (FirstOfMonth(ano, mes), if antecipado then hoje else LastOfMonth(ano, mes), antecipado)
  }

  /** On 10 June 2025, showing March 2025 previews 1 March to 10 June, 102 days, where
      the closing itself would sum the 31 days of March. */
  lemma PreviewOverreaches(hoje: Date)
    requires hoje == Date(2025, 6, 10)
    ensures var p := PeriodoPreviewAsWritten(2025, 3, hoje, false);
      p.1 == hoje && Dias(p.0, p.1) == 102
    ensures DiasConsiderados(2025, 3, hoje) == 31
  {
    assert DaysBeforeMonth(2025, 6) - DaysBeforeMonth(2025, 3) == 92 by {
      assert DaysBeforeMonth(2025, 4) == DaysBeforeMonth(2025, 3) + 31;
      assert DaysBeforeMonth(2025, 5) == DaysBeforeMonth(2025, 4) + 30;
    }
  }

  // ---------------------------------------------------------------- safe account deletion

  /** Why an account may not be deleted, with the figure the message shows. */
  datatype Motivo = ComSaldo(saldo: real) | ComTransacoes(quantidade: nat) | ComParcelas(quantidade: nat)

  /** The installment plans of an account. */
  function PlanosDaConta(planos: seq<Installments.Plano>, conta: nat): (n: nat)
    ensures n <= |planos|
    ensures n == 0 <==> forall i :: 0 <= i < |planos| ==> planos[i].conta != conta
  {
    if planos == [] then 0
    else
      assert forall i :: 1 <= i < |planos| ==> planos[i] == planos[1..][i - 1];
      (if planos[0].conta == conta then 1 else 0) + PlanosDaConta(planos[1..], conta)
  }

  function TransacoesDaConta(ts: seq<Transacao>, conta: nat): nat {
    Quantos(ts, Janela(Some(conta), Todos, false))
  }

  /** The reasons `excluir_conta_segura` lists, one per failing check, in its order. */
  function MotivosBloqueio(saldo: real, ts: seq<Transacao>, planos: seq<Installments.Plano>, conta: nat): (r: seq<Motivo>)
    ensures r == [] <==> saldo == 0.0 && TransacoesDaConta(ts, conta) == 0 && PlanosDaConta(planos, conta) == 0
    ensures ComSaldo(saldo) in r <==> saldo != 0.0
    ensures ComTransacoes(TransacoesDaConta(ts, conta)) in r <==> TransacoesDaConta(ts, conta) > 0
    ensures ComParcelas(PlanosDaConta(planos, conta)) in r <==> PlanosDaConta(planos, conta) > 0
    ensures |r| <= 3
  {
    var n := TransacoesDaConta(ts, conta);
    var p := PlanosDaConta(planos, conta);
    (if saldo != 0.0 then [ComSaldo(saldo)] else [])
    + (if n > 0 then [ComTransacoes(n)] else [])
    + (if p > 0 then [ComParcelas(p)] else [])
  }

  const FraseConfirmacao: string := "CONFIRMO A EXCLUSAO"

  datatype Exclusao = Excluida | Bloqueada | ConfirmacaoInvalida | Formulario

  /** `excluir_conta_segura`: a GET shows the page; a POST deletes only an unblocked
      account whose confirmation is exactly the phrase. */
  function ExcluirContaSegura(post: bool, motivos: seq<Motivo>, confirmacao: Option<string>): (r: Exclusao)
    ensures r == Excluida <==> post && motivos == [] && confirmacao == Some(FraseConfirmacao)
    ensures !post <==> r == Formulario
    ensures r == Bloqueada <==> post && motivos != []
  {
    if !post then Formulario
    else if motivos != [] then Bloqueada
    else if confirmacao == Some(FraseConfirmacao) then Excluida
    else ConfirmacaoInvalida
  }

  lemma {:induction false} QuantosPositive(ts: seq<Transacao>, j: Janela, i: nat)
    requires i < |ts| && NaJanela(j, ts[i])
    ensures Quantos(ts, j) > 0
  {
    if i > 0 {
      QuantosPositive(ts[1..], j, i - 1);
    }
  }

  lemma {:induction false} EmptyAccountSums(ts: seq<Transacao>, conta: nat, tipos: set<string>)
    requires Quantos(ts, Janela(Some(conta), Todos, false)) == 0
    ensures Soma(ts, Janela(Some(conta), Todos, false), tipos) == 0.0
  {
    if ts != [] {
      EmptyAccountSums(ts[1..], conta, tipos);
    }
  }

  /** An account with any transaction or installment plan is never deleted; one with
      neither has a recomputed balance of 0 and is deleted on the confirmed POST. */
  lemma DeletionGuard(saldo: real, ts: seq<Transacao>, planos: seq<Installments.Plano>, conta: nat, confirmacao: Option<string>)
    ensures (exists i :: 0 <= i < |ts| && ts[i].conta == conta) ==>
      ExcluirContaSegura(true, MotivosBloqueio(saldo, ts, planos, conta), confirmacao) != Excluida
    ensures (exists i :: 0 <= i < |planos| && planos[i].conta == conta) ==>
      ExcluirContaSegura(true, MotivosBloqueio(saldo, ts, planos, conta), confirmacao) != Excluida
    ensures TransacoesDaConta(ts, conta) == 0 && PlanosDaConta(planos, conta) == 0 ==>
      ExcluirContaSegura(true, MotivosBloqueio(AtualizarSaldo(ts, conta), ts, planos, conta), Some(FraseConfirmacao)) == Excluida
  {
    if i :| 0 <= i < |ts| && ts[i].conta == conta {
      QuantosPositive(ts, Janela(Some(conta), Todos, false), i);
    }
    if TransacoesDaConta(ts, conta) == 0 {
      EmptyAccountSums(ts, conta, {Receita});
      EmptyAccountSums(ts, conta, {Despesa});
    }
  }
}

=== FILE: constants.dfy ===
/** The transaction-type vocabulary every balance computation depends on: income
    ("receita"), expenses ("despesa") and outflows such as paid installments ("saida"). */
module Constants {

  const Receita: string := "receita"
  const Despesa: string := "despesa"
  const Saida: string := "saida"

  /** The form choices: stored value and label, in this order. */
  const Choices: seq<(string, string)> := [(Receita, "Receita"), (Despesa, "Despesa"), (Saida, "Saída")]

  /** `get_all_types`: every transaction type. */
  function AllTypes(): (r: seq<string>)
    ensures |r| == |Choices| && forall i :: 0 <= i < |r| ==> r[i] == Choices[i].0
  {
    [Receita, Despesa, Saida]
  }

  /** `get_expense_types`: the types that take money out of an account. */
  function ExpenseTypes(): (r: seq<string>)
    ensures forall t :: t in r ==> t in AllTypes()
    ensures Receita !in r
  {
    [Despesa, Saida]
  }

  /** `is_valid_type`. */
  predicate IsValidType(tipo: string) {
    tipo in AllTypes()
  }

  /** `is_expense_type`. */
  predicate IsExpenseType(tipo: string) {
    tipo in ExpenseTypes()
  }

  /** The three literals are pairwise different. */
  lemma TypesDistinct()
    ensures Receita != Despesa && Receita != Saida && Despesa != Saida
  {
    assert Receita[0] != Despesa[0] && Receita[0] != Saida[0] && Despesa[0] != Saida[0];
  }

  /** A type is valid exactly when it is one of the three literals. */
  lemma ValidTypeIff(tipo: string)
    ensures IsValidType(tipo) <==> tipo == Receita || tipo == Despesa || tipo == Saida
  {
  }

  /** A type is an expense exactly when it is "despesa" or "saida"; every expense type is
      valid and income never is an expense. */
  lemma ExpenseTypeIff(tipo: string)
    ensures IsExpenseType(tipo) <==> tipo == Despesa || tipo == Saida
    ensures IsExpenseType(tipo) ==> IsValidType(tipo)
    ensures IsValidType(tipo) && !IsExpenseType(tipo) <==> tipo == Receita
  {
    TypesDistinct();
  }
}

=== FILE: currency_filter.dfy ===
/** The `currency_br` template filter: any value a template hands it becomes `R$ 1.234,56`
    or `-R$ 1.234,56`, and anything it cannot read becomes `R$ 0,00` instead of an error. */
module CurrencyFilter {
  import opened Wrappers
  import opened Text
  import opened Money
  import CurrencyUtils

  /** What a template may pass: nothing, a string, or a number (int or Decimal). */
  datatype FilterValue = NoneValue | Text(s: string) | Amount(x: real)

  const Zero: string := "R$ 0,00"

  /** The filter's own thousands grouping: longer than three digits, reverse, cut into
      threes from the left, join with '.', and reverse back. */
  function Grouped(integerPart: string): (r: string)
  {
    if |integerPart| > 3 then Reverse(ChunkJoin(Reverse(integerPart))) else integerPart
  }

  /** The formatting half of the filter, on the rounded cent count of the magnitude:
      `f"{abs:.2f}"` split at the point, the integer part grouped, and "-R$ " or "R$ " in
      front. */
  function RenderCents(c: nat, negative: bool): (r: string)
    ensures |r| >= 7 && r[|r| - 3] == ',' && AllDigits(r[|r| - 2..])
    ensures negative ==> StartsWith(r, "-R$ ")
    ensures !negative ==> StartsWith(r, "R$ ")
  {
    var body := Grouped(NatToDigits(c / 100)) + "," + TwoDigits(c % 100);
    RenderBody(c);
    var prefix := if negative then "-R$ " else "R$ ";
    var r := prefix + body;
    assert r[..|prefix|] == prefix;
    assert r[|r| - 3..] == body[|body| - 3..];
    r
  }

  /** The magnitude is rounded half-even to cents, as `:.2f` does on a Decimal. */
  function Render(x: real): (r: string)
    ensures |r| >= 7 && r[|r| - 3] == ',' && AllDigits(r[|r| - 2..])
    ensures x < 0.0 ==> StartsWith(r, "-R$ ")
    ensures x >= 0.0 ==> StartsWith(r, "R$ ")
  {
    RenderCents(RoundHalfEven((if x < 0.0 then -x else x) * 100.0), x < 0.0)
  }

  /** Everything after the prefix is the Brazilian cent rendering. */
  lemma RenderBody(c: nat)
    ensures Grouped(NatToDigits(c / 100)) + "," + TwoDigits(c % 100) == FormatCents(c)
  {
    ChunkJoinGroups(NatToDigits(c / 100));
  }

  /** `currency_br`. */
  function CurrencyBr(value: FilterValue): (r: string)
    ensures value.NoneValue? || value == Text("") ==> r == Zero
    ensures value.Text? && Strip(value.s) == [] ==> r == Zero
    ensures value.Text? && ParseDecimal(Strip(value.s)).None? ==> r == Zero
    ensures |r| >= 7 && r[|r| - 3] == ',' && AllDigits(r[|r| - 2..])
    ensures StartsWith(r, "R$ ") || StartsWith(r, "-R$ ")
  {
    match value
    case NoneValue => Zero
    case Text(s) =>
      if s == [] then Zero
      else
        var t := Strip(s);
        if t == [] then Zero
        else
          (match ParseDecimal(t)
           case None => Zero
           case Some(x) => Render(x))
    case Amount(x) => Render(x)
  }

  /** The filter and `format_currency_br` render every amount alike: "R$ " in front for
      non-negative amounts, "-R$ " in place of the bare '-' for negative ones. */
  lemma CurrencyBrMatchesFormat(x: real)
    ensures x >= 0.0 ==> CurrencyBr(Amount(x)) == "R$ " + CurrencyUtils.FormatCurrencyBr(x)
    ensures x < 0.0 ==> CurrencyBr(Amount(x)) == "-R$ " + CurrencyUtils.FormatCurrencyBr(x)[1..]
  {
    var c := RoundHalfEven((if x < 0.0 then -x else x) * 100.0);
    var f := FormatCents(c);
    var b := CurrencyUtils.FormatCurrencyBr(x);
    assert b == if x < 0.0 then "-" + f else f;
    RenderCentsFormat(c, x < 0.0);
    assert CurrencyBr(Amount(x)) == RenderCents(c, x < 0.0) by {
      assert CurrencyBr(Amount(x)) == Render(x);
    }
    if x < 0.0 {
      assert b[1..] == f;
    }
  }

  lemma RenderCentsFormat(c: nat, negative: bool)
    ensures RenderCents(c, negative) == (if negative then "-R$ " else "R$ ") + FormatCents(c)
  {
    var g, t := Grouped(NatToDigits(c / 100)), TwoDigits(c % 100);
    RenderBody(c);
    var prefix := if negative then "-R$ " else "R$ ";
    assert prefix + (g + "," + t) == prefix + g + "," + t;
  }

  /** A string is rendered as the amount it spells. */
  lemma CurrencyBrText(s: string, x: real)
    requires s != [] && Strip(s) != [] && ParseDecimal(Strip(s)) == Some(x)
    ensures CurrencyBr(Text(s)) == CurrencyBr(Amount(x))
  {
  }

  /** Nothing, or nothing but blanks, is zero reais. */
  lemma CurrencyBrBlankExamples()
    ensures CurrencyBr(NoneValue) == "R$ 0,00"
    ensures CurrencyBr(Text("   ")) == "R$ 0,00"
  {
    assert Strip("   ") == [] by {
      assert StripLeft("   ") == [] by { assert StripLeft(" ") == []; assert StripLeft("  ") == []; }
    }
  }

  /** A whole number of cents is rendered exactly. */
  lemma CurrencyBrCents(c: nat)
    ensures CurrencyBr(Amount(Cents(c))) == "R$ " + FormatCents(c)
  {
    var x := Cents(c);
    assert x >= 0.0;
    assert (if x < 0.0 then -x else x) * 100.0 == c as real;
    RoundWhole(c);
    assert CurrencyBr(Amount(x)) == Render(x);
    assert Render(x) == RenderCents(c, false);
    RenderCentsFormat(c, false);
  }

  /** A negative amount that rounds to zero cents keeps its minus sign: -0.001 is shown
      as "-R$ 0,00". */
  lemma CurrencyBrNegativeZero(x: real)
    requires -0.005 <= x < 0.0
    ensures CurrencyBr(Amount(x)) == "-R$ 0,00"
  {
    assert RoundHalfEven((if x < 0.0 then -x else x) * 100.0) == 0;
    RenderCentsFormat(0, true);
    SmallCentsExamples();
  }
}

=== FILE: currency_mask.dfy ===
/** The browser's currency mask (`CurrencyFormatter`): a money input shows `1.234,56` at
    all times, reads every keystroke as one more cent digit, and announces the number it
    shows in a `currencyChanged` event. Numbers are exact reals; JavaScript's binary
    floating point is not part of this model. */
module CurrencyMask {
  import opened Wrappers
  import opened Text
  import opened Money
  import CurrencyUtils

  /** A JavaScript number as far as the mask cares: NaN or a (finite) value. */
  datatype JsNumber = NaN | Num(value: real)

  /** What a handler leaves behind: the field's new text and, when the handler fires
      `currencyChanged`, the number carried in the event. */
  datatype Update = Update(display: string, payload: JsNumber)

  // ---------------------------------------------------------------- formatCurrency

  /** `toLocaleString('pt-BR')` with exactly two fraction digits: the magnitude rounded
      half away from zero to cents, '-' in front of negative numbers. */
  function FormatNumber(x: real): (r: string)
    ensures |r| >= 4 && r[|r| - 3] == ','
    ensures x < 0.0 <==> r[0] == '-'
    ensures var m := if x < 0.0 then -x else x; NatOf(KeepDigits(r)) == RoundHalfUp(m * 100.0)
    ensures AllDigits(r[|r| - 2..]) && IsGrouped(r[(if x < 0.0 then 1 else 0)..|r| - 3])
  {
    SignedRendering(x < 0.0, RoundHalfUp((if x < 0.0 then -x else x) * 100.0))
  }

  /** `formatCurrency`: NaN shows as zero, anything else as `FormatNumber` renders it. */
  function FormatCurrency(v: JsNumber): (r: string)
    ensures |r| >= 4 && r[|r| - 3] == ','
    ensures v.NaN? ==> r == "0,00"
    ensures v.Num? ==> (v.value < 0.0 <==> r[0] == '-')
    ensures v.Num? ==> var m := if v.value < 0.0 then -v.value else v.value;
      NatOf(KeepDigits(r)) == RoundHalfUp(m * 100.0)
    ensures v.Num? ==> AllDigits(r[|r| - 2..]) && IsGrouped(r[(if v.value < 0.0 then 1 else 0)..|r| - 3])
  {
    if v.NaN? then
      ZeroRendering();
      FormatNumber(0.0)
    else
      FormatNumber(v.value)
  }

  lemma ZeroRendering()
    ensures FormatNumber(0.0) == "0,00"
  {
    assert RoundHalfUp(0.0) == 0;
    FormatCentsExamples();
  }

  /** On a whole number of cents the mask and the server render alike. */
  lemma FormatCurrencyCents(c: int)
    ensures FormatCurrency(Num(Cents(c))) == FormatSignedCents(c)
    ensures FormatCurrency(Num(Cents(c))) == CurrencyUtils.FormatCurrencyBr(Cents(c))
  {
    CentsMagnitude(c);
    CurrencyUtils.FormatCurrencyBrCents(c);
  }

  /** Between whole cents they part ways: the browser rounds a half cent up, the server to
      the even cent, so 0.125 shows as "0,13" in the field and "0,12" on the page. */
  lemma FormatCurrencyRoundsAway()
    ensures FormatCurrency(Num(0.125)) == "0,13"
    ensures CurrencyUtils.FormatCurrencyBr(0.125) == "0,12"
  {
    RoundingsDiffer();
    assert NatToDigits(0) == "0";
    assert TwoDigits(13) == "13" && TwoDigits(12) == "12";
  }

  // ---------------------------------------------------------------- parseFloat

  /** The white space and line terminators `parseFloat` skips before a number. */
  predicate IsJsSpace(c: char) {
    c == '\t' || c == '\n' || c == '\U{000B}' || c == '\U{000C}' || c == '\r' || c == ' '
    || c == '\U{00A0}' || c == '\U{1680}' || '\U{2000}' <= c <= '\U{200A}' || c == '\U{2028}'
    || c == '\U{2029}' || c == '\U{202F}' || c == '\U{205F}' || c == '\U{3000}' || c == '\U{FEFF}'
  }

  function TrimJsStart(s: string): (r: string)
    ensures |r| <= |s| && s[|s| - |r|..] == r
    ensures r == [] || !IsJsSpace(r[0])
  {
    if s != [] && IsJsSpace(s[0]) then TrimJsStart(s[1..]) else s
  }

  /** The longest prefix of `u` of the form `D+`, `D+.D*` or `.D+`, and its value. */
  function ReadUnsigned(u: string): (r: Option<real>)
    ensures r.Some? ==> r.value >= 0.0
    ensures r.Some? ==> u != [] && (IsDigit(u[0]) || (|u| > 1 && u[0] == '.' && IsDigit(u[1])))
  {
    var a := TakeDigits(u);
    var rest := u[|a|..];
    var b := if rest != [] && rest[0] == '.' then TakeDigits(rest[1..]) else [];
    if a == [] && b == [] then None
    else
      assert a == [] ==> rest == u && u[1] == b[0];
      Some(NatOf(a) as real + FractionValue(b))
  }

  /** `parseFloat`: after leading white space, an optional sign, then the longest prefix
      `ReadUnsigned` accepts; NaN when there is none. Whatever follows the prefix is
      ignored. `Infinity` and exponents are not part of this model. */
  function ParseFloat(s: string): (r: JsNumber)
    ensures r.Num? && r.value < 0.0 ==> '-' in s
  {
    var t := TrimJsStart(s);
    var r := ParseTrimmed(t);
    assert r.Num? && r.value < 0.0 ==> t[0] == s[|s| - |t|];
    r
  }

  /** `parseFloat` once the leading white space is gone. */
  function ParseTrimmed(t: string): (r: JsNumber)
    ensures r.Num? && r.value < 0.0 ==> t != [] && t[0] == '-'
  {
    if t != [] && (t[0] == '+' || t[0] == '-') then
      match ReadUnsigned(t[1..])
      case None => NaN
      case Some(v) => Num(if t[0] == '-' then -v else v)
    else
      match ReadUnsigned(t)
      case None => NaN
      case Some(v) => Num(v)
  }

  /** Nothing is read where there is no digit. */
  lemma ParseFloatNeedsDigit(s: string)
    requires forall i :: 0 <= i < |s| ==> !IsDigit(s[i])
    ensures ParseFloat(s) == NaN
  {
    var t := TrimJsStart(s);
    assert forall i :: 0 <= i < |t| ==> t[i] == s[|s| - |t| + i];
    if t != [] && (t[0] == '+' || t[0] == '-') {
      assert forall i :: 0 <= i < |t[1..]| ==> t[1..][i] == t[i + 1];
    }
  }

  /** `units.cents` is read exactly. */
  lemma ReadUnsignedPoint(a: string, t: string)
    requires AllDigits(a) && a != [] && AllDigits(t) && |t| == 2
    ensures ReadUnsigned(a + "." + t) == Some(PointValueOf(a, t))
  {
    var u := a + "." + t;
    PointSplit(a, t);
    assert TakeDigits(t) == t by {
      TakeDigitsStops(t, []);
      assert t + [] == t;
    }
    ReadUnsignedWithPoint(u, a, t);
    FractionTwoDigits(t);
  }

  /** Integer digits, then a point, then fraction digits. */
  lemma ReadUnsignedWithPoint(u: string, a: string, b: string)
    requires a != [] && TakeDigits(u) == a && u[|a|..] == "." + b && TakeDigits(b) == b
    ensures ReadUnsigned(u) == Some(NatOf(a) as real + FractionValue(b))
  {
    var rest := u[|a|..];
    assert rest[1..] == b;
  }

  /** The value `a.t` spells, for digits `a` and two digits `t`. */
  function PointValueOf(a: string, t: string): real
    requires AllDigits(a) && AllDigits(t)
  {
    NatOf(a) as real + NatOf(t) as real / 100.0
  }

  /** The integer digits of `a.t` stop at the point. */
  lemma PointSplit(a: string, t: string)
    requires AllDigits(a)
    ensures TakeDigits(a + "." + t) == a && (a + "." + t)[|a|..] == "." + t && ("." + t)[1..] == t
  {
    assert a + "." + t == a + ("." + t);
    TakeDigitsStops(a, "." + t);
  }



  /** `u` with a '-' in front when `negative`. */
  function Signed(negative: bool, u: string): (r: string)
    ensures |r| == |u| + (if negative then 1 else 0)
  {
    if negative then "-" + u else u
  }

  /** `x`, negated when `negative`. */
  function SignedValue(negative: bool, x: real): real {
    if negative then -x else x
  }

  /** A number that starts with a digit, with or without a '-' in front. */
  lemma ParseFloatSigned(u: string, v: real, negative: bool)
    requires u != [] && IsDigit(u[0]) && ReadUnsigned(u) == Some(v)
    ensures ParseFloat(Signed(negative, u)) == Num(SignedValue(negative, v))
  {
    if negative {
      ParseFloatNegative(u, v);
    } else {
      ParseFloatPositive(u, v);
    }
  }

  lemma ParseFloatPositive(u: string, v: real)
    requires u != [] && IsDigit(u[0]) && ReadUnsigned(u) == Some(v)
    ensures ParseFloat(u) == Num(v)
  {
    NumberStartNotSpace(u[0]);
    assert TrimJsStart(u) == u;
    assert ParseTrimmed(u) == Num(v);
  }

  lemma NumberStartNotSpace(c: char)
    requires IsDigit(c) || c == '-'
    ensures !IsJsSpace(c)
  {
  }

  lemma ParseFloatNegative(u: string, v: real)
    requires u != [] && IsDigit(u[0]) && ReadUnsigned(u) == Some(v)
    ensures ParseFloat("-" + u) == Num(-v)
  {
    var s := "-" + u;
    NumberStartNotSpace(s[0]);
    assert TrimJsStart(s) == s;
    assert s[1..] == u;
    assert ParseTrimmed(s) == Num(-v);
  }

  /** A plain `units.cents` text is read exactly, with or without a leading '-'. */
  lemma ParseFloatPoint(a: string, t: string, negative: bool)
    requires AllDigits(a) && a != [] && AllDigits(t) && |t| == 2
    ensures ParseFloat(Signed(negative, a + "." + t))
      == Num(SignedValue(negative, PointValueOf(a, t)))
  {
    ReadUnsignedPoint(a, t);
    assert IsDigit((a + "." + t)[0]) by { assert (a + "." + t)[0] == a[0]; }
    ParseFloatSigned(a + "." + t, PointValueOf(a, t), negative);
  }

  // ---------------------------------------------------------------- parseNumericValue

  /** `parseNumericValue`: the empty text is 0; otherwise every '.' goes, the first ','
      becomes '.', and `parseFloat` reads the result, NaN counting as 0. */
  function ParseNumericValue(text: string): (r: real)
    ensures text == [] ==> r == 0.0
    ensures r < 0.0 ==> '-' in text
  {
    if text == [] then 0.0
    else
      var clean := ReplaceFirst(Drop(text, {'.'}), ',', '.');
      match ParseFloat(clean)
      case NaN => 0.0
      case Num(x) =>
        assert x < 0.0 ==> '-' in text by {
          if x < 0.0 {
            var i :| 0 <= i < |clean| && clean[i] == '-';
            ReplaceFirstKeeps(Drop(text, {'.'}), ',', '.', i);
            assert Drop(text, {'.'})[i] in text;
          }
        }
        x
  }

  /** A text without digits reads as 0: that is how the mask treats rubbish. */
  lemma ParseNumericValueNeedsDigit(text: string)
    requires forall i :: 0 <= i < |text| ==> !IsDigit(text[i])
    ensures ParseNumericValue(text) == 0.0
  {
    if text != [] {
      var d := Drop(text, {'.'});
      var clean := ReplaceFirst(d, ',', '.');
      forall i | 0 <= i < |clean| ensures !IsDigit(clean[i]) {
        if clean[i] != '.' {
          ReplaceFirstKeeps(d, ',', '.', i);
          assert d[i] in text;
        }
      }
      ParseFloatNeedsDigit(clean);
    }
  }

  lemma {:induction false} ReplaceFirstKeeps(s: string, a: char, b: char, i: nat)
    requires i < |s| && ReplaceFirst(s, a, b)[i] != b
    ensures s[i] == ReplaceFirst(s, a, b)[i]
  {
    if i > 0 && s[0] != a {
      ReplaceFirstKeeps(s[1..], a, b, i - 1);
    }
  }

  /** Reading back a rendering gives its amount, sign included. */
  lemma ParseNumericValueFormat(c: int)
    ensures ParseNumericValue(FormatSignedCents(c)) == Cents(c)
  {
    var m: nat := if c < 0 then -c else c;
    assert FormatSignedCents(c) == Signed(c < 0, FormatCents(m));
    ParseSignedRendering(c < 0, m);
    assert SignedValue(c < 0, Cents(m)) == Cents(c);
  }

  lemma ParseSignedRendering(negative: bool, m: nat)
    ensures ParseNumericValue(Signed(negative, FormatCents(m))) == SignedValue(negative, Cents(m))
  {
    var a, t := NatToDigits(m / 100), TwoDigits(m % 100);
    var text, clean := Signed(negative, FormatCents(m)), Signed(negative, a + "." + t);
    CleanSigned(negative, m);
    ParseFloatPoint(a, t, negative);
    PointValue(m);
    ParseNumericValueOf(text, clean, SignedValue(negative, Cents(m)));
  }

  lemma PointValue(m: nat)
    ensures PointValueOf(NatToDigits(m / 100), TwoDigits(m % 100)) == Cents(m)
  {
    CentsSplit(m);
  }

  /** Cleaning a rendering leaves `units.cents`, signed. */
  lemma CleanSigned(negative: bool, m: nat)
    ensures ReplaceFirst(Drop(Signed(negative, FormatCents(m)), {'.'}), ',', '.')
      == Signed(negative, NatToDigits(m / 100) + "." + TwoDigits(m % 100))
  {
    var a, t := NatToDigits(m / 100), TwoDigits(m % 100);
    var f := FormatCents(m);
    DropSigned(negative, f);
    FormatCentsUngrouped(m);
    assert ',' !in a;
    ReplaceFirstAt(a, ',', '.', t);
    ReplaceFirstSigned(negative, a + "," + t);
  }

  /** The value of a non-empty text whose cleaned form `parseFloat` reads. */
  lemma ParseNumericValueOf(text: string, clean: string, x: real)
    requires text != [] && ReplaceFirst(Drop(text, {'.'}), ',', '.') == clean
    requires ParseFloat(clean) == Num(x)
    ensures ParseNumericValue(text) == x
  {
  }

  lemma DropSigned(negative: bool, u: string)
    ensures Drop(Signed(negative, u), {'.'}) == Signed(negative, Drop(u, {'.'}))
  {
    if negative {
      DropAppend("-", u, {'.'});
      assert Drop("-", {'.'}) == "-";
    }
  }

  lemma ReplaceFirstSigned(negative: bool, u: string)
    ensures ReplaceFirst(Signed(negative, u), ',', '.') == Signed(negative, ReplaceFirst(u, ',', '.'))
  {
    if negative {
      assert ("-" + u)[1..] == u;
    }
  }

  // ---------------------------------------------------------------- the handlers

  /** `handleInput`: every non-digit is deleted, no digits at all count as "0", and the
      digits are a cent count that is displayed and announced. */
  function HandleInput(text: string): (u: Update)
    ensures u.payload == Num(Cents(NatOf(KeepDigits(text))))
    ensures u.display == FormatCents(NatOf(KeepDigits(text)))
  {
    var digits := KeepDigits(text);
    var digits' := if digits == [] then "0" else digits;
    assert NatOf(digits') == NatOf(digits) by {
      if digits == [] { assert "0"[..0] == []; }
    }
    Shown(NatOf(digits'))
  }

  /** The field after `handleInput` read `n` cents: `n / 100` rendered and announced. */
  function Shown(n: nat): (u: Update)
    ensures u.payload == Num(Cents(n)) && u.display == FormatCents(n)
  {
    var x := n as real / 100.0;
    assert x == Cents(n);
    FormatCurrencyCents(n);
    Update(FormatCurrency(Num(x)), Num(x))
  }

  /** The number `handleInput` announces is the one the field now shows. */
  lemma HandleInputAnnouncesShown(text: string)
    ensures ParseNumericValue(HandleInput(text).display) == HandleInput(text).payload.value
  {
    ParseNumericValueFormat(NatOf(KeepDigits(text)));
  }

  /** Typing a digit after a displayed amount shifts it one place to the left and appends
      the digit as the new last cent: "0,01" then "2" shows "0,12", then "3" shows "1,23". */
  lemma TypeDigit(c: nat, d: char)
    requires IsDigit(d)
    ensures HandleInput(FormatCents(c) + [d]).display == FormatCents(c * 10 + DigitValue(d))
  {
    var f := FormatCents(c);
    FormatCentsDigits(c);
    var k := KeepDigits(f);
    KeepDigitsSnoc(f, d);
    assert KeepDigits(f + [d]) == k + [d];
    AppendDigit(k, d, c);
    HandleInputShows(f + [d], c * 10 + DigitValue(d));
  }

  lemma AppendDigit(k: string, d: char, c: nat)
    requires AllDigits(k) && IsDigit(d) && NatOf(k) == c
    ensures AllDigits(k + [d]) && NatOf(k + [d]) == c * 10 + DigitValue(d)
  {
    NatOfSnoc(k, d);
  }

  lemma HandleInputShows(text: string, n: nat)
    requires NatOf(KeepDigits(text)) == n
    ensures HandleInput(text).display == FormatCents(n)
  {
  }

  /** Deleting the last character of a displayed amount drops its last cent digit. */
  lemma Backspace(c: nat)
    ensures var f := FormatCents(c); HandleInput(f[..|f| - 1]).display == FormatCents(c / 10)
  {
    var f := FormatCents(c);
    var p, last := f[..|f| - 1], f[|f| - 1];
    assert f == p + [last];
    FormatCentsDigits(c);
    assert IsDigit(last) by { assert last == f[|f| - 2..][1]; }
    var k := KeepDigits(p);
    KeepDigitsSnoc(p, last);
    assert KeepDigits(f) == k + [last];
    NatOfSnoc(k, last);
    DropLastDigit(NatOf(k), DigitValue(last), c);
    HandleInputShows(p, c / 10);
  }

  lemma DropLastDigit(q: nat, d: nat, c: nat)
    requires d < 10 && c == q * 10 + d
    ensures q == c / 10
  {
  }

  /** "0,01", then the key 2, then the key 3: the field shows "0,12" and then "1,23"
      (the renderings of 1, 12 and 123 cents are spelled out by `SmallRenderings`). */
  lemma TypingScenario()
    ensures HandleInput(FormatCents(1) + ['2']).display == FormatCents(12)
    ensures HandleInput(FormatCents(12) + ['3']).display == FormatCents(123)
  {
    TypeDigit(1, '2');
    TypeDigit(12, '3');
  }

  lemma SmallRenderings()
    ensures FormatCents(1) == "0,01" && FormatCents(12) == "0,12" && FormatCents(123) == "1,23"
  {
    assert NatToDigits(0) == "0" && NatToDigits(1) == "1";
    assert TwoDigits(1) == "01" && TwoDigits(12) == "12" && TwoDigits(23) == "23";
  }

  /** `handleBlur`: the text is read back and rendered again. */
  function HandleBlur(text: string): (display: string)
    ensures |display| >= 4 && display[|display| - 3] == ','
    ensures text == [] ==> display == "0,00"
  {
    ZeroRendering();
    FormatCurrency(Num(ParseNumericValue(text)))
  }

  /** Leaving the field with no digit in it shows zero. */
  lemma HandleBlurNoDigits(text: string)
    requires forall i :: 0 <= i < |text| ==> !IsDigit(text[i])
    ensures HandleBlur(text) == "0,00"
  {
    ParseNumericValueNeedsDigit(text);
    ZeroRendering();
  }

  /** Leaving the field changes nothing that is already a rendering of whole cents. */
  lemma BlurKeepsRendering(c: int)
    ensures HandleBlur(FormatSignedCents(c)) == FormatSignedCents(c)
  {
    ParseNumericValueFormat(c);
    FormatCurrencyCents(c);
  }

  /** The keys `handleKeydown` lets through without `preventDefault`. */
  const AllowedKeys: seq<string> := ["Backspace", "Delete", "Tab", "Escape", "Enter",
    "ArrowLeft", "ArrowRight", "ArrowUp", "ArrowDown", "Home", "End"]

  /** The shortcut letters allowed with Ctrl (compared after lower-casing; no non-ASCII
      character lower-cases to one of these, so ASCII lower-casing is exact here). */
  const ShortcutLetters: seq<string> := ["a", "c", "v", "x"]

  /** `handleKeydown`: true when the key goes through, false when it is prevented. */
  function HandleKeydown(key: string, ctrl: bool): (allowed: bool)
    ensures |key| == 1 && IsDigit(key[0]) ==> allowed
    ensures allowed && !ctrl && key !in AllowedKeys ==> |key| == 1 && IsDigit(key[0])
    ensures allowed && key !in AllowedKeys && !(|key| == 1 && IsDigit(key[0])) ==>
      ctrl && |key| == 1 && key[0] in "aAcCvVxX"
    ensures key in AllowedKeys ==> allowed
    ensures ctrl && |key| == 1 && key[0] in "aAcCvVxX" ==> allowed
  {
    var shortcut := ctrl && Lower(key) in ShortcutLetters;
    assert ctrl && |key| == 1 && key[0] in "aAcCvVxX" ==> shortcut by {
      if ctrl && |key| == 1 && key[0] in "aAcCvVxX" {
        assert Lower(key) == [LowerChar(key[0])];
      }
    }
    assert shortcut ==> |key| == 1 && key[0] in "aAcCvVxX" by {
      if shortcut {
        assert |Lower(key)| == 1;
        assert LowerChar(key[0]) in "acvx";
      }
    }
    if key in AllowedKeys then true
    else if shortcut then true
    else |key| == 1 && IsDigit(key[0])
  }

  /** A digit, a listed key or a Ctrl shortcut goes through; every other key is stopped. */
  lemma KeydownExamples()
    ensures HandleKeydown("7", false) && HandleKeydown("Backspace", false)
    ensures HandleKeydown("V", true) && !HandleKeydown("v", false)
    ensures !HandleKeydown("-", false) && !HandleKeydown(",", false) && !HandleKeydown("12", false)
  {
    assert Lower("V") == "v";
    assert "7"[0] == '7' && IsDigit('7');
    assert "-"[0] == '-' && !IsDigit('-');
    assert ","[0] == ',' && !IsDigit(',');
  }

  /** `setNumericValue`: the given number is displayed and announced as given. */
  function SetNumericValue(v: JsNumber): (u: Update)
    ensures u.payload == v
    ensures v.NaN? ==> u.display == "0,00"
  {
    Update(FormatCurrency(v), v)
  }

  /** For a whole number of cents the announced number is the one the field shows. */
  lemma SetNumericValueShown(c: int)
    ensures ParseNumericValue(SetNumericValue(Num(Cents(c))).display) == Cents(c)
  {
    FormatCurrencyCents(c);
    ParseNumericValueFormat(c);
  }

  /** The initial-value rule of `setupCurrencyField`: a numeric value is re-rendered, an
      empty one shows "0,00", and any other text is left as it is. */
  function InitialDisplay(value: string): (display: string)
    ensures value == [] ==> display == "0,00"
    ensures value != [] && ParseFloat(value).NaN? ==> display == value
    ensures ParseFloat(value).Num? ==> display == FormatCurrency(ParseFloat(value))
  {
    if value != [] && ParseFloat(value).Num? then FormatCurrency(ParseFloat(value))
    else if value == [] then "0,00"
    else value
  }

  /** The field initialised from the server's `units.cents` text shows its rendering. */
  lemma InitialDisplayOfPointText(c: nat)
    ensures InitialDisplay(PointText(c)) == FormatCents(c)
  {
    var a, t := NatToDigits(c / 100), TwoDigits(c % 100);
    var s := PointText(c);
    assert s == Signed(false, a + "." + t);
    ParseFloatPoint(a, t, false);
    PointValue(c);
    assert ParseFloat(s) == Num(Cents(c));
    FormatCurrencyCents(c);
    assert FormatSignedCents(c) == FormatCents(c);
  }

  /** What the mask submits for an amount the server reads back as that amount. */
  lemma MaskToServer(c: nat)
    ensures CurrencyUtils.ParseCurrencyValue(Some(HandleInput(NatToDigits(c)).display)) == Ok(Cents(c))
  {
    KeepDigitsOfDigits(NatToDigits(c));
    CurrencyUtils.ParseSignedCents(c);
  }
}

=== FILE: currency_utils.dfy ===
/** The server-side money helpers of the utilities module: `parse_currency_value`, which
    reads what the browser mask (or a user) typed, `format_currency_br`, which renders a
    Decimal amount as `1.234,56`, and the future-date check used before saving. */
module CurrencyUtils {
  import opened Wrappers
  import opened Text
  import opened Money
  import opened Dates

  /** `validar_data_futura`: False for a missing date, otherwise whether the date lies
      after today (today is a parameter in place of the Brazilian wall clock). */
  function ValidarDataFutura(data: Option<Date>, hoje: Date): (futura: bool)
    requires Valid(hoje) && (data.Some? ==> Valid(data.value))
    ensures futura <==> data.Some? && Ordinal(hoje) < Ordinal(data.value)
  {
    match data
    case None => false
    case Some(d) =>
      BeforeOrdinal(hoje, d);
      Before(hoje, d)
  }

  // ---------------------------------------------------------------- parsing

  /** The ValueError `parse_currency_value` raises, carrying the stripped input. */
  datatype ParseError = ValorInvalido(texto: string)

  predicate IsMoneyChar(c: char) {
    IsDigit(c) || c == ',' || c == '.'
  }

  /** `re.sub(r'[^\d,.]', '', s)`: only digits, commas and points survive. */
  function KeepMoneyChars(s: string): (r: string)
    ensures |r| <= |s|
    ensures forall i :: 0 <= i < |r| ==> IsMoneyChar(r[i]) && r[i] in s
  {
    if s == [] then []
    else
      var rest := KeepMoneyChars(s[1..]);
      assert forall c :: c in rest ==> c in s;
      (if IsMoneyChar(s[0]) then [s[0]] else []) + rest
  }

  lemma {:induction false} KeepMoneyCharsAppend(a: string, b: string)
    ensures KeepMoneyChars(a + b) == KeepMoneyChars(a) + KeepMoneyChars(b)
  {
    if a == [] {
      assert a + b == b;
    } else {
      assert (a + b)[1..] == a[1..] + b;
      KeepMoneyCharsAppend(a[1..], b);
    }
  }

  lemma {:induction false} KeepMoneyCharsOfMoney(s: string)
    requires forall i :: 0 <= i < |s| ==> IsMoneyChar(s[i])
    ensures KeepMoneyChars(s) == s
  {
    if s != [] {
      KeepMoneyCharsOfMoney(s[1..]);
    }
  }

  /** The second half of `parse_currency_value`, on text reduced to digits, ',' and '.':
      bare digits are a cent count (nothing at all is 0.00); with a ',' present, '.' are
      thousands separators and ',' is the decimal mark; `None` where Decimal refuses. */
  function ParseCleaned(clean: string): (r: Option<real>)
    requires forall i :: 0 <= i < |clean| ==> IsMoneyChar(clean[i])
    ensures r.Some? ==> r.value >= 0.0
    ensures r.None? ==> ',' in clean || '.' in clean
    ensures clean == [] ==> r == Some(0.0)
  {
    if ',' !in clean && '.' !in clean then
      assert AllDigits(clean) by {
        forall i | 0 <= i < |clean| ensures IsDigit(clean[i]) {
          assert IsMoneyChar(clean[i]) && clean[i] in clean;
        }
      }
      if clean != [] then Some(NatOf(clean) as real / 100.0) else Some(0.0)
    else
      var brazilian := if ',' in clean then ReplaceAll(Drop(clean, {'.'}), ',', '.') else clean;
      assert brazilian != [] ==> IsMoneyChar(brazilian[0]) by {
        if brazilian != [] && ',' in clean {
          var dropped := Drop(clean, {'.'});
          assert dropped[0] in clean;
        }
      }
      ParseDecimal(brazilian)
  }

  /** `parse_currency_value`: None or the empty string is 0.00; anything else is stripped
      and read by `ReadStripped`. */
  function ParseCurrencyValue(value: Option<string>): (r: Result<real, ParseError>)
    ensures value.None? || value.value == [] ==> r == Ok(0.0)
    ensures r.Err? ==> value.Some? && r.error == ValorInvalido(Strip(value.value))
    ensures r.Err? ==> var t := KeepMoneyChars(Strip(value.value)); ',' in t || '.' in t
    ensures r.Ok? && r.value < 0.0 ==> value.Some? && ParseDecimal(Strip(value.value)) == Some(r.value)
  {
    if value.None? || value.value == [] then Ok(0.0) else ReadStripped(Strip(value.value))
  }

  /** The stripped text: one that already is a decimal is read as it stands; anything else
      is cleaned and read by `ParseCleaned`, whose refusal is a ValueError. */
  function ReadStripped(v: string): (r: Result<real, ParseError>)
    ensures r.Err? ==> r.error == ValorInvalido(v)
    ensures r.Err? ==> var t := KeepMoneyChars(v); ',' in t || '.' in t
    ensures r.Ok? && r.value < 0.0 ==> ParseDecimal(v) == Some(r.value)
  {
    match ParseDecimal(v)
    case Some(x) => Ok(x)
    case None =>
      match ParseCleaned(KeepMoneyChars(v))
      case Some(x) => Ok(x)
      case None => Err(ValorInvalido(v))
  }

  /** A non-empty value is read after stripping. */
  lemma ParseStripped(s: string)
    requires s != [] && Strip(s) == s
    ensures ParseCurrencyValue(Some(s)) == ReadStripped(s)
  {
  }

  /** Text with no digit, comma or point is not a decimal, and nothing of it survives the
      cleaning step, so it reads as 0.00 ("abc", "R$"). */
  lemma NoMoneyCharsReadAsZero(v: string)
    requires forall i :: 0 <= i < |v| ==> !IsMoneyChar(v[i])
    ensures ParseCurrencyValue(Some(v)) == Ok(0.0)
  {
    var t := Strip(v);
    var k, l :| 0 <= k <= l <= |v| && t == v[k..l];
    assert forall i :: 0 <= i < |t| ==> !IsMoneyChar(t[i]) by {
      forall i | 0 <= i < |t| ensures !IsMoneyChar(t[i]) {
        assert t[i] == v[k + i];
      }
    }
    NoMoneyCharsNotDecimal(t);
    NoMoneyCharsCleanEmpty(t);
  }

  lemma NoMoneyCharsNotDecimal(t: string)
    requires forall i :: 0 <= i < |t| ==> !IsMoneyChar(t[i])
    ensures ParseDecimal(t) == None
  {
    if t != [] && (t[0] == '+' || t[0] == '-') {
      assert ParseUnsigned(t[1..]) == None by {
        if |t| > 1 {
          assert t[1..][0] == t[1];
        }
      }
    }
  }

  lemma {:induction false} NoMoneyCharsCleanEmpty(t: string)
    requires forall i :: 0 <= i < |t| ==> !IsMoneyChar(t[i])
    ensures KeepMoneyChars(t) == []
  {
    if t != [] {
      assert forall i :: 0 <= i < |t[1..]| ==> t[1..][i] == t[i + 1];
      NoMoneyCharsCleanEmpty(t[1..]);
    }
  }

  /** Dropping the points from a text with two commas leaves two commas, at known places. */
  lemma DropPointsKeepsCommas(c: string, i: nat, j: nat) returns (p1: nat, p2: nat)
    requires i < j < |c| && c[i] == ',' && c[j] == ','
    ensures p1 < p2 < |Drop(c, {'.'})|
    ensures Drop(c, {'.'})[p1] == ',' && Drop(c, {'.'})[p2] == ','
  {
    var a, mid, w := c[..i], c[i + 1..j], c[j + 1..];
    assert c == a + [','] + mid + [','] + w;
    assert Drop([','], {'.'}) == [','] by { assert [','][1..] == []; }
    DropAppend(a + [','] + mid + [','], w, {'.'});
    DropAppend(a + [','] + mid, [','], {'.'});
    DropAppend(a + [','], mid, {'.'});
    DropAppend(a, [','], {'.'});
    var d := Drop(c, {'.'});
    assert d == Drop(a, {'.'}) + [','] + Drop(mid, {'.'}) + [','] + Drop(w, {'.'});
    p1 := |Drop(a, {'.'})|;
    p2 := p1 + 1 + |Drop(mid, {'.'})|;
  }

  /** A text that is not a decimal and whose cleaned form holds two commas is refused:
      with the points dropped, the two commas become two decimal points ("1,2,3"). */
  lemma TwoCommasRefused(v: string, i: nat, j: nat)
    requires v != []
    requires var c := KeepMoneyChars(Strip(v)); i < j < |c| && c[i] == ',' && c[j] == ','
    ensures ParseCurrencyValue(Some(v)) == Err(ValorInvalido(Strip(v)))
  {
    var t := Strip(v);
    var c := KeepMoneyChars(t);
    assert c[i] in t;
    assert ParseDecimal(t) == None;
    assert c[i] in c;
    var p1, p2 := DropPointsKeepsCommas(c, i, j);
    var b := ReplaceAll(Drop(c, {'.'}), ',', '.');
    ParseDecimalTwoPoints(b, p1, p2);
    assert ParseCleaned(c) == None;
  }

  // ---------------------------------------------------------------- formatting

  /** `format_currency_br`: the magnitude rounded half-even to cents (`:,.2f`), grouped
      with '.' and ',' swapped in, and a leading '-' for negative amounts. */
  function FormatCurrencyBr(x: real): (r: string)
    ensures |r| >= 4 && r[|r| - 3] == ','
    ensures x < 0.0 <==> r[0] == '-'
    ensures var m := if x < 0.0 then -x else x;
      var c := NatOf(KeepDigits(r)); -0.5 <= c as real - m * 100.0 <= 0.5
    ensures var m := if x < 0.0 then -x else x; NatOf(KeepDigits(r)) == RoundHalfEven(m * 100.0)
    ensures AllDigits(r[|r| - 2..]) && IsGrouped(r[(if x < 0.0 then 1 else 0)..|r| - 3])
  {
    SignedRendering(x < 0.0, RoundHalfEven((if x < 0.0 then -x else x) * 100.0))
  }

  /** On a whole number of cents the rendering is exact, whatever the rounding rule. */
  lemma FormatCurrencyBrCents(c: int)
    ensures FormatCurrencyBr(Cents(c)) == FormatSignedCents(c)
  {
    CentsMagnitude(c);
  }

  /** The cleaning step keeps a rendering's magnitude and drops its sign. */
  lemma KeepMoneyCharsOfFormat(c: int)
    ensures var m := if c < 0 then -c else c;
      KeepMoneyChars(FormatSignedCents(c)) == FormatCents(m)
  {
    var m := if c < 0 then -c else c;
    var f := FormatCents(m);
    KeepMoneyCharsOfMoney(f);
    if c < 0 {
      KeepMoneyCharsAppend("-", f);
      assert KeepMoneyChars("-") == [];
    }
  }

  /** A rendering's magnitude, cleaned, reads as its cent count. */
  lemma ParseCleanedFormat(m: nat)
    ensures ParseCleaned(FormatCents(m)) == Some(Cents(m))
  {
    var f := FormatCents(m);
    var a, t := NatToDigits(m / 100), TwoDigits(m % 100);
    assert ',' in f by { assert f[|f| - 3] == ','; }
    FormatCentsUngrouped(m);
    ReplaceCommaWithPoint(a, t);
    ParsePointText(m);
  }

  /** Reading back a rendering gives the amount for non-negative cents and its magnitude
      for negative ones: the '-' is among the characters the parser drops. */
  lemma ParseFormatRoundTrip(c: int)
    ensures ParseCurrencyValue(Some(FormatCurrencyBr(Cents(c)))) == Ok(Cents(if c < 0 then -c else c))
  {
    var m: nat := if c < 0 then -c else c;
    FormatCurrencyBrCents(c);
    ParseSignedCents(c);
  }

  lemma ParseSignedCents(c: int)
    ensures ParseCurrencyValue(Some(FormatSignedCents(c))) == Ok(Cents(if c < 0 then -c else c))
  {
    var m: nat := if c < 0 then -c else c;
    var s := FormatSignedCents(c);
    StripFormat(c);
    FormatNotDecimal(c);
    KeepMoneyCharsOfFormat(c);
    ParseCleanedFormat(m);
    ParseThroughCleaning(s, Cents(m));
  }

  /** A rendering always carries a decimal comma, so Decimal refuses it as it stands. */
  lemma FormatNotDecimal(c: int)
    ensures ParseDecimal(FormatSignedCents(c)) == None
  {
    var s := FormatSignedCents(c);
    assert s[|s| - 3] in s;
  }

  /** A trimmed text that is not already a decimal is read through the cleaning step. */
  lemma ParseThroughCleaning(s: string, v: real)
    requires s != [] && Strip(s) == s && ParseDecimal(s) == None
    requires ParseCleaned(KeepMoneyChars(s)) == Some(v)
    ensures ParseCurrencyValue(Some(s)) == Ok(v)
  {
    ParseStripped(s);
  }

  lemma StripFormat(c: int)
    ensures Strip(FormatSignedCents(c)) == FormatSignedCents(c)
  {
    assert FormatSignedCents(c) == if c < 0 then "-" + FormatCents(-c) else FormatCents(c);
    StripRendering(c < 0, FormatCents(if c < 0 then -c else c));
  }

  /** A rendering holds no white space, signed or not. */
  lemma StripRendering(negative: bool, f: string)
    requires forall i :: 0 <= i < |f| ==> IsDigit(f[i]) || f[i] == '.' || f[i] == ','
    ensures var s := if negative then "-" + f else f; Strip(s) == s
  {
    var s := if negative then "-" + f else f;
    forall i | 0 <= i < |s| ensures !IsSpace(s[i]) {
      if negative && i > 0 {
        assert s[i] == f[i - 1];
      }
    }
    StripNoSpace(s);
  }

  lemma ReplaceCommaWithPoint(a: string, t: string)
    requires AllDigits(a) && AllDigits(t)
    ensures ReplaceAll(a + "," + t, ',', '.') == a + "." + t
  {
    var s := a + "," + t;
    var r := ReplaceAll(s, ',', '.');
    assert forall i :: 0 <= i < |s| ==> r[i] == (a + "." + t)[i] by {
      forall i | 0 <= i < |s| ensures r[i] == (a + "." + t)[i] {
        if i < |a| {
          assert s[i] == a[i];
        } else if i > |a| {
          assert s[i] == t[i - |a| - 1];
        }
      }
    }
  }

  /** Bare digits are a decimal as they stand: "600" is 600.00. */
  lemma ParsePlainDigits(d: string)
    requires d != [] && AllDigits(d)
    ensures ParseCurrencyValue(Some(d)) == Ok(NatOf(d) as real)
  {
    assert forall i :: 0 <= i < |d| ==> !IsSpace(d[i]);
    StripNoSpace(d);
    ParseDecimalDigits(d);
    ParseAsDecimal(d, NatOf(d) as real);
  }

  /** A trimmed text that already is a decimal is read as that decimal. */
  lemma ParseAsDecimal(s: string, x: real)
    requires s != [] && Strip(s) == s && ParseDecimal(s) == Some(x)
    ensures ParseCurrencyValue(Some(s)) == Ok(x)
  {
    ParseStripped(s);
  }

  /** A prefix such as a currency symbol: not blank at the front, no sign in front, and no
      digit, ',' or '.' anywhere. */
  predicate IsSymbolPrefix(p: string) {
    p != [] && !IsSpace(p[0]) && p[0] != '+' && p[0] != '-'
    && forall i :: 0 <= i < |p| ==> !IsMoneyChar(p[i])
  }

  /** Digits behind a symbol prefix are read as a cent count: "R$ 600" is 6.00, not
      600.00, although "600" alone is 600.00 (`ParsePlainDigits`). */
  lemma ParsePrefixedDigits(p: string, d: string)
    requires IsSymbolPrefix(p) && d != [] && AllDigits(d)
    ensures ParseCurrencyValue(Some(p + d)) == Ok(Cents(NatOf(d)))
  {
    PrefixedTrimmed(p, d);
    PrefixedCleaned(p, d);
    ParseThroughCleaning(p + d, Cents(NatOf(d)));
  }

  lemma PrefixedTrimmed(p: string, d: string)
    requires IsSymbolPrefix(p) && d != [] && AllDigits(d)
    ensures p + d != [] && Strip(p + d) == p + d && ParseDecimal(p + d) == None
  {
    var v := p + d;
    assert v[0] == p[0] && v[|v| - 1] == d[|d| - 1];
    assert !IsMoneyChar(p[0]);
    StripTrimmed(v);
    ParseDecimalStart(v);
  }

  lemma PrefixedCleaned(p: string, d: string)
    requires IsSymbolPrefix(p) && d != [] && AllDigits(d)
    ensures KeepMoneyChars(p + d) == d && ParseCleaned(d) == Some(Cents(NatOf(d)))
  {
    KeepMoneyCharsAppend(p, d);
    KeepMoneyCharsNone(p);
    assert [] + d == d;
    DigitsAreMoney(d);
    ParseCleanedDigits(d);
  }

  lemma DigitsAreMoney(d: string)
    requires AllDigits(d)
    ensures KeepMoneyChars(d) == d
  {
    DigitsMoneyChars(d);
    KeepMoneyCharsOfMoney(d);
  }

  /** Text of bare digits is a cent count once cleaned. */
  lemma ParseCleanedDigits(d: string)
    requires d != [] && AllDigits(d)
    ensures forall i :: 0 <= i < |d| ==> IsMoneyChar(d[i])
    ensures ParseCleaned(d) == Some(Cents(NatOf(d)))
  {
    DigitsMoneyChars(d);
    assert ',' !in d && '.' !in d by {
      assert forall i :: 0 <= i < |d| ==> d[i] != ',' && d[i] != '.';
    }
  }

  lemma DigitsMoneyChars(d: string)
    requires AllDigits(d)
    ensures forall i :: 0 <= i < |d| ==> IsMoneyChar(d[i])
  {
  }

  lemma {:induction false} KeepMoneyCharsNone(s: string)
    requires forall i :: 0 <= i < |s| ==> !IsMoneyChar(s[i])
    ensures KeepMoneyChars(s) == []
  {
    if s != [] {
      KeepMoneyCharsNone(s[1..]);
    }
  }

  /** Thousands separators and a decimal comma: "1.234,56" reads as 1234.56. */
  lemma ParseBrazilianExample()
    ensures ParseCurrencyValue(Some("1.234,56")) == Ok(1234.56)
  {
    ParseFormatRoundTrip(123456);
    assert FormatCurrencyBr(Cents(123456)) == "1.234,56" by {
      FormatCurrencyBrCents(123456);
      FormatCentsExamples();
    }
  }
}

=== FILE: dates.dfy ===
/** Calendar dates as Python's `datetime.date` handles them: the proleptic Gregorian
    calendar, day ordinals (`toordinal`), `timedelta(days=n)` and `relativedelta(months=1)`
    steps, month navigation, and reading a `%Y-%m-%d` string with `strptime`. */
module Dates {
  import opened Wrappers
  import opened Text

  datatype Date = Date(year: int, month: int, day: int)

  predicate IsLeap(y: int) {
    y % 4 == 0 && (y % 100 != 0 || y % 400 == 0)
  }

  /** `calendar.monthrange(y, m)[1]`. */
  function DaysInMonth(y: int, m: int): (n: int)
    requires 1 <= m <= 12
    ensures 28 <= n <= 31
    ensures n == 29 <==> m == 2 && IsLeap(y)
  {
    if m == 2 then (if IsLeap(y) then 29 else 28)
    else if m == 4 || m == 6 || m == 9 || m == 11 then 30
    else 31
  }

  predicate Valid(d: Date) {
    1 <= d.month <= 12 && 1 <= d.day <= DaysInMonth(d.year, d.month)
  }

  /** Strict chronological order (Python's `<` on dates). */
  predicate Before(a: Date, b: Date) {
    a.year < b.year
    || (a.year == b.year && (a.month < b.month || (a.month == b.month && a.day < b.day)))
  }

  predicate AtMost(a: Date, b: Date) {
    a == b || Before(a, b)
  }

  function DaysBeforeYear(y: int): int {
    var y1 := y - 1;
    y1 * 365 + y1 / 4 - y1 / 100 + y1 / 400
  }

  function DaysBeforeMonth(y: int, m: int): (n: int)
    requires 1 <= m <= 12
    ensures n >= 0
  {
    if m == 1 then 0 else DaysBeforeMonth(y, m - 1) + DaysInMonth(y, m - 1)
  }

  /** Python's `date.toordinal()`: 1 for 0001-01-01, one more per day. */
  function Ordinal(d: Date): int
    requires Valid(d)
  {
    DaysBeforeYear(d.year) + DaysBeforeMonth(d.year, d.month) + d.day
  }

  function NextDay(d: Date): (r: Date)
    requires Valid(d)
    ensures Valid(r)
  {
    if d.day < DaysInMonth(d.year, d.month) then d.(day := d.day + 1)
    else if d.month < 12 then Date(d.year, d.month + 1, 1)
    else Date(d.year + 1, 1, 1)
  }

  function PrevDay(d: Date): (r: Date)
    requires Valid(d)
    ensures Valid(r)
  {
    if d.day > 1 then d.(day := d.day - 1)
    else if d.month > 1 then Date(d.year, d.month - 1, DaysInMonth(d.year, d.month - 1))
    else Date(d.year - 1, 12, 31)
  }

  lemma DivStep(y: int)
    ensures y / 4 - (y - 1) / 4 == (if y % 4 == 0 then 1 else 0)
    ensures y / 100 - (y - 1) / 100 == (if y % 100 == 0 then 1 else 0)
    ensures y / 400 - (y - 1) / 400 == (if y % 400 == 0 then 1 else 0)
    ensures y % 400 == 0 ==> y % 100 == 0
    ensures y % 100 == 0 ==> y % 4 == 0
  {
  }

  lemma YearLength(y: int)
    ensures DaysBeforeYear(y + 1) == DaysBeforeYear(y) + DaysBeforeMonth(y, 12) + 31
  {
    DivStep(y);
    DaysBeforeDecember(y);
  }

  lemma DaysBeforeDecember(y: int)
    ensures DaysBeforeMonth(y, 12) == if IsLeap(y) then 335 else 334
  {
    assert DaysBeforeMonth(y, 2) == 31;
    assert DaysBeforeMonth(y, 3) == 31 + DaysInMonth(y, 2);
    assert DaysBeforeMonth(y, 4) == DaysBeforeMonth(y, 3) + 31;
    assert DaysBeforeMonth(y, 5) == DaysBeforeMonth(y, 3) + 61;
    assert DaysBeforeMonth(y, 6) == DaysBeforeMonth(y, 3) + 92;
    assert DaysBeforeMonth(y, 7) == DaysBeforeMonth(y, 3) + 122;
    assert DaysBeforeMonth(y, 8) == DaysBeforeMonth(y, 3) + 153;
    assert DaysBeforeMonth(y, 9) == DaysBeforeMonth(y, 3) + 184;
    assert DaysBeforeMonth(y, 10) == DaysBeforeMonth(y, 3) + 214;
    assert DaysBeforeMonth(y, 11) == DaysBeforeMonth(y, 3) + 245;
    assert DaysBeforeMonth(y, 12) == DaysBeforeMonth(y, 3) + 275;
  }

  /** The day after `d` is one ordinal later. */
  lemma NextDayOrdinal(d: Date)
    requires Valid(d)
    ensures Ordinal(NextDay(d)) == Ordinal(d) + 1
  {
    if d.day == DaysInMonth(d.year, d.month) && d.month == 12 {
      YearLength(d.year);
    }
  }

  lemma {:induction false} MonthsIncrease(y: int, m1: int, m2: int)
    requires 1 <= m1 < m2 <= 12
    ensures DaysBeforeMonth(y, m1) + DaysInMonth(y, m1) <= DaysBeforeMonth(y, m2)
    decreases m2
  {
    if m1 < m2 - 1 {
      MonthsIncrease(y, m1, m2 - 1);
    }
  }

  /** Every date of year `y` has an ordinal in (DaysBeforeYear(y), DaysBeforeYear(y + 1)]. */
  lemma OrdinalInYear(d: Date)
    requires Valid(d)
    ensures DaysBeforeYear(d.year) < Ordinal(d) <= DaysBeforeYear(d.year + 1)
  {
    YearLength(d.year);
    if d.month < 12 {
      MonthsIncrease(d.year, d.month, 12);
    }
  }

  lemma {:induction false} YearsIncrease(y1: int, y2: int)
    requires y1 <= y2
    ensures DaysBeforeYear(y1) <= DaysBeforeYear(y2)
    decreases y2 - y1
  {
    if y1 < y2 {
      YearLength(y1);
      DaysBeforeDecember(y1);
      YearsIncrease(y1 + 1, y2);
    }
  }

  /** Chronological order is ordinal order. */
  lemma BeforeOrdinal(a: Date, b: Date)
    requires Valid(a) && Valid(b)
    ensures Before(a, b) <==> Ordinal(a) < Ordinal(b)
    ensures a == b <==> Ordinal(a) == Ordinal(b)
  {
    if Before(a, b) {
      BeforeIncreases(a, b);
    } else if Before(b, a) {
      BeforeIncreases(b, a);
    }
  }

  lemma BeforeIncreases(a: Date, b: Date)
    requires Valid(a) && Valid(b) && Before(a, b)
    ensures Ordinal(a) < Ordinal(b)
  {
    if a.year < b.year {
      OrdinalInYear(a);
      OrdinalInYear(b);
      YearsIncrease(a.year + 1, b.year);
    } else if a.month < b.month {
      MonthsIncrease(a.year, a.month, b.month);
    }
  }


  lemma NextPrevDay(d: Date)
    requires Valid(d)
    ensures NextDay(PrevDay(d)) == d
  {
  }

  /** `d + timedelta(days=n)` (equivalently `relativedelta(days=n)`), for any sign of `n`. */
  function AddDays(d: Date, n: int): (r: Date)
    requires Valid(d)
    ensures Valid(r)
    decreases if n < 0 then -n else n
  {
    if n == 0 then d
    else if n > 0 then AddDays(NextDay(d), n - 1)
    else AddDays(PrevDay(d), n + 1)
  }

  /** Adding `n` days moves the ordinal by exactly `n`. */
  lemma AddDaysOrdinal(d: Date, n: int)
    requires Valid(d)
    ensures Ordinal(AddDays(d, n)) == Ordinal(d) + n
  {
    if n >= 0 {
      AddDaysForward(d, n);
    } else {
      AddDaysBackward(d, -n);
    }
  }

  lemma {:induction false} AddDaysForward(d: Date, n: nat)
    requires Valid(d)
    ensures Ordinal(AddDays(d, n)) == Ordinal(d) + n
    decreases n
  {
    if n > 0 {
      NextDayOrdinal(d);
      AddDaysForward(NextDay(d), n - 1);
    }
  }

  lemma {:induction false} AddDaysBackward(d: Date, n: nat)
    requires Valid(d)
    ensures Ordinal(AddDays(d, -(n as int))) == Ordinal(d) - n
    decreases n
  {
    if n > 0 {
      var p := PrevDay(d);
      NextPrevDay(d);
      NextDayOrdinal(p);
      assert Ordinal(p) == Ordinal(d) - 1;
      AddDaysBackward(p, n - 1);
      assert AddDays(d, -(n as int)) == AddDays(p, -(n as int) + 1);
    }
  }


  /** `d + relativedelta(months=1)`: same day in the next month, clipped to that month's length. */
  function AddOneMonth(d: Date): (r: Date)
    requires Valid(d)
    ensures Valid(r)
    ensures r.day == if d.day <= DaysInMonth(r.year, r.month) then d.day else DaysInMonth(r.year, r.month)
    ensures (r.year, r.month) == NextMonth(d.year, d.month)
  {
    var (y, m) := NextMonth(d.year, d.month);
    Date(y, m, if d.day <= DaysInMonth(y, m) then d.day else DaysInMonth(y, m))
  }

  /** The month after (`year`, `month`). */
  function NextMonth(year: int, month: int): (r: (int, int))
    requires 1 <= month <= 12
    ensures 1 <= r.1 <= 12
  {
    if month == 12 then (year + 1, 1) else (year, month + 1)
  }

  /** The month before (`year`, `month`): December of the previous year for January. */
  function PrevMonth(year: int, month: int): (r: (int, int))
    requires 1 <= month <= 12
    ensures 1 <= r.1 <= 12
    ensures NextMonth(r.0, r.1) == (year, month)
  {
    if month == 1 then (year - 1, 12) else (year, month - 1)
  }

  lemma PrevOfNextMonth(year: int, month: int)
    requires 1 <= month <= 12
    ensures PrevMonth(NextMonth(year, month).0, NextMonth(year, month).1) == (year, month)
  {
  }

  function FirstOfMonth(year: int, month: int): (d: Date)
    requires 1 <= month <= 12
    ensures Valid(d)
  {
    Date(year, month, 1)
  }

  function LastOfMonth(year: int, month: int): (d: Date)
    requires 1 <= month <= 12
    ensures Valid(d)
  {
    Date(year, month, DaysInMonth(year, month))
  }

  predicate InMonth(d: Date, year: int, month: int) {
    d.year == year && d.month == month
  }

  /** A date falls before the first day of the next month exactly when it falls before
      the first day of this month or inside this month. */
  lemma BeforeNextMonth(d: Date, year: int, month: int)
    requires Valid(d) && 1 <= month <= 12
    ensures var (ny, nm) := NextMonth(year, month);
      Before(d, FirstOfMonth(ny, nm)) <==> Before(d, FirstOfMonth(year, month)) || InMonth(d, year, month)
  {
  }

  /** The first day of the following month, reached from the last day of this one. */
  lemma LastDayThenNext(year: int, month: int)
    requires 1 <= month <= 12
    ensures var (ny, nm) := NextMonth(year, month);
      NextDay(LastOfMonth(year, month)) == FirstOfMonth(ny, nm)
  {
  }

  // ---------------------------------------------------------------- strptime

  predicate IsMonthText(s: string) {
    (|s| == 1 && '1' <= s[0] <= '9')
    || (|s| == 2 && s[0] == '0' && '1' <= s[1] <= '9')
    || (|s| == 2 && s[0] == '1' && '0' <= s[1] <= '2')
  }

  predicate IsDayText(s: string) {
    (|s| == 1 && '1' <= s[0] <= '9')
    || (|s| == 2 && s[0] == '3' && (s[1] == '0' || s[1] == '1'))
    || (|s| == 2 && (s[0] == '1' || s[0] == '2') && IsDigit(s[1]))
    || (|s| == 2 && s[0] == '0' && '1' <= s[1] <= '9')
    || (|s| == 2 && s[0] == ' ' && '1' <= s[1] <= '9')
  }

  /** The number a month or day field denotes (the blank in " 5" is a pad). */
  function FieldValue(s: string): nat
    requires IsMonthText(s) || IsDayText(s)
  {
    if |s| == 2 && s[0] == ' ' then DigitValue(s[1]) else NatOf(s)
  }

  /** `datetime.strptime(s, '%Y-%m-%d').date()`: four year digits, a one- or two-digit
      month, a one- or two-digit day (optionally blank-padded), and nothing else; `None`
      where Python raises ValueError, including for day numbers the month does not have. */
  function ParseIsoDate(s: string): (r: Option<Date>)
    ensures r.Some? ==> Valid(r.value) && 1 <= r.value.year <= 9999
  {
    if |s| < 8 || !AllDigits(s[..4]) || s[4] != '-' then None
    else
      var rest := s[5..];
      var m := SplitFirst(rest, '-');
      if |m| == |rest| then None
      else
        var dd := rest[|m| + 1..];
        if !IsMonthText(m) || !IsDayText(dd) then None
        else
          var y, mo, da := NatOf(s[..4]), FieldValue(m), FieldValue(dd);
          FieldValueRange(m);
          FieldValueRange(dd);
          if y == 0 || da > DaysInMonth(y, mo) then None
          else
            assert NatOf(s[..4]) < 10000 by { NatOfBound(s[..4]); }
            Some(Date(y, mo, da))
  }

  lemma FieldValueRange(s: string)
    requires IsMonthText(s) || IsDayText(s)
    ensures IsMonthText(s) ==> 1 <= FieldValue(s) <= 12
    ensures IsDayText(s) ==> 1 <= FieldValue(s) <= 31
  {
    if |s| == 1 {
      assert s[..0] == [];
    } else if s[0] != ' ' {
      assert s[..1][..0] == [];
      assert NatOf(s[..1]) == DigitValue(s[0]);
      assert NatOf(s) == DigitValue(s[0]) * 10 + DigitValue(s[1]);
    }
  }

  lemma {:induction false} NatOfBound(s: string)
    requires AllDigits(s)
    ensures NatOf(s) < Pow10(|s|)
  {
    if s != [] {
      NatOfBound(s[..|s| - 1]);
    }
  }

  /** `d.isoformat()` for years 1..9999: zero-padded `YYYY-MM-DD`. */
  function IsoFormat(d: Date): string
    requires Valid(d) && 1 <= d.year <= 9999
  {
    PadDigits(d.year, 4) + "-" + PadDigits(d.month, 2) + "-" + PadDigits(d.day, 2)
  }

  /** Reading back an ISO-formatted date gives the date. */
  lemma ParseIsoFormat(d: Date)
    requires Valid(d) && 1 <= d.year <= 9999
    ensures ParseIsoDate(IsoFormat(d)) == Some(d)
  {
    var ys, ms, ds := PadDigits(d.year, 4), PadDigits(d.month, 2), PadDigits(d.day, 2);
    IsoPieces(d);
    PaddedField(d.month);
    PaddedField(d.day);
  }

  /** Where the fields of an ISO rendering sit. */
  lemma IsoPieces(d: Date)
    requires Valid(d) && 1 <= d.year <= 9999
    ensures var s, ms, ds := IsoFormat(d), PadDigits(d.month, 2), PadDigits(d.day, 2);
      |s| == 10 && s[..4] == PadDigits(d.year, 4) && s[4] == '-'
      && SplitFirst(s[5..], '-') == ms && s[5..][|ms| + 1..] == ds
  {
    var ys, ms, ds := PadDigits(d.year, 4), PadDigits(d.month, 2), PadDigits(d.day, 2);
    var s := IsoFormat(d);
    assert s[..4] == ys;
    var rest := s[5..];
    assert rest == ms + ("-" + ds);
    SplitFirstAt(ms, "-" + ds, '-');
  }

  /** A two-digit day or month reads back as itself. */
  lemma PaddedField(n: nat)
    requires 1 <= n <= 31
    ensures var t := PadDigits(n, 2);
      IsDayText(t) && (n <= 12 ==> IsMonthText(t)) && FieldValue(t) == n
  {
    var t := PadDigits(n, 2);
    assert t[..1][..0] == [];
    assert NatOf(t[..1]) == DigitValue(t[0]);
    assert NatOf(t) == DigitValue(t[0]) * 10 + DigitValue(t[1]);
  }
}

=== FILE: installments.dfy ===
/** Installment plans (`DespesaParcelada`): the per-installment value, the schedule
    `gerar_parcelas` lays out, the paid and pending totals, paying and reopening a planned
    installment, and the view that records a full or partial payment of an installment
    transaction. */
module Installments {
  import opened Wrappers
  import opened Text
  import opened Dates
  import opened Constants
  import opened Ledger
  import CurrencyUtils
  import Money

  /** `intervalo_tipo`; any other stored text is `OutroIntervalo`, which moves no date. */
  datatype Intervalo = Mensal | Quinzenal | Semanal | Personalizado | OutroIntervalo

  datatype Plano = Plano(
    id: nat,
    descricao: string,
    valorTotal: real,
    numeroParcelas: int,
    primeira: Date,
    diaVencimento: int,
    intervalo: Intervalo,
    intervaloDias: Option<int>,
    conta: nat,
    categoria: nat,
    responsavel: Option<string>,
    geradas: bool)

  /** A `ParcelaPlanejada`; `transacao` is the id of the payment transaction, if paid. */
  datatype Planejada = Planejada(
    numero: int,
    vencimento: Date,
    valor: real,
    pago: bool,
    dataPagamento: Option<Date>,
    transacao: Option<nat>)

  /** `valor_parcela`: the total divided by the count, exactly; a count of zero is a
      division by zero. The stored two-place value is not modelled. */
  function ValorParcela(p: Plano): (r: Option<real>)
    ensures r.None? <==> p.numeroParcelas == 0
    ensures r.Some? ==> r.value * p.numeroParcelas as real == p.valorTotal
  {
    if p.numeroParcelas == 0 then None else Some(p.valorTotal / p.numeroParcelas as real)
  }

  /** How many installments `range(1, n + 1)` produces. */
  function Quantidade(p: Plano): nat {
    if p.numeroParcelas > 0 then p.numeroParcelas else 0
  }

  // ---------------------------------------------------------------- due dates

  /** `date.replace(day=min(dia_vencimento, 28))` when the due day is above 1. */
  function Adjust(p: Plano, d: Date): (r: Date)
    requires Valid(d)
    ensures Valid(r)
    ensures p.diaVencimento > 1 ==> r == Date(d.year, d.month, if p.diaVencimento < 28 then p.diaVencimento else 28)
    ensures p.diaVencimento <= 1 ==> r == d
  {
    if p.diaVencimento > 1 then d.(day := if p.diaVencimento < 28 then p.diaVencimento else 28) else d
  }

  lemma AdjustIdempotent(p: Plano, d: Date)
    requires Valid(d)
    ensures Adjust(p, Adjust(p, d)) == Adjust(p, d)
  {
  }

  /** The day count of a day-based interval, or 0 when the interval moves no date
      (`personalizado` with no or zero `intervalo_dias`, or an unknown interval). */
  function StepDays(p: Plano): int {
    match p.intervalo
    case Quinzenal => 15
    case Semanal => 7
    case Personalizado => if p.intervaloDias.Some? then p.intervaloDias.value else 0
    case _ => 0
  }

  /** The move from one due date to the next: a month, or `StepDays` days. */
  function Step(p: Plano, d: Date): (r: Date)
    requires Valid(d)
    ensures Valid(r)
    ensures p.intervalo.Mensal? ==> r == AddOneMonth(d)
    ensures !p.intervalo.Mensal? ==> r == AddDays(d, StepDays(p))
  {
    match p.intervalo
    case Mensal => AddOneMonth(d)
    case _ => AddDays(d, StepDays(p))
  }

  /** The due date of installment k + 1: the adjusted first date, then step and adjust. */
  function DueDate(p: Plano, k: nat): (r: Date)
    requires Valid(p.primeira)
    ensures Valid(r)
  {
    if k == 0 then Adjust(p, p.primeira) else Adjust(p, Step(p, DueDate(p, k - 1)))
  }

  /** A day-based interval without a due day: installment k + 1 falls k steps of
      `StepDays` after the first. */
  lemma {:induction false} DueDateDays(p: Plano, k: nat)
    requires Valid(p.primeira) && p.diaVencimento <= 1 && !p.intervalo.Mensal?
    ensures Ordinal(DueDate(p, k)) == Ordinal(p.primeira) + k * StepDays(p)
  {
    if k > 0 {
      var prev := DueDate(p, k - 1);
      DueDateDays(p, k - 1);
      assert DueDate(p, k) == AddDays(prev, StepDays(p));
      AddDaysOrdinal(prev, StepDays(p));
      assert k * StepDays(p) == (k - 1) * StepDays(p) + StepDays(p);
    }
  }

  /** With a positive day count the due dates strictly increase. */
  lemma DueDatesIncrease(p: Plano, k: nat)
    requires Valid(p.primeira) && p.diaVencimento <= 1 && !p.intervalo.Mensal? && StepDays(p) > 0
    ensures Before(DueDate(p, k), DueDate(p, k + 1))
  {
    DueDateDays(p, k);
    DueDateDays(p, k + 1);
    assert (k + 1) * StepDays(p) == k * StepDays(p) + StepDays(p);
    BeforeOrdinal(DueDate(p, k), DueDate(p, k + 1));
  }

  /** An interval that moves no date repeats the first due date. */
  lemma {:induction false} DueDateRepeats(p: Plano, k: nat)
    requires Valid(p.primeira) && !p.intervalo.Mensal? && StepDays(p) == 0
    ensures DueDate(p, k) == DueDate(p, 0)
  {
    if k > 0 {
      DueDateRepeats(p, k - 1);
      AdjustIdempotent(p, p.primeira);
    }
  }

  /** The month `k` months after (`year`, `month`). */
  function MonthsAfter(year: int, month: int, k: nat): (r: (int, int))
    requires 1 <= month <= 12
    ensures 1 <= r.1 <= 12
  {
    if k == 0 then (year, month) else
      var (y, m) := MonthsAfter(year, month, k - 1);
      NextMonth(y, m)
  }

  /** Monthly with a due day: installment k + 1 is due on that day (at most the 28th) of
      the k-th month after the first. */
  lemma {:induction false} DueDateMonthly(p: Plano, k: nat)
    requires Valid(p.primeira) && p.diaVencimento > 1 && p.intervalo.Mensal?
    ensures var (y, m) := MonthsAfter(p.primeira.year, p.primeira.month, k);
      DueDate(p, k) == Date(y, m, if p.diaVencimento < 28 then p.diaVencimento else 28)
  {
    if k > 0 {
      DueDateMonthly(p, k - 1);
    }
  }

  /** Monthly without a due day, each date is a month after the previous one, so a first
      date on the 31st falls back to the 28th after February and stays there. */
  lemma MonthlyDrift(p: Plano)
    requires p.primeira == Date(2025, 1, 31) && p.diaVencimento <= 1 && p.intervalo.Mensal?
    ensures DueDate(p, 1) == Date(2025, 2, 28)
    ensures DueDate(p, 2) == Date(2025, 3, 28)
  {
    assert DaysInMonth(2025, 2) == 28;
    assert DueDate(p, 1) == Date(2025, 2, 28);
  }

  // ---------------------------------------------------------------- gerar_parcelas

  datatype GerarError = DivisaoPorZero

  datatype Geracao = Geracao(plano: Plano, parcelas: seq<Planejada>)

  /** The installment `gerar_parcelas` creates as number k + 1. */
  function Planned(p: Plano, k: nat): Planejada
    requires Valid(p.primeira) && p.numeroParcelas != 0
  {
    Planejada(k + 1, DueDate(p, k), p.valorTotal / p.numeroParcelas as real, false, None, None)
  }

  /** `DespesaParcelada.gerar_parcelas`: nothing when the plan was already generated;
      otherwise one unpaid installment per number 1..n, each worth total / n and due on
      the schedule's dates, and the plan is flagged as generated. */
  method GerarParcelas(p: Plano) returns (r: Result<Geracao, GerarError>)
    requires Valid(p.primeira)
    ensures p.geradas ==> r == Ok(Geracao(p, []))
    ensures !p.geradas ==> (r.Err? <==> p.numeroParcelas == 0)
    ensures r.Ok? && !p.geradas ==> r.value.plano == p.(geradas := true)
    ensures r.Ok? && !p.geradas ==> |r.value.parcelas| == Quantidade(p)
    ensures r.Ok? && !p.geradas ==> forall k :: 0 <= k < |r.value.parcelas| ==> r.value.parcelas[k] == Planned(p, k)
  {
    if p.geradas {
      return Ok(Geracao(p, []));
    }
    if p.numeroParcelas == 0 {
      return Err(DivisaoPorZero);
    }
    var valor := p.valorTotal / p.numeroParcelas as real;
    var data := p.primeira;
    var parcelas: seq<Planejada> := [];
    var i := 1;
    while i <= p.numeroParcelas
      invariant 1 <= i <= Quantidade(p) + 1
      invariant |parcelas| == i - 1
      invariant forall k :: 0 <= k < |parcelas| ==> parcelas[k] == Planned(p, k)
      invariant Valid(data)
      invariant i <= p.numeroParcelas ==> Adjust(p, data) == DueDate(p, i - 1)
    {
      if p.diaVencimento > 1 {
        data := data.(day := if p.diaVencimento < 28 then p.diaVencimento else 28);
      }
      parcelas := parcelas + [Planejada(i, data, valor, false, None, None)];
      if i < p.numeroParcelas {
        data := Step(p, data);
      }
      i := i + 1;
    }
    return Ok(Geracao(p.(geradas := true), parcelas));
  }

  // ---------------------------------------------------------------- paid and pending

  /** The sum of the installments' values whose paid flag is `pago`. */
  function SomaParcelas(ps: seq<Planejada>, pago: bool): (r: real)
    ensures (forall k :: 0 <= k < |ps| ==> ps[k].pago != pago) ==> r == 0.0
    ensures (forall k :: 0 <= k < |ps| ==> ps[k].pago == pago) ==> r == Total(ps)
  {
    if ps == [] then 0.0
    else
      assert forall k :: 1 <= k < |ps| ==> ps[1..][k - 1] == ps[k];
      (if ps[0].pago == pago then ps[0].valor else 0.0) + SomaParcelas(ps[1..], pago)
  }

  /** `valor_total` read as the sum of the installments: never negative when no
      installment is. */
  function Total(ps: seq<Planejada>): (r: real)
    ensures (forall k :: 0 <= k < |ps| ==> ps[k].valor >= 0.0) ==> r >= 0.0
  {
    if ps == [] then 0.0
    else
      assert forall k :: 1 <= k < |ps| ==> ps[1..][k - 1] == ps[k];
      ps[0].valor + Total(ps[1..])
  }

  /** `get_valor_pago`: nothing while no installment is paid, everything once all are. */
  function ValorPago(ps: seq<Planejada>): (r: real)
    ensures (forall k :: 0 <= k < |ps| ==> !ps[k].pago) ==> r == 0.0
    ensures (forall k :: 0 <= k < |ps| ==> ps[k].pago) ==> r == Total(ps)
  {
    SomaParcelas(ps, true)
  }

  /** `get_valor_pendente`: everything while no installment is paid, nothing once all are. */
  function ValorPendente(ps: seq<Planejada>): (r: real)
    ensures (forall k :: 0 <= k < |ps| ==> !ps[k].pago) ==> r == Total(ps)
    ensures (forall k :: 0 <= k < |ps| ==> ps[k].pago) ==> r == 0.0
  {
    SomaParcelas(ps, false)
  }

  /** Paid and pending together are every installment. */
  lemma {:induction false} PagoMaisPendente(ps: seq<Planejada>)
    ensures ValorPago(ps) + ValorPendente(ps) == Total(ps)
  {
    if ps != [] {
      PagoMaisPendente(ps[1..]);
    }
  }

  lemma {:induction false} TotalOfEqual(ps: seq<Planejada>, v: real)
    requires forall k :: 0 <= k < |ps| ==> ps[k].valor == v
    ensures Total(ps) == |ps| as real * v
  {
    if ps != [] {
      TotalOfEqual(ps[1..], v);
    }
  }

  /** Freshly generated installments are all pending and add up to the plan's total. */
  lemma GeneratedAddUp(p: Plano, ps: seq<Planejada>)
    requires Valid(p.primeira) && p.numeroParcelas > 0
    requires |ps| == p.numeroParcelas && forall k :: 0 <= k < |ps| ==> ps[k] == Planned(p, k)
    ensures Total(ps) == p.valorTotal
    ensures ValorPago(ps) == 0.0 && ValorPendente(ps) == p.valorTotal
  {
    var v := p.valorTotal / p.numeroParcelas as real;
    TotalOfEqual(ps, v);
    assert |ps| as real * v == p.valorTotal;
    assert forall k :: 0 <= k < |ps| ==> !ps[k].pago;
    assert ValorPago(ps) == 0.0;
    PagoMaisPendente(ps);
  }

  /** Stored to the cent, n installments of total / n miss the total by at most n half
      cents: each quotient is rounded half-even to two places on its own. */
  lemma QuantisedTotalBound(t: real, n: nat)
    requires n > 0
    ensures var c := Money.RoundHalfEven(t / n as real * 100.0);
      -(n as real) * 0.5 <= (n as real) * (c as real) - t * 100.0 <= (n as real) * 0.5
  {
    var x := t / n as real * 100.0;
    var c := Money.RoundHalfEven(x);
    var m := n as real;
    assert m * x == t * 100.0;
    var e := c as real - x;
    assert -0.5 <= e <= 0.5;
    assert m * (c as real) - t * 100.0 == m * e;
    ScaleBound(m, e);
    assert -m * 0.5 <= m * (c as real) - t * 100.0 <= m * 0.5;
  }

  lemma ScaleBound(m: real, e: real)
    requires m >= 0.0 && -0.5 <= e <= 0.5
    ensures -m * 0.5 <= m * e <= m * 0.5
  {
    assert m * (e + 0.5) >= 0.0;
    assert m * (0.5 - e) >= 0.0;
  }

  /** The bound is reached: 100.00 in 3 installments is stored as 33.33 three times,
      99.99 in all. */
  lemma QuantisedThirdsLoseCent()
    ensures Money.RoundHalfEven(100.0 / 3.0 * 100.0) == 3333
    ensures 3 * Money.RoundHalfEven(100.0 / 3.0 * 100.0) == 9999
  {
    var c := Money.RoundHalfEven(100.0 / 3.0 * 100.0);
    assert 100.0 / 3.0 * 100.0 == 10000.0 / 3.0;
    assert -0.5 <= c as real - 10000.0 / 3.0 <= 0.5;
  }

  // ---------------------------------------------------------------- ParcelaPlanejada payment

  /** Decimal text of an integer. */
  function IntText(i: int): string {
    if i < 0 then "-" + NatToDigits(-i) else NatToDigits(i)
  }

  /** `ParcelaPlanejada.descricao`: the plan's description and "Parcela k/n". */
  function DescricaoParcela(p: Plano, x: Planejada): string {
    p.descricao + " - Parcela " + IntText(x.numero) + "/" + IntText(p.numeroParcelas)
  }

  /** `ParcelaPlanejada.marcar_como_pago`: a paid "despesa" transaction of the amount paid
      (the installment's value when none is given) is recorded in the plan's account, and
      the installment is paid on that date and linked to it. */
  function PagarPlanejada(p: Plano, x: Planejada, data: Date, valorPago: Option<real>, novoId: nat): (r: (Planejada, Transacao))
    ensures r.0 == x.(pago := true, dataPagamento := Some(data), transacao := Some(novoId))
    ensures r.1.id == novoId && r.1.tipo == Despesa && r.1.conta == p.conta && r.1.pago
    ensures r.1.valor == valorPago.GetOr(x.valor) && r.1.data == data
    ensures r.1.despesaParcelada.None? && !r.1.ehParcelada
  {
    var t := Transacao(novoId, p.conta, data, "Pagamento: " + DescricaoParcela(p, x), valorPago.GetOr(x.valor), Despesa,
                       p.categoria, p.responsavel, None, false, None, None, None, true, Some(data));
    (x.(pago := true, dataPagamento := Some(data), transacao := Some(novoId)), t)
  }

  /** The rows without the one whose id is `id` (`transacao.delete()`). */
  function SemId(ts: seq<Transacao>, id: nat): (r: seq<Transacao>)
    ensures forall t :: t in r <==> t in ts && t.id != id
  {
    if ts == [] then [] else (if ts[0].id == id then [] else [ts[0]]) + SemId(ts[1..], id)
  }

  /** `ParcelaPlanejada.marcar_como_nao_pago`: the linked payment transaction is deleted and
      the installment is pending again. */
  function ReabrirPlanejada(x: Planejada, ts: seq<Transacao>): (r: (Planejada, seq<Transacao>))
    ensures r.0 == x.(pago := false, dataPagamento := None, transacao := None)
    ensures x.transacao.None? ==> r.1 == ts
    ensures x.transacao.Some? ==> forall t :: t in r.1 <==> t in ts && t.id != x.transacao.value
  {
    (x.(pago := false, dataPagamento := None, transacao := None),
     if x.transacao.Some? then SemId(ts, x.transacao.value) else ts)
  }

  lemma {:induction false} SemIdFresh(ts: seq<Transacao>, id: nat)
    requires forall i :: 0 <= i < |ts| ==> ts[i].id != id
    ensures SemId(ts, id) == ts
  {
    if ts != [] {
      SemIdFresh(ts[1..], id);
      assert ts == [ts[0]] + ts[1..];
    }
  }

  lemma {:induction false} SemIdAppend(a: seq<Transacao>, b: seq<Transacao>, id: nat)
    ensures SemId(a + b, id) == SemId(a, id) + SemId(b, id)
  {
    if a == [] {
      assert a + b == b;
    } else {
      assert (a + b)[0] == a[0] && (a + b)[1..] == a[1..] + b;
      SemIdAppend(a[1..], b, id);
    }
  }

  /** Paying a pending installment lowers its account's balance by the amount paid, and
      reopening it restores both the installment and the transactions. */
  lemma PagarThenReabrir(p: Plano, x: Planejada, ts: seq<Transacao>, data: Date, valorPago: Option<real>, novoId: nat)
    requires !x.pago && x.dataPagamento.None? && x.transacao.None?
    requires forall i :: 0 <= i < |ts| ==> ts[i].id != novoId
    ensures var (y, t) := PagarPlanejada(p, x, data, valorPago, novoId);
      AtualizarSaldo(ts + [t], p.conta) == AtualizarSaldo(ts, p.conta) - valorPago.GetOr(x.valor)
      && ReabrirPlanejada(y, ts + [t]) == (x, ts)
  {
    var (y, t) := PagarPlanejada(p, x, data, valorPago, novoId);
    TypesDistinct();
    SaldoAfterAppend(ts, p.conta, t);
    SemIdAppend(ts, [t], novoId);
    SemIdFresh(ts, novoId);
    assert [t][1..] == [];
    assert SemId([t], novoId) == [];
    assert ts + [] == ts;
  }

  // ---------------------------------------------------------------- processar_pagamento_parcela

  /** Why the payment view sends the user back without changing anything. */
  datatype PagamentoError = CamposObrigatorios | FormatoInvalido | DataNoFuturo | MesFechado
    | ValorNaoPositivo | ValorAcimaDaParcela

  /** The rows the view writes: the installment row as updated, the payment transaction,
      and for a partial payment the unpaid remainder. */
  datatype Pagamento = Pagamento(parcela: Transacao, pagamento: Transacao, restante: Option<Transacao>)

  /** The value the view reads: `parse_currency_value`, whose ValueError the view reports
      as a bad format. */
  function ValorLido(s: string): Option<real> {
    match CurrencyUtils.ParseCurrencyValue(Some(s))
    case Ok(v) => Some(v)
    case Err(_) => None
  }

  /** `processar_pagamento_parcela` on an installment transaction `t`: both fields are
      required, the date must parse, not lie after today and not fall in a closed month
      (`fechados` holds the closed (year, month) pairs of the account), and the amount must
      parse, be positive and not exceed the installment. A full payment marks `t` paid; a
      partial one lowers `t` to the amount paid and adds an unpaid remainder with the
      same installment number. Either way a paid "despesa" of the amount is recorded. */
  function ProcessarPagamento(t: Transacao, dataTexto: Option<string>, valorTexto: Option<string>,
                              hoje: Date, fechados: set<(int, int)>, idPagamento: nat, idRestante: nat)
    : (r: Result<Pagamento, PagamentoError>)
    ensures !Given(dataTexto) || !Given(valorTexto) ==> r == Err(CamposObrigatorios)
    ensures Given(dataTexto) && Given(valorTexto) ==>
      var d, v := ParseIsoDate(dataTexto.value), ValorLido(valorTexto.value);
      (r.Ok? <==> d.Some? && AtMost(d.value, hoje) && (d.value.year, d.value.month) !in fechados
                  && v.Some? && 0.0 < v.value <= t.valor)
    ensures Given(dataTexto) && Given(valorTexto) && ParseIsoDate(dataTexto.value).None? ==> r == Err(FormatoInvalido)
    ensures Given(dataTexto) && Given(valorTexto) ==>
      var d := ParseIsoDate(dataTexto.value);
      d.Some? && Before(hoje, d.value) ==> r == Err(DataNoFuturo)
    ensures Given(dataTexto) && Given(valorTexto) ==>
      var d := ParseIsoDate(dataTexto.value);
      d.Some? && AtMost(d.value, hoje) && (d.value.year, d.value.month) in fechados ==> r == Err(MesFechado)
    ensures Given(dataTexto) && Given(valorTexto) ==>
      var d, v := ParseIsoDate(dataTexto.value), ValorLido(valorTexto.value);
      d.Some? && AtMost(d.value, hoje) && (d.value.year, d.value.month) !in fechados ==>
        (v.None? ==> r == Err(FormatoInvalido))
        && (v.Some? && v.value <= 0.0 ==> r == Err(ValorNaoPositivo))
        && (v.Some? && v.value > 0.0 && v.value > t.valor ==> r == Err(ValorAcimaDaParcela))
    ensures r.Ok? ==> var d := ParseIsoDate(dataTexto.value);
      d.Some? && AtMost(d.value, hoje) && (d.value.year, d.value.month) !in fechados
      && r.value.parcela.dataPagamento == d
    ensures r.Ok? ==> var v := ValorLido(valorTexto.value);
      v.Some? && 0.0 < v.value <= t.valor && r.value.pagamento.valor == v.value
      && r.value.parcela.valor == v.value
    ensures r.Ok? ==> r.value.parcela.pago && r.value.pagamento.pago && r.value.pagamento.tipo == Despesa
    ensures r.Ok? ==> r.value.pagamento.conta == t.conta
    ensures r.Ok? ==> r.value.parcela.(valor := t.valor, pago := t.pago, dataPagamento := t.dataPagamento) == t
    ensures r.Ok? ==> (r.value.restante.None? <==> ValorLido(valorTexto.value).value == t.valor)
    ensures r.Ok? && r.value.restante.Some? ==>
      r.value.parcela.valor + r.value.restante.value.valor == t.valor
      && r.value.restante.value.numeroParcela == t.numeroParcela
      && r.value.restante.value.despesaParcelada == t.despesaParcelada
      && !r.value.restante.value.pago && r.value.restante.value.tipo == t.tipo
      && r.value.restante.value.conta == t.conta
  {
    if !Given(dataTexto) || !Given(valorTexto) then Err(CamposObrigatorios)
    else match ParseIsoDate(dataTexto.value)
      case None => Err(FormatoInvalido)
      case Some(d) =>
        if Before(hoje, d) then Err(DataNoFuturo)
        else if (d.year, d.month) in fechados then Err(MesFechado)
        else match ValorLido(valorTexto.value)
          case None => Err(FormatoInvalido)
          case Some(v) =>
            if v <= 0.0 then Err(ValorNaoPositivo)
            else if v > t.valor then Err(ValorAcimaDaParcela)
            else
              var paga := t.(valor := v, pago := true, dataPagamento := Some(d));
              var pagamento := Transacao(idPagamento, t.conta, d,
                (if v == t.valor then "Pagamento: " else "Pagamento parcial: ") + t.descricao,
                v, Despesa, t.categoria, None, None, false, None, None, None, true, Some(d));
              if v == t.valor then Ok(Pagamento(paga, pagamento, None))
              else
                var restante := Transacao(idRestante, t.conta, t.data, t.descricao + " (Saldo restante)",
                  t.valor - v, t.tipo, t.categoria, None, t.despesaParcelada, true,
                  Some(if t.pai.Some? then t.pai.value else t.id),
                  t.numeroParcela, t.totalParcelas, false, None);
                Ok(Pagamento(paga, pagamento, Some(restante)))
  }

  /** The rows after the view: `t` (at index i) updated, the payment appended, then the
      remainder if any. */
  function Aplicar(ts: seq<Transacao>, i: nat, p: Pagamento): (r: seq<Transacao>)
    requires i < |ts|
    ensures |r| == |ts| + (if p.restante.Some? then 2 else 1)
  {
    ts[i := p.parcela] + [p.pagamento] + (if p.restante.Some? then [p.restante.value] else [])
  }

  /** Full or partial, a payment of `v` on an account's "despesa" installment lowers the
      account's balance by exactly `v`: the installment and its remainder still add up to
      the original value. */
  lemma PaymentMovesSaldoByAmount(ts: seq<Transacao>, i: nat, dataTexto: Option<string>, valorTexto: Option<string>,
                                  hoje: Date, fechados: set<(int, int)>, idPagamento: nat, idRestante: nat)
    requires i < |ts| && ts[i].tipo == Despesa
    requires ProcessarPagamento(ts[i], dataTexto, valorTexto, hoje, fechados, idPagamento, idRestante).Ok?
    ensures var p := ProcessarPagamento(ts[i], dataTexto, valorTexto, hoje, fechados, idPagamento, idRestante).value;
      AtualizarSaldo(Aplicar(ts, i, p), ts[i].conta) == AtualizarSaldo(ts, ts[i].conta) - p.pagamento.valor
  {
    var p := ProcessarPagamento(ts[i], dataTexto, valorTexto, hoje, fechados, idPagamento, idRestante).value;
    SaldoAfterPagamento(ts, i, p);
  }

  /** The rows a payment writes, as far as the balance sees them. */
  predicate ConservesValue(t: Transacao, p: Pagamento) {
    SameForSums(t, p.parcela.(valor := t.valor))
    && p.pagamento.conta == t.conta && p.pagamento.tipo == Despesa && p.pagamento.valor == p.parcela.valor
    && (p.restante.None? ==> p.parcela.valor == t.valor)
    && (p.restante.Some? ==>
          p.restante.value.conta == t.conta && p.restante.value.tipo == t.tipo
          && p.parcela.valor + p.restante.value.valor == t.valor)
  }

  lemma SaldoAfterPagamento(ts: seq<Transacao>, i: nat, p: Pagamento)
    requires i < |ts| && ts[i].tipo == Despesa && ConservesValue(ts[i], p)
    ensures AtualizarSaldo(Aplicar(ts, i, p), ts[i].conta) == AtualizarSaldo(ts, ts[i].conta) - p.pagamento.valor
  {
    var c := ts[i].conta;
    var u := ts[i := p.parcela];
    TypesDistinct();
    SaldoChange(ts, i, p.parcela);
    SaldoAfterAppend(u, c, p.pagamento);
    if p.restante.Some? {
      SaldoAfterAppend(u + [p.pagamento], c, p.restante.value);
    } else {
      assert Aplicar(ts, i, p) == u + [p.pagamento];
    }
  }

  /** Replacing a "despesa" row by one of another value moves the balance by the difference. */
  lemma SaldoChange(ts: seq<Transacao>, i: nat, t: Transacao)
    requires i < |ts| && ts[i].tipo == Despesa && SameForSums(ts[i], t.(valor := ts[i].valor))
    ensures AtualizarSaldo(ts[i := t], ts[i].conta) == AtualizarSaldo(ts, ts[i].conta) + ts[i].valor - t.valor
  {
    var c := ts[i].conta;
    var j := Janela(Some(c), Todos, false);
    var a, b := ts[..i], ts[i + 1..];
    assert ts == a + [ts[i]] + b;
    assert ts[i := t] == a + [t] + b;
    SomaAppend(a + [ts[i]], b, j, {Receita});
    SomaAppend(a, [ts[i]], j, {Receita});
    SomaAppend(a + [t], b, j, {Receita});
    SomaAppend(a, [t], j, {Receita});
    SomaAppend(a + [ts[i]], b, j, {Despesa});
    SomaAppend(a, [ts[i]], j, {Despesa});
    SomaAppend(a + [t], b, j, {Despesa});
    SomaAppend(a, [t], j, {Despesa});
    TypesDistinct();
    assert [t][1..] == [] && [ts[i]][1..] == [];
  }

  /** Any refusal writes nothing: paying more than the installment is refused. */
  lemma OverpaymentRefused(t: Transacao, dataTexto: string, valorTexto: string, hoje: Date, fechados: set<(int, int)>, a: nat, b: nat)
    requires dataTexto != [] && valorTexto != []
    requires ParseIsoDate(dataTexto).Some? && AtMost(ParseIsoDate(dataTexto).value, hoje)
    requires var d := ParseIsoDate(dataTexto).value; (d.year, d.month) !in fechados
    requires ValorLido(valorTexto).Some? && ValorLido(valorTexto).value > t.valor && ValorLido(valorTexto).value > 0.0
    ensures ProcessarPagamento(t, Some(dataTexto), Some(valorTexto), hoje, fechados, a, b) == Err(ValorAcimaDaParcela)
  {
  }
}

=== FILE: ledger.dfy ===
/** Transactions and the balance arithmetic built on them: `Conta.atualizar_saldo`, the
    transaction service's totals, monthly summary, creation checks and filtered listing,
    and the paid/unpaid switch of a transaction. Querysets are sequences of records. */
module Ledger {
  import opened Wrappers
  import opened Text
  import opened Dates
  import opened Constants

  /** A `Transacao` row. `despesaParcelada` is the installment plan it belongs to, if any;
      `pai` the transaction it was split from. */
  datatype Transacao = Transacao(
    id: nat,
    conta: nat,
    data: Date,
    descricao: string,
    valor: real,
    tipo: string,
    categoria: nat,
    responsavel: Option<string>,
    despesaParcelada: Option<nat>,
    ehParcelada: bool,
    pai: Option<nat>,
    numeroParcela: Option<int>,
    totalParcelas: Option<int>,
    pago: bool,
    dataPagamento: Option<Date>)

  // ---------------------------------------------------------------- sums

  /** Which dates a sum looks at. */
  datatype Periodo = Todos | Antes(limite: Date) | NoMes(ano: int, mes: int) | Entre(de: Date, ate: Date)

  /** The rows a sum looks at: one account or any, a period, and whether rows of an
      installment plan are left out. */
  datatype Janela = Janela(conta: Option<nat>, periodo: Periodo, semParceladas: bool)

  const Tudo: Janela := Janela(None, Todos, false)

  predicate NoPeriodo(p: Periodo, d: Date) {
    match p
    case Todos => true
    case Antes(limite) => Before(d, limite)
    case NoMes(ano, mes) => InMonth(d, ano, mes)
    case Entre(de, ate) => AtMost(de, d) && AtMost(d, ate)
  }

  predicate NaJanela(j: Janela, t: Transacao) {
    (j.conta.None? || t.conta == j.conta.value)
    && NoPeriodo(j.periodo, t.data)
    && (!j.semParceladas || t.despesaParcelada.None?)
  }

  /** `Sum('valor')` over the rows of the window whose type is one of `tipos`, with an
      empty sum read as 0.00 (the `or Decimal('0.00')` of every aggregate). */
  function Soma(ts: seq<Transacao>, j: Janela, tipos: set<string>): real
  {
    if ts == [] then 0.0
    else (if NaJanela(j, ts[0]) && ts[0].tipo in tipos then ts[0].valor else 0.0) + Soma(ts[1..], j, tipos)
  }

  /** `count()` of the rows of the window. */
  function Quantos(ts: seq<Transacao>, j: Janela): (n: nat)
    ensures n <= |ts|
  {
    if ts == [] then 0
    else (if NaJanela(j, ts[0]) then 1 else 0) + Quantos(ts[1..], j)
  }

  /** Sums add up over a concatenation. */
  lemma {:induction false} SomaAppend(a: seq<Transacao>, b: seq<Transacao>, j: Janela, tipos: set<string>)
    ensures Soma(a + b, j, tipos) == Soma(a, j, tipos) + Soma(b, j, tipos)
  {
    if a == [] {
      assert a + b == b;
    } else {
      assert (a + b)[0] == a[0] && (a + b)[1..] == a[1..] + b;
      SomaAppend(a[1..], b, j, tipos);
    }
  }

  /** A sum is the sum over its parts: splitting the types splits the sum. */
  lemma {:induction false} SomaUnion(ts: seq<Transacao>, j: Janela, s: set<string>, u: set<string>)
    requires s !! u
    ensures Soma(ts, j, s + u) == Soma(ts, j, s) + Soma(ts, j, u)
  {
    if ts != [] {
      SomaUnion(ts[1..], j, s, u);
    }
  }

  /** Rows outside the window add nothing. */
  lemma {:induction false} SomaOutside(ts: seq<Transacao>, j: Janela, tipos: set<string>)
    requires forall i :: 0 <= i < |ts| ==> !NaJanela(j, ts[i]) || ts[i].tipo !in tipos
    ensures Soma(ts, j, tipos) == 0.0
  {
    if ts != [] {
      SomaOutside(ts[1..], j, tipos);
    }
  }

  /** Rows that agree on account, date, type, amount and plan contribute the same: the
      paid flag, the payment date and the rest play no part in any sum. */
  predicate SameForSums(a: Transacao, b: Transacao) {
    a.conta == b.conta && a.data == b.data && a.tipo == b.tipo && a.valor == b.valor
    && a.despesaParcelada == b.despesaParcelada
  }

  lemma {:induction false} SomaReplace(ts: seq<Transacao>, i: nat, t: Transacao, j: Janela, tipos: set<string>)
    requires i < |ts| && SameForSums(ts[i], t)
    ensures Soma(ts[i := t], j, tipos) == Soma(ts, j, tipos)
  {
    if i > 0 {
      assert ts[i := t][1..] == ts[1..][i - 1 := t];
      SomaReplace(ts[1..], i - 1, t, j, tipos);
    }
  }

  /** Before the first day of the next month = before the first day of this month, plus
      this month. */
  lemma {:induction false} SomaNextMonth(ts: seq<Transacao>, conta: Option<nat>, s: bool, ano: int, mes: int, tipos: set<string>)
    requires 1 <= mes <= 12
    requires forall i :: 0 <= i < |ts| ==> Valid(ts[i].data)
    ensures var (ny, nm) := NextMonth(ano, mes);
      Soma(ts, Janela(conta, Antes(FirstOfMonth(ny, nm)), s), tipos)
      == Soma(ts, Janela(conta, Antes(FirstOfMonth(ano, mes)), s), tipos) + Soma(ts, Janela(conta, NoMes(ano, mes), s), tipos)
  {
    if ts != [] {
      BeforeNextMonth(ts[0].data, ano, mes);
      SomaNextMonth(ts[1..], conta, s, ano, mes, tipos);
    }
  }

  // ---------------------------------------------------------------- Conta.atualizar_saldo

  /** `Conta.atualizar_saldo`: every income of the account minus every "despesa" of it,
      paid or not, installments included; "saida" rows are not subtracted. */
  function AtualizarSaldo(ts: seq<Transacao>, conta: nat): (r: real)
    ensures (forall i :: 0 <= i < |ts| ==> ts[i].conta != conta || ts[i].tipo !in {Receita, Despesa}) ==> r == 0.0
  {
    var j := Janela(Some(conta), Todos, false);
    assert (forall i :: 0 <= i < |ts| ==> ts[i].conta != conta || ts[i].tipo !in {Receita, Despesa}) ==>
      Soma(ts, j, {Receita}) == 0.0 && Soma(ts, j, {Despesa}) == 0.0 by {
      if forall i :: 0 <= i < |ts| ==> ts[i].conta != conta || ts[i].tipo !in {Receita, Despesa} {
        SomaOutside(ts, j, {Receita});
        SomaOutside(ts, j, {Despesa});
      }
    }
    Soma(ts, j, {Receita}) - Soma(ts, j, {Despesa})
  }

  /** A new row moves the balance by its signed amount: up for income, down for
      "despesa", not at all for "saida" or for another account. */
  lemma SaldoAfterAppend(ts: seq<Transacao>, conta: nat, t: Transacao)
    ensures t.conta == conta && t.tipo == Receita ==> AtualizarSaldo(ts + [t], conta) == AtualizarSaldo(ts, conta) + t.valor
    ensures t.conta == conta && t.tipo == Despesa ==> AtualizarSaldo(ts + [t], conta) == AtualizarSaldo(ts, conta) - t.valor
    ensures t.conta != conta || (t.tipo != Receita && t.tipo != Despesa) ==> AtualizarSaldo(ts + [t], conta) == AtualizarSaldo(ts, conta)
  {
    var j := Janela(Some(conta), Todos, false);
    SomaAppend(ts, [t], j, {Receita});
    SomaAppend(ts, [t], j, {Despesa});
    assert [t][1..] == [];
  }

  /** Marking a row paid or unpaid never moves the balance. */
  lemma SaldoIgnoresPago(ts: seq<Transacao>, conta: nat, i: nat, t: Transacao)
    requires i < |ts| && SameForSums(ts[i], t)
    ensures AtualizarSaldo(ts[i := t], conta) == AtualizarSaldo(ts, conta)
  {
    var j := Janela(Some(conta), Todos, false);
    SomaReplace(ts, i, t, j, {Receita});
    SomaReplace(ts, i, t, j, {Despesa});
  }

  /** `Transacao.marcar_como_pago`: paid on the given date, or today without one. */
  function MarcarComoPago(t: Transacao, data: Option<Date>, hoje: Date): (r: Transacao)
    ensures r.pago && r.dataPagamento == Some(data.GetOr(hoje))
    ensures SameForSums(t, r) && r.(pago := t.pago, dataPagamento := t.dataPagamento) == t
  {
    t.(pago := true, dataPagamento := Some(data.GetOr(hoje)))
  }

  /** `Transacao.marcar_como_nao_pago`. */
  function MarcarComoNaoPago(t: Transacao): (r: Transacao)
    ensures !r.pago && r.dataPagamento.None?
    ensures SameForSums(t, r) && r.(pago := t.pago, dataPagamento := t.dataPagamento) == t
  {
    t.(pago := false, dataPagamento := None)
  }

  /** Paying and un-paying an unpaid row gives the row back. */
  lemma PagoRoundTrip(t: Transacao, data: Option<Date>, hoje: Date)
    requires !t.pago && t.dataPagamento.None?
    ensures MarcarComoNaoPago(MarcarComoPago(t, data, hoje)) == t
  {
  }

  // ---------------------------------------------------------------- calcular_totalizadores

  datatype Totalizadores = Totalizadores(totalReceitas: real, totalDespesas: real, saldoLiquido: real, totalTransacoes: nat)

  /** The types the services count as expenses. */
  const Saidas: set<string> := {Despesa, Saida}

  /** `calcular_totalizadores` over a listed set of transactions. */
  function CalcularTotalizadores(ts: seq<Transacao>): (r: Totalizadores)
    ensures r.saldoLiquido == r.totalReceitas - r.totalDespesas
    ensures r.totalTransacoes == |ts|
    ensures ts == [] ==> r == Totalizadores(0.0, 0.0, 0.0, 0)
  {
    var rec, desp := Soma(ts, Tudo, {Receita}), Soma(ts, Tudo, Saidas);
    assert Quantos(ts, Tudo) == |ts| by { QuantosTudo(ts); }
    Totalizadores(rec, desp, rec - desp, Quantos(ts, Tudo))
  }

  lemma {:induction false} QuantosTudo(ts: seq<Transacao>)
    ensures Quantos(ts, Tudo) == |ts|
  {
    if ts != [] {
      QuantosTudo(ts[1..]);
    }
  }

  /** The totals of two lists together are the sums of their totals. */
  lemma TotalizadoresAppend(a: seq<Transacao>, b: seq<Transacao>)
    ensures var (x, y, z) := (CalcularTotalizadores(a), CalcularTotalizadores(b), CalcularTotalizadores(a + b));
      z.totalReceitas == x.totalReceitas + y.totalReceitas
      && z.totalDespesas == x.totalDespesas + y.totalDespesas
      && z.saldoLiquido == x.saldoLiquido + y.saldoLiquido
      && z.totalTransacoes == x.totalTransacoes + y.totalTransacoes
  {
    SomaAppend(a, b, Tudo, {Receita});
    SomaAppend(a, b, Tudo, Saidas);
  }

  /** One row: income counts as income, "despesa" and "saida" as expense, anything else
      only in the count. */
  lemma TotalizadoresSingle(t: Transacao)
    ensures var r := CalcularTotalizadores([t]);
      r.totalReceitas == (if t.tipo == Receita then t.valor else 0.0)
      && r.totalDespesas == (if t.tipo == Despesa || t.tipo == Saida then t.valor else 0.0)
      && r.totalTransacoes == 1
  {
    assert [t][1..] == [];
    assert Soma([t], Tudo, {Receita}) == (if t.tipo in {Receita} then t.valor else 0.0) + Soma([], Tudo, {Receita});
    assert Soma([t], Tudo, Saidas) == (if t.tipo in Saidas then t.valor else 0.0) + Soma([], Tudo, Saidas);
  }

  /** Over one account's rows, the service's net balance and `atualizar_saldo` differ by
      exactly the "saida" rows, which only the service subtracts. */
  lemma SaldoVersusTotalizadores(ts: seq<Transacao>, conta: nat)
    requires forall i :: 0 <= i < |ts| ==> ts[i].conta == conta
    ensures AtualizarSaldo(ts, conta) == CalcularTotalizadores(ts).saldoLiquido + Soma(ts, Tudo, {Saida})
  {
    TypesDistinct();
    SomaUnion(ts, Tudo, {Despesa}, {Saida});
    assert {Despesa} + {Saida} == Saidas;
    SameAccountWindow(ts, conta, {Receita});
    SameAccountWindow(ts, conta, {Despesa});
  }

  lemma {:induction false} SameAccountWindow(ts: seq<Transacao>, conta: nat, tipos: set<string>)
    requires forall i :: 0 <= i < |ts| ==> ts[i].conta == conta
    ensures Soma(ts, Janela(Some(conta), Todos, false), tipos) == Soma(ts, Tudo, tipos)
  {
    if ts != [] {
      SameAccountWindow(ts[1..], conta, tipos);
    }
  }

  // ---------------------------------------------------------------- obter_resumo_financeiro

  datatype Resumo = Resumo(
    mes: int,
    ano: int,
    receitas: real,
    despesas: real,
    movimentoMes: real,
    saldoAnterior: real,
    saldoAtual: real,
    totalTransacoes: nat)

  datatype ResumoError = ContaInexistente | PeriodoInvalido

  /** The month asked for: a missing month or year takes today's, and when either is
      missing a 0 is replaced as well (`mes or hoje.month`). */
  function PeriodoPedido(mes: Option<int>, ano: Option<int>, hoje: Date): (r: (int, int))
    ensures mes.Some? && ano.Some? ==> r == (mes.value, ano.value)
    ensures mes.None? ==> r.0 == hoje.month
    ensures ano.None? ==> r.1 == hoje.year
  {
    if mes.None? || ano.None? then
      var m := if mes.None? || mes.value == 0 then hoje.month else mes.value;
      var a := if ano.None? || ano.value == 0 then hoje.year else ano.value;
      (m, a)
    else (mes.value, ano.value)
  }

  /** `ContaService.obter_resumo_financeiro`: the month's income and expenses of the
      account and the balance of everything before the month, installment rows left out
      of both; the account must exist and `date(ano, mes, 1)` must be a date. */
  function ObterResumo(ts: seq<Transacao>, contas: set<nat>, conta: nat, mes: Option<int>, ano: Option<int>, hoje: Date): (r: Result<Resumo, ResumoError>)
    ensures conta !in contas ==> r == Err(ContaInexistente)
    ensures var (m, a) := PeriodoPedido(mes, ano, hoje);
      r.Err? <==> conta !in contas || !(1 <= m <= 12 && 1 <= a <= 9999)
    ensures r.Ok? ==> r.value.movimentoMes == r.value.receitas - r.value.despesas
    ensures r.Ok? ==> r.value.saldoAtual == r.value.saldoAnterior + r.value.movimentoMes
    ensures r.Ok? ==> (r.value.mes, r.value.ano) == PeriodoPedido(mes, ano, hoje)
  {
    var (m, a) := PeriodoPedido(mes, ano, hoje);
    if conta !in contas then Err(ContaInexistente)
    else if !(1 <= m <= 12 && 1 <= a <= 9999) then Err(PeriodoInvalido)
    else
      var noMes := Janela(Some(conta), NoMes(a, m), true);
      var antes := Janela(Some(conta), Antes(FirstOfMonth(a, m)), true);
      var receitas, despesas := Soma(ts, noMes, {Receita}), Soma(ts, noMes, Saidas);
      var anterior := Soma(ts, antes, {Receita}) - Soma(ts, antes, Saidas);
      Ok(Resumo(m, a, receitas, despesas, receitas - despesas, anterior, anterior + (receitas - despesas), Quantos(ts, noMes)))
  }

  /** The balance a month ends with is the balance the next month starts from. */
  lemma ResumoContinuity(ts: seq<Transacao>, contas: set<nat>, conta: nat, mes: int, ano: int, hoje: Date)
    requires conta in contas && 1 <= mes <= 12 && 1 <= ano && NextMonth(ano, mes).0 <= 9999
    requires forall i :: 0 <= i < |ts| ==> Valid(ts[i].data)
    ensures var (ny, nm) := NextMonth(ano, mes);
      ObterResumo(ts, contas, conta, Some(mes), Some(ano), hoje).Ok?
      && ObterResumo(ts, contas, conta, Some(nm), Some(ny), hoje).Ok?
      && ObterResumo(ts, contas, conta, Some(mes), Some(ano), hoje).value.saldoAtual
         == ObterResumo(ts, contas, conta, Some(nm), Some(ny), hoje).value.saldoAnterior
  {
    SomaNextMonth(ts, Some(conta), true, ano, mes, {Receita});
    SomaNextMonth(ts, Some(conta), true, ano, mes, Saidas);
  }

  /** Installment rows never move the summary. */
  lemma ResumoIgnoresInstallments(ts: seq<Transacao>, t: Transacao, contas: set<nat>, conta: nat, mes: Option<int>, ano: Option<int>, hoje: Date)
    requires t.despesaParcelada.Some?
    ensures ObterResumo(ts + [t], contas, conta, mes, ano, hoje) == ObterResumo(ts, contas, conta, mes, ano, hoje)
  {
    var (m, a) := PeriodoPedido(mes, ano, hoje);
    if conta in contas && 1 <= m <= 12 && 1 <= a <= 9999 {
      var noMes := Janela(Some(conta), NoMes(a, m), true);
      var antes := Janela(Some(conta), Antes(FirstOfMonth(a, m)), true);
      assert [t][1..] == [];
      SomaAppend(ts, [t], noMes, {Receita});
      SomaAppend(ts, [t], noMes, Saidas);
      SomaAppend(ts, [t], antes, {Receita});
      SomaAppend(ts, [t], antes, Saidas);
      QuantosAppend(ts, [t], noMes);
    }
  }

  lemma {:induction false} QuantosAppend(a: seq<Transacao>, b: seq<Transacao>, j: Janela)
    ensures Quantos(a + b, j) == Quantos(a, j) + Quantos(b, j)
  {
    if a == [] {
      assert a + b == b;
    } else {
      assert (a + b)[0] == a[0] && (a + b)[1..] == a[1..] + b;
      QuantosAppend(a[1..], b, j);
    }
  }

  // ---------------------------------------------------------------- criar_transacao

  /** Why `criar_transacao` refuses; every reason reaches the caller as a
      TransacaoServiceError carrying its message. */
  datatype CriarError = ContaNaoExiste | ValorZero | TipoInvalido | DataFutura
    | CategoriaNaoEncontrada | ErroAoCriar

  /** `TransacaoService.criar_transacao`. `categorias` are the (id, nome) pairs of the
      tenant's categories, looked up by exact name. The category column may not be null,
      so a call without a category fails when the row is inserted; a name two categories
      share fails the lookup. Two clocks are read: the future check compares with the
      São Paulo date `hoje`, while a call without a date is stored on the UTC date
      `hojeUtc` of `timezone.now()`. */
  function CriarTransacao(contas: set<nat>, categorias: seq<(nat, string)>, conta: nat, descricao: string,
                          valor: real, tipo: string, data: Option<Date>, categoria: Option<string>,
                          hoje: Date, hojeUtc: Date, novoId: nat): (r: Result<Transacao, CriarError>)
    requires Valid(hoje) && (data.Some? ==> Valid(data.value))
    ensures r.Ok? ==> conta in contas && valor > 0.0 && IsValidType(tipo)
    ensures r.Ok? && data.Some? ==> r.value.data == data.value && AtMost(data.value, hoje)
    ensures r.Ok? && data.None? ==> r.value.data == hojeUtc
    ensures r.Ok? ==> r.value.valor == valor && r.value.tipo == tipo && r.value.conta == conta && !r.value.pago
    ensures r.Ok? ==> categoria.Some? && exists i :: 0 <= i < |categorias| && categorias[i] == (r.value.categoria, categoria.value)
    ensures conta !in contas ==> r == Err(ContaNaoExiste)
    ensures conta in contas && valor <= 0.0 ==> r == Err(ValorZero)
    ensures conta in contas && valor > 0.0 && !IsValidType(tipo) ==> r == Err(TipoInvalido)
    ensures conta in contas && valor > 0.0 && IsValidType(tipo) && data.Some? && Before(hoje, data.value) ==> r == Err(DataFutura)
    ensures CamposValidos(contas, conta, valor, tipo, data, hoje) && (categoria.None? || categoria.value == []) ==>
      r == Err(ErroAoCriar)
    ensures CamposValidos(contas, conta, valor, tipo, data, hoje) && categoria.Some? && categoria.value != [] ==>
      (forall i :: 0 <= i < |categorias| ==> categorias[i].1 != categoria.value) ==> r == Err(CategoriaNaoEncontrada)
    ensures CamposValidos(contas, conta, valor, tipo, data, hoje) && categoria.Some? && categoria.value != [] ==>
      (exists i, j :: 0 <= i < j < |categorias| && categorias[i].1 == categoria.value && categorias[j].1 == categoria.value) ==>
        r == Err(ErroAoCriar)
  {
    if conta !in contas then Err(ContaNaoExiste)
    else if valor <= 0.0 then Err(ValorZero)
    else if !IsValidType(tipo) then Err(TipoInvalido)
    else if data.Some? && Before(hoje, data.value) then Err(DataFutura)
    else if categoria.None? || categoria.value == [] then Err(ErroAoCriar)
    else
      var ids := CategoriasComNome(categorias, categoria.value);
      CategoriasComNomeEmpty(categorias, categoria.value);
      assert (exists i, j :: 0 <= i < j < |categorias| && categorias[i].1 == categoria.value && categorias[j].1 == categoria.value) ==>
        |ids| >= 2 by {
        if exists i, j :: 0 <= i < j < |categorias| && categorias[i].1 == categoria.value && categorias[j].1 == categoria.value {
          var i, j :| 0 <= i < j < |categorias| && categorias[i].1 == categoria.value && categorias[j].1 == categoria.value;
          CategoriasComNomeTwo(categorias, categoria.value, i, j);
        }
      }
      if |ids| == 0 then Err(CategoriaNaoEncontrada)
      else if |ids| > 1 then Err(ErroAoCriar)
      else
        var d := data.GetOr(hojeUtc);
        assert data.Some? ==> AtMost(d, hoje) by {
          if data.Some? { BeforeIncreasesNot(hoje, d); }
        }
        Ok(Transacao(novoId, conta, d, descricao, valor, tipo, ids[0], None, None, false, None, None, None, false, None))
  }

  /** Every check before the category lookup passes: the account exists, the amount is
      positive, the type is known and the date is not in the future. */
  predicate CamposValidos(contas: set<nat>, conta: nat, valor: real, tipo: string, data: Option<Date>, hoje: Date) {
    conta in contas && valor > 0.0 && IsValidType(tipo) && !(data.Some? && Before(hoje, data.value))
  }

  /** Of two different dates, one is before the other. */
  lemma BeforeIncreasesNot(a: Date, b: Date)
    requires !Before(a, b)
    ensures AtMost(b, a)
  {
  }

  /** The ids of the categories named exactly `nome` (`Categoria.objects.get(nome=...)`). */
  function CategoriasComNome(categorias: seq<(nat, string)>, nome: string): (r: seq<nat>)
    ensures |r| <= |categorias|
    ensures forall k :: 0 <= k < |r| ==> exists i :: 0 <= i < |categorias| && categorias[i] == (r[k], nome)
    ensures forall i :: 0 <= i < |categorias| && categorias[i].1 == nome ==> categorias[i].0 in r
  {
    if categorias == [] then []
    else
      var tail := categorias[1..];
      var rest := CategoriasComNome(tail, nome);
      assert forall i :: 1 <= i < |categorias| ==> categorias[i] == tail[i - 1];
      assert forall k :: 0 <= k < |rest| ==> exists i :: 0 <= i < |categorias| && categorias[i] == (rest[k], nome) by {
        forall k | 0 <= k < |rest|
          ensures exists i :: 0 <= i < |categorias| && categorias[i] == (rest[k], nome)
        {
          var i :| 0 <= i < |tail| && tail[i] == (rest[k], nome);
          assert categorias[i + 1] == (rest[k], nome);
        }
      }
      if categorias[0].1 == nome then
        var r := [categorias[0].0] + rest;
        assert forall k :: 0 <= k < |r| ==> exists i :: 0 <= i < |categorias| && categorias[i] == (r[k], nome) by {
          forall k | 0 <= k < |r|
            ensures exists i :: 0 <= i < |categorias| && categorias[i] == (r[k], nome)
          {
            if k == 0 { assert categorias[0] == (r[0], nome); } else { assert r[k] == rest[k - 1]; }
          }
        }
        r
      else
        rest
  }

  /** Only the category at `i` may carry the name `nome`. */
  predicate OnlyMatch(categorias: seq<(nat, string)>, nome: string, i: int) {
    forall j :: 0 <= j < |categorias| && j != i ==> categorias[j].1 != nome
  }

  /** No category of that name: the lookup is empty, and only then. */
  lemma CategoriasComNomeEmpty(categorias: seq<(nat, string)>, nome: string)
    ensures CategoriasComNome(categorias, nome) == [] <==> forall i :: 0 <= i < |categorias| ==> categorias[i].1 != nome
  {
    var r := CategoriasComNome(categorias, nome);
    if r != [] {
      var i :| 0 <= i < |categorias| && categorias[i] == (r[0], nome);
    }
  }

  /** Two categories of that name: the lookup finds at least two rows. */
  lemma {:induction false} CategoriasComNomeTwo(categorias: seq<(nat, string)>, nome: string, i: nat, j: nat)
    requires i < j < |categorias| && categorias[i].1 == nome && categorias[j].1 == nome
    ensures |CategoriasComNome(categorias, nome)| >= 2
  {
    var tail := categorias[1..];
    assert tail[j - 1] == categorias[j];
    if i == 0 {
      assert categorias[j].0 in CategoriasComNome(tail, nome);
    } else {
      assert tail[i - 1] == categorias[i];
      CategoriasComNomeTwo(tail, nome, i - 1, j - 1);
    }
  }

  /** One category of that name: the lookup finds exactly its id. */
  lemma {:induction false} CategoriasComNomeOne(categorias: seq<(nat, string)>, nome: string, i: nat)
    requires i < |categorias| && categorias[i].1 == nome && OnlyMatch(categorias, nome, i)
    ensures CategoriasComNome(categorias, nome) == [categorias[i].0]
  {
    var tail := categorias[1..];
    if i == 0 {
      forall j | 0 <= j < |tail| ensures tail[j].1 != nome {
        assert tail[j] == categorias[j + 1];
      }
      CategoriasComNomeEmpty(tail, nome);
    } else {
      assert tail[i - 1] == categorias[i];
      forall j | 0 <= j < |tail| && j != i - 1 ensures tail[j].1 != nome {
        assert tail[j] == categorias[j + 1];
      }
      CategoriasComNomeOne(tail, nome, i - 1);
    }
  }

  /** A well-formed call with a category name found exactly once is accepted, on the date
      given or else the UTC date, with that category. */
  lemma CriarAccepts(contas: set<nat>, categorias: seq<(nat, string)>, c: nat, conta: nat, descricao: string,
                     valor: real, tipo: string, data: Option<Date>, hoje: Date, hojeUtc: Date, novoId: nat)
    requires Valid(hoje) && (data.Some? ==> Valid(data.value) && AtMost(data.value, hoje))
    requires conta in contas && valor > 0.0 && IsValidType(tipo)
    requires c < |categorias| && categorias[c].1 != [] && OnlyMatch(categorias, categorias[c].1, c)
    ensures var r := CriarTransacao(contas, categorias, conta, descricao, valor, tipo, data, Some(categorias[c].1), hoje, hojeUtc, novoId);
      r.Ok? && r.value.data == data.GetOr(hojeUtc) && r.value.categoria == categorias[c].0 &&
      r.value.id == novoId && r.value.descricao == descricao
  {
    CategoriasComNomeOne(categorias, categorias[c].1, c);
    if data.Some? {
      assert !Before(hoje, data.value);
    }
  }

  /** At 22:00 on 14 September 2025 in São Paulo it is already 15 September in UTC: a call
      without a date stores the 15th, a date the same call refuses as future when it is
      given explicitly. */
  lemma DefaultDateAfterToday(contas: set<nat>, conta: nat, descricao: string, novoId: nat)
    requires conta in contas
    ensures var hoje, hojeUtc := Date(2025, 9, 14), Date(2025, 9, 15);
      var r := CriarTransacao(contas, [(5, "Lazer")], conta, descricao, 10.0, Despesa, None, Some("Lazer"), hoje, hojeUtc, novoId);
      r.Ok? && r.value.data == hojeUtc && Before(hoje, r.value.data)
      && CriarTransacao(contas, [(5, "Lazer")], conta, descricao, 10.0, Despesa, Some(hojeUtc), Some("Lazer"), hoje, hojeUtc, novoId)
         == Err(DataFutura)
  {
    var categorias := [(5, "Lazer")];
    assert categorias[0].1 == "Lazer" && OnlyMatch(categorias, "Lazer", 0);
    CriarAccepts(contas, categorias, 0, conta, descricao, 10.0, Despesa, None, Date(2025, 9, 14), Date(2025, 9, 15), novoId);
  }

  /** `criar_transacao` with the default date read on the same São Paulo clock as the
      future check: whatever it stores is never in the future by that check. */
  function CriarTransacaoDataLocal(contas: set<nat>, categorias: seq<(nat, string)>, conta: nat, descricao: string,
                                   valor: real, tipo: string, data: Option<Date>, categoria: Option<string>,
                                   hoje: Date, novoId: nat): (r: Result<Transacao, CriarError>)
    requires Valid(hoje) && (data.Some? ==> Valid(data.value))
    ensures r.Ok? ==> AtMost(r.value.data, hoje) && r.value.data == data.GetOr(hoje)
  {
    CriarTransacao(contas, categorias, conta, descricao, valor, tipo, data, categoria, hoje, hoje, novoId)
  }

  /** The written and corrected creations refuse alike, with the same error, and store the
      same row whenever a date is given or the two clocks show the same day. */
  lemma CriarDataLocalAgrees(contas: set<nat>, categorias: seq<(nat, string)>, conta: nat, descricao: string,
                             valor: real, tipo: string, data: Option<Date>, categoria: Option<string>,
                             hoje: Date, hojeUtc: Date, novoId: nat)
    requires Valid(hoje) && (data.Some? ==> Valid(data.value))
    ensures var w := CriarTransacao(contas, categorias, conta, descricao, valor, tipo, data, categoria, hoje, hojeUtc, novoId);
      var c := CriarTransacaoDataLocal(contas, categorias, conta, descricao, valor, tipo, data, categoria, hoje, novoId);
      (w.Err? <==> c.Err?) && (w.Err? ==> w == c)
      && (w.Ok? ==> w.value == c.value.(data := w.value.data))
      && (data.Some? || hojeUtc == hoje ==> w == c)
  {
  }
}

=== FILE: listing.dfy ===
/** `TransacaoService.listar_transacoes_com_filtros`: optional filters that each narrow the
    list of transactions (a malformed one is ignored), then newest first. */
module Listing {
  import opened Wrappers
  import opened Text
  import opened Dates
  import opened Constants
  import opened Ledger

  /** The keyword filters; a key that is absent is None, and an empty value counts as
      absent too. */
  datatype Filtros = Filtros(
    dataInicio: Option<string>,
    dataFim: Option<string>,
    categoriaId: Option<string>,
    tipo: Option<string>,
    responsavel: Option<string>,
    descricao: Option<string>)

  const SemFiltros: Filtros := Filtros(None, None, None, None, None, None)

  /** Python's `int(s)` on text: surrounding blanks, an optional sign and at least one
      digit; None where it raises ValueError. */
  function ParseInt(s: string): (r: Option<int>)
    ensures r.Some? ==> KeepDigits(Strip(s)) != []
  {
    var t := Strip(s);
    if t == [] then None
    else
      var negative := t[0] == '-';
      var body := if t[0] == '-' || t[0] == '+' then t[1..] else t;
      if body == [] || !AllDigits(body) then None
      else
        KeepDigitsOfDigits(body);
        assert t == [t[0]] + t[1..];
        KeepDigitsAppend([t[0]], t[1..]);
        Some(if negative then -(NatOf(body) as int) else NatOf(body) as int)
  }

  /** A plain run of digits reads as its decimal value. */
  lemma ParseIntOfDigits(t: string)
    requires t != [] && AllDigits(t)
    ensures ParseInt(t) == Some(NatOf(t) as int)
  {
    assert forall i :: 0 <= i < |t| ==> !IsSpace(t[i]) by {
      forall i | 0 <= i < |t| ensures !IsSpace(t[i]) {
        assert IsDigit(t[i]);
      }
    }
    StripNoSpace(t);
    assert IsDigit(t[0]);
  }

  /** The decimal text of a natural number reads back as that number. */
  lemma ParseIntDigits(n: nat)
    ensures ParseInt(NatToDigits(n)) == Some(n)
  {
    ParseIntOfDigits(NatToDigits(n));
  }

  /** Case-insensitive substring test (`__icontains`); a null column never matches. */
  predicate IContains(field: Option<string>, q: string) {
    field.Some? && Contains(Lower(field.value), Lower(q))
  }

  /** Whether a row passes every filter that is given and readable. */
  predicate Passa(f: Filtros, t: Transacao) {
    (Given(f.dataInicio) && ParseIsoDate(f.dataInicio.value).Some? ==> AtMost(ParseIsoDate(f.dataInicio.value).value, t.data))
    && (Given(f.dataFim) && ParseIsoDate(f.dataFim.value).Some? ==> AtMost(t.data, ParseIsoDate(f.dataFim.value).value))
    && (Given(f.categoriaId) && ParseInt(f.categoriaId.value).Some? ==> t.categoria == ParseInt(f.categoriaId.value).value)
    && (Given(f.tipo) && IsValidType(f.tipo.value) ==> t.tipo == f.tipo.value)
    && (Given(f.responsavel) ==> IContains(t.responsavel, f.responsavel.value))
    && (Given(f.descricao) ==> IContains(Some(t.descricao), f.descricao.value))
  }

  /** The rows that pass, in their original order. */
  function Filtrar(ts: seq<Transacao>, f: Filtros): (r: seq<Transacao>)
    ensures forall t :: t in r <==> t in ts && Passa(f, t)
    ensures |r| <= |ts|
  {
    if ts == [] then []
    else (if Passa(f, ts[0]) then [ts[0]] else []) + Filtrar(ts[1..], f)
  }

  /** Two filters that pass the same rows select the same list. */
  lemma {:induction false} FiltrarSame(ts: seq<Transacao>, f: Filtros, g: Filtros)
    requires forall t :: Passa(f, t) == Passa(g, t)
    ensures Filtrar(ts, f) == Filtrar(ts, g)
  {
    if ts != [] {
      FiltrarSame(ts[1..], f, g);
    }
  }

  // ---------------------------------------------------------------- order_by('-data', '-id')

  /** `a` may come before `b`: a later date, or the same date and a larger id. */
  predicate Later(a: Transacao, b: Transacao) {
    Before(b.data, a.data) || (a.data == b.data && a.id >= b.id)
  }

  predicate Sorted(s: seq<Transacao>) {
    forall i, j :: 0 <= i < j < |s| ==> Later(s[i], s[j])
  }

  function Insert(x: Transacao, s: seq<Transacao>): (r: seq<Transacao>)
    ensures multiset(r) == multiset(s) + multiset{x}
  {
    if s == [] then [x]
    else if Later(x, s[0]) then [x] + s
    else
      assert s == [s[0]] + s[1..];
      [s[0]] + Insert(x, s[1..])
  }

  lemma {:induction false} InsertSorted(x: Transacao, s: seq<Transacao>)
    requires Sorted(s)
    ensures Sorted(Insert(x, s))
  {
    if s != [] && !Later(x, s[0]) {
      SortedTail(s);
      InsertSorted(x, s[1..]);
      InsertBelowHead(x, s);
      SortedCons(s[0], Insert(x, s[1..]));
    }
  }

  lemma SortedTail(s: seq<Transacao>)
    requires Sorted(s) && s != []
    ensures Sorted(s[1..])
  {
    forall i, j | 0 <= i < j < |s[1..]| ensures Later(s[1..][i], s[1..][j]) {
      assert s[1..][i] == s[i + 1] && s[1..][j] == s[j + 1];
    }
  }

  /** Everything inserted behind the head of a sorted list comes after that head. */
  lemma InsertBelowHead(x: Transacao, s: seq<Transacao>)
    requires Sorted(s) && s != [] && !Later(x, s[0])
    ensures forall k :: 0 <= k < |Insert(x, s[1..])| ==> Later(s[0], Insert(x, s[1..])[k])
  {
    var rest := Insert(x, s[1..]);
    forall k | 0 <= k < |rest| ensures Later(s[0], rest[k]) {
      assert rest[k] in multiset(rest);
      if rest[k] != x {
        assert rest[k] in multiset(s[1..]);
        var m :| 0 <= m < |s[1..]| && s[1..][m] == rest[k];
        assert s[m + 1] == rest[k];
      }
    }
  }

  lemma SortedCons(a: Transacao, r: seq<Transacao>)
    requires Sorted(r) && forall k :: 0 <= k < |r| ==> Later(a, r[k])
    ensures Sorted([a] + r)
  {
    var t := [a] + r;
    forall i, j | 0 <= i < j < |t| ensures Later(t[i], t[j]) {
      assert t[j] == r[j - 1];
      if i > 0 {
        assert t[i] == r[i - 1];
      }
    }
  }

  /** Insertion sort into newest-first order. */
  function Ordenar(s: seq<Transacao>): (r: seq<Transacao>)
    ensures multiset(r) == multiset(s)
  {
    if s == [] then []
    else
      assert s == [s[0]] + s[1..];
      Insert(s[0], Ordenar(s[1..]))
  }

  lemma {:induction false} OrdenarSorted(s: seq<Transacao>)
    ensures Sorted(Ordenar(s))
  {
    if s != [] {
      OrdenarSorted(s[1..]);
      InsertSorted(s[0], Ordenar(s[1..]));
    }
  }

  /** `listar_transacoes_com_filtros` over the tenant's transactions. */
  function Listar(ts: seq<Transacao>, f: Filtros): (r: seq<Transacao>)
    ensures multiset(r) == multiset(Filtrar(ts, f))
    ensures Sorted(r)
    ensures forall t :: t in r <==> t in ts && Passa(f, t)
  {
    var r := Ordenar(Filtrar(ts, f));
    OrdenarSorted(Filtrar(ts, f));
    assert forall t :: t in r <==> t in multiset(Filtrar(ts, f));
    r
  }

  /** Without filters every transaction is listed, each exactly as often as it occurs. */
  lemma ListarAll(ts: seq<Transacao>)
    ensures multiset(Listar(ts, SemFiltros)) == multiset(ts)
  {
    FiltrarAll(ts);
  }

  lemma {:induction false} FiltrarAll(ts: seq<Transacao>)
    ensures Filtrar(ts, SemFiltros) == ts
  {
    if ts != [] {
      FiltrarAll(ts[1..]);
      assert ts == [ts[0]] + ts[1..];
    }
  }

  /** Dropping any one filter can only add rows: every filter narrows. */
  lemma FilterNarrows(ts: seq<Transacao>, f: Filtros, t: Transacao)
    requires t in Listar(ts, f)
    ensures t in Listar(ts, f.(dataInicio := None))
    ensures t in Listar(ts, f.(dataFim := None))
    ensures t in Listar(ts, f.(categoriaId := None))
    ensures t in Listar(ts, f.(tipo := None))
    ensures t in Listar(ts, f.(responsavel := None))
    ensures t in Listar(ts, f.(descricao := None))
  {
  }

  /** A start or end date that does not parse is ignored, as if it had not been given. */
  lemma MalformedDateIgnored(ts: seq<Transacao>, f: Filtros, s: string)
    requires ParseIsoDate(s).None?
    ensures Listar(ts, f.(dataInicio := Some(s))) == Listar(ts, f.(dataInicio := None))
    ensures Listar(ts, f.(dataFim := Some(s))) == Listar(ts, f.(dataFim := None))
  {
    FiltrarSame(ts, f.(dataInicio := Some(s)), f.(dataInicio := None));
    FiltrarSame(ts, f.(dataFim := Some(s)), f.(dataFim := None));
  }

  /** A category id that is not an integer is ignored. */
  lemma MalformedCategoryIgnored(ts: seq<Transacao>, f: Filtros, s: string)
    requires ParseInt(s).None?
    ensures Listar(ts, f.(categoriaId := Some(s))) == Listar(ts, f.(categoriaId := None))
  {
    var g, h := f.(categoriaId := Some(s)), f.(categoriaId := None);
    forall t ensures Passa(g, t) == Passa(h, t) {
      assert !(Given(g.categoriaId) && ParseInt(g.categoriaId.value).Some?);
    }
    FiltrarSame(ts, g, h);
  }

  /** An unknown type is ignored. */
  lemma UnknownTypeIgnored(ts: seq<Transacao>, f: Filtros, s: string)
    requires !IsValidType(s)
    ensures Listar(ts, f.(tipo := Some(s))) == Listar(ts, f.(tipo := None))
  {
    FiltrarSame(ts, f.(tipo := Some(s)), f.(tipo := None));
  }

  /** The text filters ignore letter case. */
  lemma TextFilterIgnoresCase(ts: seq<Transacao>, f: Filtros, q: string)
    requires q != []
    ensures Listar(ts, f.(descricao := Some(q))) == Listar(ts, f.(descricao := Some(Lower(q))))
    ensures Listar(ts, f.(responsavel := Some(q))) == Listar(ts, f.(responsavel := Some(Lower(q))))
  {
    LowerIdempotent(q);
    FiltrarSame(ts, f.(descricao := Some(q)), f.(descricao := Some(Lower(q))));
    FiltrarSame(ts, f.(responsavel := Some(q)), f.(responsavel := Some(Lower(q))));
  }

  lemma LowerIdempotent(s: string)
    ensures Lower(Lower(s)) == Lower(s)
  {
  }
}

=== FILE: middleware.dfy ===
/** The request middleware of the finance app: the tenant middleware that points the
    database connection at the logged-in user's schema for the length of one request, and
    the two pure decisions of the resource monitor and the error logger (which timeout a
    path gets, and which address a client is logged under). */
module Middleware {
  import opened Wrappers
  import opened Text
  import Users
  import Validators

  /** The separators `sanitize_schema_name` removes: '.', '-' and '/'. */
  const Separators: set<char> := {'.', '-', '/'}

  /** `sanitize_schema_name`: nothing for an empty document, otherwise "user_" and the
      document without its separators. Letters and blanks are kept. */
  function SanitizeSchemaName(doc: string): (r: Option<string>)
    ensures r.None? <==> doc == []
    ensures r.Some? ==> StartsWith(r.value, Users.SchemaPrefix)
    ensures r.Some? ==> forall i :: |Users.SchemaPrefix| <= i < |r.value| ==> r.value[i] !in Separators
    ensures r.Some? ==> forall i :: |Users.SchemaPrefix| <= i < |r.value| ==> r.value[i] in doc
    ensures r.Some? ==> forall c :: c in doc && c !in Separators ==> c in r.value[|Users.SchemaPrefix|..]
    ensures r.Some? ==> |Users.SchemaPrefix| <= |r.value| <= |Users.SchemaPrefix| + |doc|
    ensures doc != [] && (forall i :: 0 <= i < |doc| ==> doc[i] !in Separators) ==> r == Some(Users.SchemaPrefix + doc)
  {
    if doc == [] then None
    else
      var d := Drop(doc, Separators);
      var r := Users.SchemaPrefix + d;
      assert r[..|Users.SchemaPrefix|] == Users.SchemaPrefix;
      assert r[|Users.SchemaPrefix|..] == d;
      assert forall i :: |Users.SchemaPrefix| <= i < |r| ==> r[i] == d[i - |Users.SchemaPrefix|];
      assert (forall i :: 0 <= i < |doc| ==> doc[i] !in Separators) ==> d == doc by {
        if forall i :: 0 <= i < |doc| ==> doc[i] !in Separators {
          DropNothing(doc, Separators);
        }
      }
      Some(r)
  }

  /** A string made of digits and separators only. */
  predicate DigitsAndSeparators(s: string) {
    forall i :: 0 <= i < |s| ==> IsDigit(s[i]) || s[i] in Separators
  }

  lemma DigitsAndSeparatorsJoin(a: string, b: string)
    requires DigitsAndSeparators(a) && DigitsAndSeparators(b)
    ensures DigitsAndSeparators(a + b)
  {
    forall i | 0 <= i < |a + b|
      ensures IsDigit((a + b)[i]) || (a + b)[i] in Separators
    {
      if i < |a| {
        assert (a + b)[i] == a[i];
      } else {
        assert (a + b)[i] == b[i - |a|];
      }
    }
  }

  /** On digits and separators, dropping the separators keeps exactly the digits. */
  lemma {:induction false} DropSeparatorsKeepsDigits(s: string)
    requires DigitsAndSeparators(s)
    ensures Drop(s, Separators) == KeepDigits(s)
  {
    if s != [] {
      assert DigitsAndSeparators(s[1..]) by {
        assert forall i :: 0 <= i < |s[1..]| ==> s[1..][i] == s[i + 1];
      }
      DropSeparatorsKeepsDigits(s[1..]);
    }
  }

  lemma DigitSliceOnly(d: string, i: nat, j: nat)
    requires i <= j <= |d| && AllDigits(d)
    ensures DigitsAndSeparators(d[i..j])
  {
    Validators.SliceDigits(d, i, j);
  }

  /** The CPF mask is digits and separators. */
  lemma CpfMaskSeparated(d: string)
    requires |d| == 11 && AllDigits(d)
    ensures DigitsAndSeparators(Validators.CpfMask(d))
  {
    DigitSliceOnly(d, 0, 3);
    DigitSliceOnly(d, 3, 6);
    DigitSliceOnly(d, 6, 9);
    DigitSliceOnly(d, 9, 11);
    assert d[9..] == d[9..11];
    var p1 := d[..3] + ".";
    DigitsAndSeparatorsJoin(d[..3], ".");
    DigitsAndSeparatorsJoin(p1, d[3..6]);
    var p2 := p1 + d[3..6] + ".";
    DigitsAndSeparatorsJoin(p1 + d[3..6], ".");
    DigitsAndSeparatorsJoin(p2, d[6..9]);
    var p3 := p2 + d[6..9] + "-";
    DigitsAndSeparatorsJoin(p2 + d[6..9], "-");
    DigitsAndSeparatorsJoin(p3, d[9..]);
  }

  /** The CNPJ mask is digits and separators. */
  lemma CnpjMaskSeparated(d: string)
    requires |d| == 14 && AllDigits(d)
    ensures DigitsAndSeparators(Validators.CnpjMask(d))
  {
    DigitSliceOnly(d, 0, 2);
    DigitSliceOnly(d, 2, 5);
    DigitSliceOnly(d, 5, 8);
    DigitSliceOnly(d, 8, 12);
    DigitSliceOnly(d, 12, 14);
    assert d[12..] == d[12..14];
    var p1 := d[..2] + ".";
    DigitsAndSeparatorsJoin(d[..2], ".");
    DigitsAndSeparatorsJoin(p1, d[2..5]);
    var p2 := p1 + d[2..5] + ".";
    DigitsAndSeparatorsJoin(p1 + d[2..5], ".");
    DigitsAndSeparatorsJoin(p2, d[5..8]);
    var p3 := p2 + d[5..8] + "/";
    DigitsAndSeparatorsJoin(p2 + d[5..8], "/");
    DigitsAndSeparatorsJoin(p3, d[8..12]);
    var p4 := p3 + d[8..12] + "-";
    DigitsAndSeparatorsJoin(p3 + d[8..12], "-");
    DigitsAndSeparatorsJoin(p4, d[12..]);
  }

  /** A formatted CPF or CNPJ and its bare digits name the same schema, the one
      `CustomUser.save` would store. */
  lemma SanitizeFormatted(doc: string)
    requires |KeepDigits(doc)| == 11 || |KeepDigits(doc)| == 14
    ensures |KeepDigits(doc)| == 11 ==>
      SanitizeSchemaName(Validators.FormatarCpf(doc)) == Some(Users.SchemaPrefix + KeepDigits(doc))
    ensures |KeepDigits(doc)| == 14 ==>
      SanitizeSchemaName(Validators.FormatarCnpj(doc)) == Some(Users.SchemaPrefix + KeepDigits(doc))
  {
    var d := KeepDigits(doc);
    if |d| == 11 {
      var f := Validators.FormatarCpf(doc);
      CpfMaskSeparated(d);
      DropSeparatorsKeepsDigits(f);
    } else {
      var f := Validators.FormatarCnpj(doc);
      CnpjMaskSeparated(d);
      DropSeparatorsKeepsDigits(f);
    }
  }

  /** The tenant the connection carries between `process_request` and `process_response`;
      None is an attribute that is not set. */
  datatype Connection = Connection(tenantId: Option<int>, schemaName: Option<string>)

  /** The identifier a schema is named after: the CPF, else the CNPJ, else "id_<id>". */
  function Identifier(u: Users.User): (r: string)
    ensures r != []
    ensures u.cpf != [] ==> r == u.cpf
    ensures u.cpf == [] && u.cnpj != [] ==> r == u.cnpj
  {
    if u.cpf != [] then u.cpf
    else if u.cnpj != [] then u.cnpj
    else "id_" + NatToDigits(u.id)
  }

  /** `TenantMiddleware.process_request`. `user` is the authenticated user as reloaded
      from the database; None stands for an anonymous request, a user that no longer
      exists, and a lookup that failed, all of which leave the connection cleared. */
  function ProcessRequest(conn: Connection, user: Option<Users.User>): (r: Connection)
    ensures user.None? ==> r == Connection(None, None)
    ensures user.Some? ==> r.tenantId == Some(user.value.id as int)
    ensures user.Some? ==> r.schemaName == SanitizeSchemaName(Identifier(user.value))
  {
    match user
    case None => Connection(None, None)
    case Some(u) =>
      var schema := match SanitizeSchemaName(Identifier(u))
        case Some(s) => s
        case None => Users.SchemaPrefix + NatToDigits(u.id);
      Connection(Some(u.id as int), Some(schema))
  }

  /** Whatever the previous request left on the connection is forgotten. */
  lemma ProcessRequestForgets(a: Connection, b: Connection, user: Option<Users.User>)
    ensures ProcessRequest(a, user) == ProcessRequest(b, user)
  {
  }

  /** `TenantMiddleware.process_response`: the tenant is removed again. */
  function ProcessResponse(conn: Connection): (r: Connection)
    ensures r.tenantId.None? && r.schemaName.None?
  {
    Connection(None, None)
  }

  /** A request/response cycle leaves no tenant behind, whatever it started from. */
  lemma RequestCycleClears(conn: Connection, user: Option<Users.User>)
    ensures ProcessResponse(ProcessRequest(conn, user)) == Connection(None, None)
  {
  }

  /** For a user who went through `clean` and `save`, the middleware selects exactly the
      schema that was stored on the user, and `pode_acessar_schema` grants it. */
  lemma MiddlewareSelectsSavedSchema(u: Users.User, conn: Connection)
    requires Users.Clean(u).Ok? && u.schemaName == [] && u.tipo != Users.Outro
    requires KeepDigits(Users.GetDocumento(u).value) != []
    ensures var v := Users.Save(Users.Clean(u).value);
      ProcessRequest(conn, Some(v)) == Connection(Some(v.id as int), Some(v.schemaName))
      && Users.PodeAcessarSchema(v, ProcessRequest(conn, Some(v)).schemaName.value)
  {
    var c := Users.Clean(u).value;
    var v := Users.Save(c);
    KeepDigitsIdempotent(u.cpf);
    KeepDigitsIdempotent(u.cnpj);
    var doc := if u.tipo == Users.Fisica then c.cpf else c.cnpj;
    assert doc == KeepDigits(Users.GetDocumento(u).value) && doc != [];
    assert Identifier(v) == doc;
    assert forall i :: 0 <= i < |doc| ==> doc[i] !in Separators by {
      forall i | 0 <= i < |doc| ensures doc[i] !in Separators {
        assert IsDigit(doc[i]);
      }
    }
    assert SanitizeSchemaName(doc) == Some(Users.SchemaPrefix + doc);
  }

  /** `get_client_ip`: the first entry of X-Forwarded-For when the header is non-empty
      (not trimmed), otherwise REMOTE_ADDR. */
  function GetClientIp(forwardedFor: Option<string>, remoteAddr: Option<string>): (r: Option<string>)
    ensures forwardedFor.None? || forwardedFor == Some([]) ==> r == remoteAddr
    ensures forwardedFor.Some? && forwardedFor.value != [] ==>
      r.Some? && StartsWith(forwardedFor.value, r.value) && ',' !in r.value
  {
    match forwardedFor
    case Some(h) => if h != [] then Some(SplitFirst(h, ',')) else remoteAddr
    case None => remoteAddr
  }

  /** The first proxy hop ends at the first comma, or is the whole header. */
  lemma ClientIpFirstHop(a: string, rest: string, remoteAddr: Option<string>)
    requires a != [] && ',' !in a
    ensures GetClientIp(Some(a + "," + rest), remoteAddr) == Some(a)
    ensures GetClientIp(Some(a), remoteAddr) == Some(a)
  {
    SplitFirstAt(a, "," + rest, ',');
    assert a + "," + rest == a + ("," + rest);
    SplitFirstWhole(a, ',');
  }

  /** Settings of the resource monitor: MAX_REQUEST_TIME and IMPORT_TIMEOUT, each None
      when the setting is absent. */
  const DefaultMaxRequestTime: int := 60
  const DefaultImportTimeout: int := 120

  /** `ResourceMonitorMiddleware.process_request`: admin and static paths get no
      timeout; a path mentioning `importar_transacoes` gets the import timeout; every
      other path the request timeout. */
  function RequestTimeout(path: string, maxRequestTime: Option<int>, importTimeout: Option<int>): (r: Option<int>)
    ensures StartsWith(path, "/admin/") || StartsWith(path, "/static/") ==> r.None?
    ensures r.Some? ==> !StartsWith(path, "/admin/") && !StartsWith(path, "/static/")
    ensures r.Some? && Contains(path, "importar_transacoes") ==>
      r.value == importTimeout.GetOr(DefaultImportTimeout)
    ensures r.Some? && !Contains(path, "importar_transacoes") ==>
      r.value == maxRequestTime.GetOr(DefaultMaxRequestTime)
  {
    if StartsWith(path, "/admin/") || StartsWith(path, "/static/") then None
    else if Contains(path, "importar_transacoes") then Some(importTimeout.GetOr(DefaultImportTimeout))
    else Some(maxRequestTime.GetOr(DefaultMaxRequestTime))
  }

  /** With no settings, an import page may take two minutes. */
  lemma ImportTimeout(suffix: string)
    ensures RequestTimeout("/importar_transacoes/" + suffix, None, None) == Some(120)
  {
    var p := "/importar_transacoes/" + suffix;
    assert OccursAt(p, "importar_transacoes", 1) by {
      assert p[1..20] == "importar_transacoes";
    }
    assert p[1] == 'i';
  }

  /** With no settings, any other page may take one minute. */
  lemma PageTimeout()
    ensures RequestTimeout("/dashboard/", None, None) == Some(60)
  {
    var p := "/dashboard/";
    assert !Contains(p, "importar_transacoes");
    assert p[1] == 'd';
    assert !StartsWith(p, "/admin/") && !StartsWith(p, "/static/");
  }

  /** The admin pages are never limited. */
  lemma AdminUntimed(suffix: string)
    ensures RequestTimeout("/admin/" + suffix, None, None).None?
  {
    var a := "/admin/" + suffix;
    assert a[..7] == "/admin/";
  }
}

=== FILE: money.dfy ===
/** Money text primitives shared by the three currency codecs: reading plain decimal
    literals, rounding to whole cents, and the Brazilian rendering `1.234,56`, in which
    '.' groups the integer digits in threes and ',' introduces exactly two cent digits. */
module Money {
  import opened Wrappers
  import opened Text

  // ---------------------------------------------------------------- reading decimals

  /** The longest run of digits at the start of `s`. */
  function TakeDigits(s: string): (r: string)
    ensures AllDigits(r) && StartsWith(s, r)
    ensures |r| == |s| || !IsDigit(s[|r|])
  {
    if s != [] && IsDigit(s[0]) then [s[0]] + TakeDigits(s[1..]) else []
  }

  lemma {:induction false} TakeDigitsStops(a: string, b: string)
    requires AllDigits(a) && (b == [] || !IsDigit(b[0]))
    ensures TakeDigits(a + b) == a
  {
    if a == [] {
      assert a + b == b;
    } else {
      assert (a + b)[1..] == a[1..] + b;
      TakeDigitsStops(a[1..], b);
    }
  }

  /** The value of the digits after a decimal point, read from the right: each digit is
      worth a tenth of the one before it. */
  function FractionValue(b: string): (v: real)
    requires AllDigits(b)
    ensures 0.0 <= v < 1.0
  {
    if b == [] then 0.0
    else
      assert AllDigits(b[1..]) by {
        assert forall i :: 0 <= i < |b[1..]| ==> b[1..][i] == b[i + 1];
      }
      (DigitValue(b[0]) as real + FractionValue(b[1..])) / 10.0
  }

  /** Two fraction digits are a number of hundredths. */
  lemma FractionTwoDigits(t: string)
    requires AllDigits(t) && |t| == 2
    ensures FractionValue(t) == NatOf(t) as real / 100.0
  {
    assert t[1..][1..] == [];
    assert t[..1][..0] == [];
    assert NatOf(t) == DigitValue(t[0]) * 10 + DigitValue(t[1]) by {
      assert NatOf(t[..1]) == DigitValue(t[0]);
    }
  }

  /** An unsigned plain decimal literal: `D+`, `D+.D*` or `.D+`, and its value. */
  function ParseUnsigned(s: string): (r: Option<real>)
    ensures r.Some? ==> r.value >= 0.0
    ensures r.Some? ==> s != [] && forall i :: 0 <= i < |s| ==> IsDigit(s[i]) || s[i] == '.'
  {
    var a := TakeDigits(s);
    var rest := s[|a|..];
    if rest == [] then
      if a == [] then None else Some(NatOf(a) as real)
    else if rest[0] == '.' && AllDigits(rest[1..]) && (a != [] || |rest| > 1) then
      assert forall i :: |a| < i < |s| ==> s[i] == rest[1..][i - |a| - 1];
      Some(NatOf(a) as real + FractionValue(rest[1..]))
    else
      None
  }

  /** Python's `Decimal(s)` on plain decimal literals: an optional sign, then an unsigned
      literal. Exponents, `NaN`, `Infinity` and digit underscores are not part of this model. */
  function ParseDecimal(s: string): (r: Option<real>)
    ensures r.Some? ==> ',' !in s
    ensures r.Some? ==> s != [] && (IsDigit(s[0]) || s[0] in "+-.")
    ensures r.Some? && r.value < 0.0 ==> s[0] == '-'
  {
    if s != [] && (s[0] == '+' || s[0] == '-') then
      match ParseUnsigned(s[1..])
      case None => None
      case Some(v) =>
        assert forall i :: 1 <= i < |s| ==> s[i] == s[1..][i - 1];
        Some(if s[0] == '-' then -v else v)
    else
      ParseUnsigned(s)
  }

  /** A literal has at most one decimal point. */
  lemma ParseUnsignedTwoPoints(s: string, i: nat, j: nat)
    requires i < j < |s| && s[i] == '.' && s[j] == '.'
    ensures ParseUnsigned(s) == None
  {
    var a := TakeDigits(s);
    assert |a| <= i;
    var rest := s[|a|..];
    assert rest[j - |a|] == '.';
    if rest[0] == '.' {
      assert rest[1..][j - |a| - 1] == '.';
    }
  }

  /** Nor does a signed literal have two decimal points. */
  lemma ParseDecimalTwoPoints(s: string, i: nat, j: nat)
    requires i < j < |s| && s[i] == '.' && s[j] == '.'
    ensures ParseDecimal(s) == None
  {
    if s[0] == '+' || s[0] == '-' {
      assert s[1..][i - 1] == '.' && s[1..][j - 1] == '.';
      ParseUnsignedTwoPoints(s[1..], i - 1, j - 1);
    } else {
      ParseUnsignedTwoPoints(s, i, j);
    }
  }

  /** Bare digits are read as the whole number they spell. */
  lemma ParseDecimalDigits(d: string)
    requires d != [] && AllDigits(d)
    ensures ParseDecimal(d) == Some(NatOf(d) as real)
  {
    assert TakeDigits(d) == d by {
      TakeDigitsStops(d, []);
      assert d + [] == d;
    }
    assert d[|d|..] == [];
    assert ParseUnsigned(d) == Some(NatOf(d) as real);
  }

  /** Nothing is a decimal that does not start with a digit, a sign or a point. */
  lemma ParseDecimalStart(s: string)
    requires s != [] && !IsDigit(s[0]) && s[0] != '+' && s[0] != '-' && s[0] != '.'
    ensures ParseDecimal(s) == None
  {
  }

  /** Whole units, a point and two cent digits: how `str()` shows a two-place amount. */
  function PointText(c: nat): (r: string)
    ensures |r| >= 4 && r[|r| - 3] == '.'
  {
    NatToDigits(c / 100) + "." + TwoDigits(c % 100)
  }

  function Cents(c: int): real {
    c as real / 100.0
  }

  lemma CentsSplit(c: nat)
    ensures (c / 100) as real + (c % 100) as real / 100.0 == Cents(c)
  {
    assert c == 100 * (c / 100) + c % 100;
  }

  /** A two-place amount written with a decimal point reads back as that amount. */
  lemma ParsePointText(c: nat)
    ensures ParseUnsigned(PointText(c)) == Some(Cents(c))
    ensures ParseDecimal(PointText(c)) == Some(Cents(c))
  {
    var a, b := NatToDigits(c / 100), TwoDigits(c % 100);
    var s := a + "." + b;
    assert s == a + ("." + b);
    TakeDigitsStops(a, "." + b);
    assert s[|a|..] == "." + b;
    assert ("." + b)[1..] == b;
    FractionTwoDigits(b);
    CentsSplit(c);
  }

  // ---------------------------------------------------------------- rounding

  /** Rounding to the nearest integer with ties to even: Python's Decimal default context,
      used by `format(value, '.2f')`. */
  function RoundHalfEven(x: real): (n: int)
    ensures -0.5 <= n as real - x <= 0.5
    ensures (n as real - x == 0.5 || x - n as real == 0.5) ==> n % 2 == 0
  {
    var f := x.Floor;
    var d := x - f as real;
    if d < 0.5 then f
    else if d > 0.5 then f + 1
    else if f % 2 == 0 then f
    else f + 1
  }

  /** Rounding to the nearest integer with ties upwards. On a magnitude this is the
      "half away from zero" rule of `toLocaleString`. */
  function RoundHalfUp(x: real): (n: int)
    ensures -0.5 < n as real - x <= 0.5
  {
    (x + 0.5).Floor
  }

  /** Whole numbers are left alone by both roundings. */
  lemma RoundWhole(n: int)
    ensures RoundHalfEven(n as real) == n && RoundHalfUp(n as real) == n
  {
  }

  /** The two roundings differ exactly on ties at an odd floor; 0.125 → 12 vs 13 cents. */
  lemma RoundingsDiffer()
    ensures RoundHalfEven(0.125 * 100.0) == 12
    ensures RoundHalfUp(0.125 * 100.0) == 13
  {
  }

  // ---------------------------------------------------------------- grouping

  /** The integer digits `s` with a '.' before every group of three counted from the right. */
  function Group3(s: string): (r: string)
    ensures |s| <= 3 ==> r == s
    ensures AllDigits(s) && s != [] ==> IsGrouped(r)
  {
    if |s| <= 3 then s
    else
      var g, t := Group3(s[..|s| - 3]), s[|s| - 3..];
      var r := g + "." + t;
      assert r[..|r| - 4] == g && r[|r| - 3..] == t;
      r
  }

  lemma {:induction false} GroupedHead(r: string)
    requires IsGrouped(r)
    ensures IsDigit(r[0])
    decreases |r|
  {
    if |r| > 3 {
      GroupedHead(r[..|r| - 4]);
    }
  }

  /** The shape of a grouped integer: one to three digits, then any number of ".DDD". */
  predicate IsGrouped(r: string) {
    if |r| <= 3 then r != [] && AllDigits(r)
    else |r| >= 5 && r[|r| - 4] == '.' && AllDigits(r[|r| - 3..]) && IsGrouped(r[..|r| - 4])
  }

  /** Removing the separators from a grouped integer gives back its digits. */
  lemma UngroupGroup(s: string)
    requires AllDigits(s)
    ensures Drop(Group3(s), {'.'}) == s
    ensures KeepDigits(Group3(s)) == s
  {
    DropGroup(s);
    KeepDigitsGroup(s);
  }

  lemma {:induction false} DropGroup(s: string)
    requires AllDigits(s)
    ensures Drop(Group3(s), {'.'}) == s
  {
    if |s| <= 3 {
      DropNothing(s, {'.'});
    } else {
      var p, t := s[..|s| - 3], s[|s| - 3..];
      DropGroup(p);
      DropJoin(Group3(p), '.', t, {'.'});
      DropNothing(t, {'.'});
      assert p + t == s;
    }
  }

  lemma {:induction false} KeepDigitsGroup(s: string)
    requires AllDigits(s)
    ensures KeepDigits(Group3(s)) == s
  {
    if |s| <= 3 {
      KeepDigitsOfDigits(s);
    } else {
      var p, t := s[..|s| - 3], s[|s| - 3..];
      KeepDigitsGroup(p);
      KeepDigitsJoin(Group3(p), '.', t);
      KeepDigitsOfDigits(t);
      assert p + t == s;
    }
  }

  /** Conversely, a grouped integer is the grouping of its own digits. */
  lemma {:induction false} GroupUngroup(r: string)
    requires IsGrouped(r)
    ensures AllDigits(Drop(r, {'.'}))
    ensures Group3(Drop(r, {'.'})) == r
    decreases |r|
  {
    GroupedChars(r);
    DropDotsDigits(r);
    if |r| <= 3 {
      DropNothing(r, {'.'});
    } else {
      var p, t := r[..|r| - 4], r[|r| - 3..];
      assert r == p + "." + t;
      GroupUngroup(p);
      DropJoin(p, '.', t, {'.'});
      DropNothing(t, {'.'});
      var dp := Drop(p, {'.'});
      var d := dp + t;
      assert d[..|d| - 3] == dp && d[|d| - 3..] == t;
    }
  }

  /** Digits and points, with the points dropped, leave digits only. */
  lemma {:induction false} DropDotsDigits(r: string)
    requires forall i :: 0 <= i < |r| ==> IsDigit(r[i]) || r[i] == '.'
    ensures AllDigits(Drop(r, {'.'}))
  {
    if r != [] {
      DropDotsDigits(r[1..]);
      var rest := Drop(r[1..], {'.'});
      var d := Drop(r, {'.'});
      assert d == (if r[0] == '.' then [] else [r[0]]) + rest;
      assert forall i :: 0 <= i < |rest| ==> IsDigit(rest[i]);
    }
  }

  /** Python's `'.'.join(r[i:i+3] for i in range(0, len(r), 3))`: chunks of three from the left. */
  function ChunkJoin(r: string): (j: string)
    decreases |r|
  {
    if |r| <= 3 then r else r[..3] + "." + ChunkJoin(r[3..])
  }

  /** Reversing, chunking from the left and reversing back is grouping from the right. */
  lemma {:induction false} ChunkJoinGroups(s: string)
    ensures Reverse(ChunkJoin(Reverse(s))) == Group3(s)
    decreases |s|
  {
    var rs := Reverse(s);
    if |s| <= 3 {
      ReverseReverse(s);
    } else {
      var p, t := s[..|s| - 3], s[|s| - 3..];
      assert s == p + t;
      ReverseAppend(p, t);
      assert rs[..3] == Reverse(t) && rs[3..] == Reverse(p);
      ChunkJoinGroups(p);
      var cj := ChunkJoin(Reverse(p));
      assert ChunkJoin(rs) == Reverse(t) + ("." + cj);
      ReverseAppend(Reverse(t), "." + cj);
      ReverseAppend(".", cj);
      ReverseReverse(t);
      assert Reverse(".") == ".";
    }
  }

  // ---------------------------------------------------------------- Brazilian rendering

  /** A non-negative cent count rendered as `1.234,56`. */
  function FormatCents(c: nat): (r: string)
    ensures |r| >= 4 && r[|r| - 3] == ','
    ensures AllDigits(r[|r| - 2..]) && IsGrouped(r[..|r| - 3])
    ensures forall i :: 0 <= i < |r| ==> IsDigit(r[i]) || r[i] == '.' || r[i] == ','
  {
    var g, t := Group3(NatToDigits(c / 100)), TwoDigits(c % 100);
    var r := g + "," + t;
    assert r[..|r| - 3] == g && r[|r| - 2..] == t;
    GroupedChars(g);
    forall i | 0 <= i < |r| ensures IsDigit(r[i]) || r[i] == '.' || r[i] == ',' {
      if i < |g| { assert r[i] == g[i]; } else if i > |g| { assert r[i] == t[i - |g| - 1]; }
    }
    r
  }

  lemma {:induction false} GroupedChars(g: string)
    requires IsGrouped(g)
    ensures forall i :: 0 <= i < |g| ==> IsDigit(g[i]) || g[i] == '.'
    decreases |g|
  {
    if |g| > 3 {
      var p := g[..|g| - 4];
      GroupedChars(p);
      forall i | 0 <= i < |g| ensures IsDigit(g[i]) || g[i] == '.' {
        if i < |p| { assert g[i] == p[i]; } else if i > |p| { assert g[i] == g[|g| - 3..][i - |p| - 1]; }
      }
    }
  }

  /** The digits of a rendering, read as one number, are the cent count. */
  lemma FormatCentsDigits(c: nat)
    ensures KeepDigits(FormatCents(c)) == NatToDigits(c / 100) + TwoDigits(c % 100)
    ensures NatOf(KeepDigits(FormatCents(c))) == c
  {
    var a, t := NatToDigits(c / 100), TwoDigits(c % 100);
    UngroupGroup(a);
    KeepDigitsJoin(Group3(a), ',', t);
    KeepDigitsOfDigits(t);
    NatOfAppend(a, t);
    assert Pow10(2) == 100;
  }

  /** With the group separators removed, a rendering is `units,cents`. */
  lemma FormatCentsUngrouped(c: nat)
    ensures Drop(FormatCents(c), {'.'}) == NatToDigits(c / 100) + "," + TwoDigits(c % 100)
  {
    var a, t := NatToDigits(c / 100), TwoDigits(c % 100);
    UngroupGroup(a);
    DropAppend(Group3(a) + ",", t, {'.'});
    DropAppend(Group3(a), ",", {'.'});
    DropNothing(t, {'.'});
    assert Drop(",", {'.'}) == ",";
  }

  /** Different cent counts never share a rendering. */
  lemma FormatCentsInjective(c: nat, d: nat)
    requires FormatCents(c) == FormatCents(d)
    ensures c == d
  {
    FormatCentsDigits(c);
    FormatCentsDigits(d);
  }

  /** A signed cent count: a '-' in front of the magnitude for negative amounts. */
  function FormatSignedCents(c: int): (r: string)
    ensures |r| >= 4 && r[|r| - 3] == ','
    ensures c < 0 <==> r[0] == '-'
  {
    var m := FormatCents(if c < 0 then -c else c);
    GroupedHead(m[..|m| - 3]);
    if c < 0 then "-" + m else m
  }

  /** A magnitude's rendering with a '-' in front when `negative`: the '-' keeps the
      shape, the grouping, the two fraction digits and the cent count. */
  function SignedRendering(negative: bool, c: nat): (r: string)
    ensures |r| >= 4 && r[|r| - 3] == ','
    ensures negative <==> r[0] == '-'
    ensures NatOf(KeepDigits(r)) == c
    ensures AllDigits(r[|r| - 2..]) && IsGrouped(r[(if negative then 1 else 0)..|r| - 3])
  {
    var f := FormatCents(c);
    FormatCentsDigits(c);
    assert IsDigit(f[0]) by {
      GroupedHead(f[..|f| - 3]);
      assert f[0] == f[..|f| - 3][0];
    }
    if negative then
      MinusKeepsDigits(f);
      "-" + f
    else
      f
  }

  lemma MinusKeepsDigits(f: string)
    requires |f| >= 4
    ensures var r := "-" + f; r[|r| - 3] == f[|f| - 3] && r[0] == '-' && KeepDigits(r) == KeepDigits(f)
    ensures var r := "-" + f; r[1..|r| - 3] == f[..|f| - 3] && r[|r| - 2..] == f[|f| - 2..]
  {
    var r := "-" + f;
    assert r[1..] == f;
    assert r[1..|r| - 3] == r[1..][..|f| - 3];
    KeepDigitsAppend("-", f);
    assert KeepDigits("-") == [];
  }

  /** The sign of a cent amount and its magnitude times 100. */
  lemma CentsMagnitude(c: int)
    ensures Cents(c) < 0.0 <==> c < 0
    ensures (if Cents(c) < 0.0 then -Cents(c) else Cents(c)) * 100.0 == (if c < 0 then -c else c) as real
    ensures RoundHalfEven((if Cents(c) < 0.0 then -Cents(c) else Cents(c)) * 100.0) == if c < 0 then -c else c
    ensures RoundHalfUp((if Cents(c) < 0.0 then -Cents(c) else Cents(c)) * 100.0) == if c < 0 then -c else c
  {
    RoundWhole(if c < 0 then -c else c);
  }

  lemma FormatCentsExamples()
    ensures FormatCents(0) == "0,00"
    ensures FormatCents(12) == "0,12"
    ensures FormatCents(123456) == "1.234,56"
  {
    SmallCentsExamples();
    ThousandsExample();
  }

  lemma SmallCentsExamples()
    ensures FormatCents(0) == "0,00"
    ensures FormatCents(12) == "0,12"
  {
    assert NatToDigits(0) == "0";
    assert TwoDigits(0) == "00" && TwoDigits(12) == "12";
  }

  lemma ThousandsExample()
    ensures FormatCents(123456) == "1.234,56"
  {
    assert 123456 / 100 == 1234 && 123456 % 100 == 56;
    NatToDigitsExample();
    assert Group3("1234") == "1.234" by {
      assert "1234"[..1] == "1" && "1234"[1..] == "234";
    }
    assert TwoDigits(56) == "56";
    assert "1.234" + "," + "56" == "1.234,56";
  }

  lemma NatToDigitsExample()
    ensures NatToDigits(1234) == "1234"
  {
    assert NatToDigits(12) == "12";
    assert NatToDigits(123) == "123";
  }
}

=== FILE: tenancy.dfy ===
/** `TenantManager`: every row carries the id of the user it belongs to, and while a
    tenant is set on the connection the manager shows, creates and bulk-creates rows of
    that tenant only. The queryset is a sequence of rows in database order. */
module Tenancy {
  import opened Wrappers

  datatype Row<T> = Row(tenantId: Option<int>, data: T)

  /** The connection's tenant counts only when present and truthy (0 is falsy in Python). */
  predicate Active(current: Option<int>) {
    current.Some? && current.value != 0
  }

  /** `get_queryset`: the rows of the current tenant, in order; every row when none is set. */
  function Visible<T>(rows: seq<Row<T>>, current: Option<int>): (r: seq<Row<T>>)
    ensures |r| <= |rows|
    ensures !Active(current) ==> r == rows
    ensures Active(current) ==> forall i :: 0 <= i < |r| ==> r[i].tenantId == current
  {
    if rows == [] then []
    else
      var rest := Visible(rows[1..], current);
      if !Active(current) || rows[0].tenantId == current then [rows[0]] + rest else rest
  }

  /** A row is visible exactly when it is stored and belongs to the current tenant. */
  lemma {:induction false} VisibleIff<T>(rows: seq<Row<T>>, current: Option<int>, x: Row<T>)
    requires Active(current)
    ensures x in Visible(rows, current) <==> x in rows && x.tenantId == current
  {
    if rows != [] {
      VisibleIff(rows[1..], current, x);
      assert rows == [rows[0]] + rows[1..];
    }
  }

  /** Filtering a concatenation filters each part. */
  lemma {:induction false} VisibleAppend<T>(a: seq<Row<T>>, b: seq<Row<T>>, current: Option<int>)
    ensures Visible(a + b, current) == Visible(a, current) + Visible(b, current)
  {
    if a == [] {
      assert a + b == b;
    } else {
      assert (a + b)[1..] == a[1..] + b;
      VisibleAppend(a[1..], b, current);
    }
  }

  /** The row `create` stores: stamped with the current tenant when one is set. */
  function Stamp<T>(row: Row<T>, current: Option<int>): (r: Row<T>)
    ensures r.data == row.data
    ensures Active(current) ==> r.tenantId == current
    ensures !Active(current) ==> r == row
  {
    if Active(current) then row.(tenantId := current) else row
  }

  /** `create`: the stamped row is appended. */
  function Create<T>(rows: seq<Row<T>>, current: Option<int>, row: Row<T>): (r: seq<Row<T>>)
    ensures |r| == |rows| + 1 && r[..|rows|] == rows && r[|rows|].data == row.data
  {
    rows + [Stamp(row, current)]
  }

  /** Whatever tenant id the caller passed, the created row shows up last among the
      current tenant's rows, after the ones it already had. */
  lemma CreateVisible<T>(rows: seq<Row<T>>, current: Option<int>, row: Row<T>)
    requires Active(current)
    ensures Visible(Create(rows, current, row), current) == Visible(rows, current) + [Stamp(row, current)]
  {
    VisibleAppend(rows, [Stamp(row, current)], current);
    assert [Stamp(row, current)][1..] == [];
  }

  /** `bulk_create`: rows without a tenant get the current one; rows that have one keep it. */
  function BulkFill<T>(objs: seq<Row<T>>, current: Option<int>): (r: seq<Row<T>>)
    ensures |r| == |objs|
    ensures forall i :: 0 <= i < |r| ==> r[i].data == objs[i].data
    ensures forall i :: 0 <= i < |r| ==> objs[i].tenantId.Some? ==> r[i] == objs[i]
    ensures forall i :: 0 <= i < |r| ==> objs[i].tenantId.None? ==>
      r[i].tenantId == if Active(current) then current else None
  {
    if objs == [] then []
    else
      var o := objs[0];
      [if o.tenantId.None? && Active(current) then o.(tenantId := current) else o]
      + BulkFill(objs[1..], current)
  }

  /** `bulk_create` appends the filled rows. */
  function BulkCreate<T>(rows: seq<Row<T>>, current: Option<int>, objs: seq<Row<T>>): (r: seq<Row<T>>)
    ensures |r| == |rows| + |objs| && r[..|rows|] == rows
    ensures Active(current) ==> forall i :: |rows| <= i < |r| ==> r[i].tenantId.Some?
  {
    rows + BulkFill(objs, current)
  }
}

=== FILE: text.dfy ===
/** Character and string helpers shared by the validators, the currency codecs and the
    middleware: ASCII digit handling, decimal rendering of naturals, Python-style strip,
    case folding, searching and character replacement. */
module Text {

  predicate IsDigit(c: char) { '0' <= c <= '9' }

  predicate AllDigits(s: string) { forall i :: 0 <= i < |s| ==> IsDigit(s[i]) }

  function DigitValue(c: char): (d: nat)
    requires IsDigit(c)
    ensures d < 10
  {
    c as int - '0' as int
  }

  function DigitChar(d: nat): (c: char)
    requires d < 10
    ensures IsDigit(c) && DigitValue(c) == d
  {
    ('0' as int + d) as char
  }

  function Pow10(k: nat): (p: nat)
    ensures p >= 1
  {
    if k == 0 then 1 else 10 * Pow10(k - 1)
  }

  /** The digits of `s`, in order: what `re.sub(r'\D', '', s)` and the browser's
      `replace(/\D/g, '')` leave behind (ASCII digits). */
  function KeepDigits(s: string): (r: string)
    ensures AllDigits(r)
    ensures |r| <= |s|
  {
    if s == [] then [] else (if IsDigit(s[0]) then [s[0]] else []) + KeepDigits(s[1..])
  }

  lemma {:induction false} KeepDigitsAppend(a: string, b: string)
    ensures KeepDigits(a + b) == KeepDigits(a) + KeepDigits(b)
  {
    if a == [] {
      assert a + b == b;
    } else {
      assert (a + b)[1..] == a[1..] + b;
      KeepDigitsAppend(a[1..], b);
    }
  }

  lemma {:induction false} KeepDigitsOfDigits(s: string)
    requires AllDigits(s)
    ensures KeepDigits(s) == s
  {
    if s != [] {
      KeepDigitsOfDigits(s[1..]);
    }
  }

  /** Removing non-digits twice is the same as removing them once. */
  lemma KeepDigitsIdempotent(s: string)
    ensures KeepDigits(KeepDigits(s)) == KeepDigits(s)
  {
    KeepDigitsOfDigits(KeepDigits(s));
  }

  /** A non-digit separator contributes nothing to the digits of a join. */
  lemma KeepDigitsJoin(a: string, c: char, b: string)
    requires !IsDigit(c)
    ensures KeepDigits(a + [c] + b) == KeepDigits(a) + KeepDigits(b)
  {
    assert [c][1..] == [];
    assert KeepDigits([c]) == [];
    KeepDigitsAppend(a, [c]);
    assert KeepDigits(a + [c]) == KeepDigits(a);
    KeepDigitsAppend(a + [c], b);
  }

  /** The number a string of decimal digits denotes (empty denotes 0). */
  function NatOf(s: string): nat
    requires AllDigits(s)
  {
    if s == [] then 0 else NatOf(s[..|s| - 1]) * 10 + DigitValue(s[|s| - 1])
  }

  lemma {:induction false} NatOfAppend(a: string, b: string)
    requires AllDigits(a) && AllDigits(b)
    ensures AllDigits(a + b)
    ensures NatOf(a + b) == NatOf(a) * Pow10(|b|) + NatOf(b)
  {
    assert AllDigits(a + b) by {
      forall i | 0 <= i < |a + b| ensures IsDigit((a + b)[i]) {
        if i < |a| { assert (a + b)[i] == a[i]; } else { assert (a + b)[i] == b[i - |a|]; }
      }
    }
    if b == [] {
      assert a + b == a;
    } else {
      var b' := b[..|b| - 1];
      var d := DigitValue(b[|b| - 1]);
      assert (a + b)[..|a + b| - 1] == a + b';
      assert (a + b)[|a + b| - 1] == b[|b| - 1];
      NatOfAppend(a, b');
      assert NatOf(a + b) == NatOf(a + b') * 10 + d;
      assert NatOf(b) == NatOf(b') * 10 + d;
      ShiftDigit(NatOf(a), Pow10(|b'|), NatOf(b'), d);
    }
  }

  /** The arithmetic step of `NatOfAppend`. */
  lemma ShiftDigit(x: nat, p: nat, y: nat, d: nat)
    ensures (x * p + y) * 10 + d == x * (10 * p) + (y * 10 + d)
  {
    assert (x * p) * 10 == x * (10 * p);
  }

  /** One more character at the end adds at most that character to the digits. */
  lemma KeepDigitsSnoc(s: string, c: char)
    ensures KeepDigits(s + [c]) == KeepDigits(s) + (if IsDigit(c) then [c] else [])
  {
    KeepDigitsAppend(s, [c]);
    assert [c][1..] == [];
  }

  /** A digit appended to a numeral shifts its value one decimal place. */
  lemma NatOfSnoc(s: string, c: char)
    requires AllDigits(s) && IsDigit(c)
    ensures AllDigits(s + [c])
    ensures NatOf(s + [c]) == NatOf(s) * 10 + DigitValue(c)
  {
    assert (s + [c])[..|s|] == s;
  }

  /** The canonical decimal rendering of `n`: no leading zero unless `n` is 0. */
  function NatToDigits(n: nat): (r: string)
    ensures AllDigits(r) && |r| >= 1
    ensures NatOf(r) == n
    ensures |r| > 1 ==> r[0] != '0'
  {
    if n < 10 then [DigitChar(n)]
    else
      var p := NatToDigits(n / 10);
      assert (p + [DigitChar(n % 10)])[..|p|] == p;
      p + [DigitChar(n % 10)]
  }

  /** `n` rendered with exactly two digits, as the cents part of an amount. */
  function TwoDigits(n: nat): (r: string)
    requires n < 100
    ensures |r| == 2 && AllDigits(r) && NatOf(r) == n
  {
    var r := [DigitChar(n / 10), DigitChar(n % 10)];
    assert r[..1] == [DigitChar(n / 10)] && r[..1][..0] == [];
    assert NatOf(r[..1]) == n / 10;
    assert NatOf(r) == (n / 10) * 10 + n % 10;
    r
  }

  /** `n` rendered with exactly `width` digits, padded with leading zeros. */
  function PadDigits(n: nat, width: nat): (r: string)
    requires n < Pow10(width)
    ensures |r| == width && AllDigits(r) && NatOf(r) == n
  {
    if width == 0 then []
    else
      var p := PadDigits(n / 10, width - 1);
      assert (p + [DigitChar(n % 10)])[..|p|] == p;
      p + [DigitChar(n % 10)]
  }

  function Reverse<T>(s: seq<T>): (r: seq<T>)
    ensures |r| == |s|
    ensures forall i :: 0 <= i < |s| ==> r[i] == s[|s| - 1 - i]
  {
    if s == [] then [] else Reverse(s[1..]) + [s[0]]
  }

  lemma ReverseAppend<T>(a: seq<T>, b: seq<T>)
    ensures Reverse(a + b) == Reverse(b) + Reverse(a)
  {
  }

  lemma ReverseReverse<T>(s: seq<T>)
    ensures Reverse(Reverse(s)) == s
  {
  }

  /** The whitespace Python's `str.strip()` removes, restricted to Latin-1. */
  predicate IsSpace(c: char) {
    c == ' ' || c == '\t' || c == '\n' || c == '\r' || c == '\U{B}' || c == '\U{C}'
    || ('\U{1C}' <= c <= '\U{1F}') || c == '\U{85}' || c == '\U{A0}'
  }

  function StripLeft(s: string): (r: string)
    ensures |r| <= |s| && r == s[|s| - |r|..]
    ensures r == [] || !IsSpace(r[0])
  {
    if s != [] && IsSpace(s[0]) then StripLeft(s[1..]) else s
  }

  function StripRight(s: string): (r: string)
    ensures |r| <= |s| && r == s[..|r|]
    ensures r == [] || !IsSpace(r[|r| - 1])
  {
    if s != [] && IsSpace(s[|s| - 1]) then StripRight(s[..|s| - 1]) else s
  }

  /** Python's `str.strip()`: `s` without leading and trailing whitespace. */
  function Strip(s: string): (r: string)
    ensures r == [] || (!IsSpace(r[0]) && !IsSpace(r[|r| - 1]))
    ensures exists i, j :: 0 <= i <= j <= |s| && r == s[i..j]
  {
    var l := StripLeft(s);
    var r := StripRight(l);
    assert r == s[|s| - |l|..][..|r|] == s[|s| - |l|..|s| - |l| + |r|];
    r
  }

  /** A string without surrounding whitespace is left alone by Strip. */
  lemma StripTrimmed(s: string)
    requires s == [] || (!IsSpace(s[0]) && !IsSpace(s[|s| - 1]))
    ensures Strip(s) == s
  {
  }

  lemma StripIdempotent(s: string)
    ensures Strip(Strip(s)) == Strip(s)
  {
    StripTrimmed(Strip(s));
  }

  /** A string with no whitespace at all is left alone by Strip. */
  lemma StripNoSpace(s: string)
    requires forall i :: 0 <= i < |s| ==> !IsSpace(s[i])
    ensures Strip(s) == s
  {
    StripTrimmed(s);
  }

  /** The capitals of ASCII and Latin-1: 'A'..'Z' and 'À'..'Þ' except the sign '×'. */
  predicate IsUpper(c: char) {
    'A' <= c <= 'Z' || ('\U{C0}' <= c <= '\U{DE}' && c != '\U{D7}')
  }

  /** Each capital of ASCII and Latin-1 has its small letter 32 code points above it. */
  function LowerChar(c: char): (r: char)
    ensures IsUpper(c) ==> r as int == c as int + 32 && !IsUpper(r)
    ensures !IsUpper(c) ==> r == c
  {
    if IsUpper(c) then (c as int + 32) as char else c
  }

  /** Lower-casing of ASCII and Latin-1 text, as `toLowerCase()`/`lower()` act on it. */
  function Lower(s: string): (r: string)
    ensures |r| == |s| && forall i :: 0 <= i < |s| ==> r[i] == LowerChar(s[i])
  {
    if s == [] then [] else [LowerChar(s[0])] + Lower(s[1..])
  }

  predicate StartsWith(s: string, p: string) {
    |p| <= |s| && s[..|p|] == p
  }

  /** Substring search, as Python's `in` and JavaScript's `includes` on strings. */
  predicate Contains(s: string, p: string) {
    exists i :: 0 <= i <= |s| && OccursAt(s, p, i)
  }

  predicate OccursAt(s: string, p: string, i: nat) {
    i + |p| <= |s| && s[i..i + |p|] == p
  }

  /** `s` with every character of `cs` deleted (`re.sub('[...]', '', s)`, `replace(/x/g, '')`). */
  function Drop(s: string, cs: set<char>): (r: string)
    ensures |r| <= |s|
    ensures forall i :: 0 <= i < |r| ==> r[i] !in cs && r[i] in s
    ensures forall c :: c in s && c !in cs ==> c in r
  {
    if s == [] then []
    else
      var rest := Drop(s[1..], cs);
      assert forall c :: c in rest ==> c in s;
      assert forall c :: c in s ==> c == s[0] || c in s[1..];
      (if s[0] in cs then [] else [s[0]]) + rest
  }

  lemma {:induction false} DropAppend(a: string, b: string, cs: set<char>)
    ensures Drop(a + b, cs) == Drop(a, cs) + Drop(b, cs)
  {
    if a == [] {
      assert a + b == b;
    } else {
      assert (a + b)[1..] == a[1..] + b;
      DropAppend(a[1..], b, cs);
    }
  }

  /** A separator in `cs` contributes nothing to a join once `cs` is dropped. */
  lemma DropJoin(a: string, c: char, b: string, cs: set<char>)
    requires c in cs
    ensures Drop(a + [c] + b, cs) == Drop(a, cs) + Drop(b, cs)
  {
    assert [c][1..] == [];
    assert Drop([c], cs) == [];
    DropAppend(a, [c], cs);
    DropAppend(a + [c], b, cs);
    assert Drop(a + [c], cs) == Drop(a, cs);
  }

  lemma {:induction false} DropNothing(s: string, cs: set<char>)
    requires forall i :: 0 <= i < |s| ==> s[i] !in cs
    ensures Drop(s, cs) == s
  {
    if s != [] {
      DropNothing(s[1..], cs);
    }
  }

  /** Every occurrence of `a` replaced by `b` (Python's `str.replace`). */
  function ReplaceAll(s: string, a: char, b: char): (r: string)
    ensures |r| == |s|
    ensures forall i :: 0 <= i < |s| ==> r[i] == (if s[i] == a then b else s[i])
  {
    if s == [] then [] else [if s[0] == a then b else s[0]] + ReplaceAll(s[1..], a, b)
  }

  /** Only the first occurrence of `a` replaced by `b` (JavaScript's `replace` with a string pattern). */
  function ReplaceFirst(s: string, a: char, b: char): (r: string)
    ensures |r| == |s|
  {
    if s == [] then []
    else if s[0] == a then [b] + s[1..]
    else [s[0]] + ReplaceFirst(s[1..], a, b)
  }

  /** The first `a` is the one that is replaced; everything around it stays. */
  lemma {:induction false} ReplaceFirstAt(p: string, a: char, b: char, q: string)
    requires a !in p
    ensures ReplaceFirst(p + [a] + q, a, b) == p + [b] + q
  {
    if p == [] {
      assert p + [a] + q == [a] + q;
      assert ([a] + q)[1..] == q;
    } else {
      assert (p + [a] + q)[1..] == p[1..] + [a] + q;
      assert p[0] in p;
      ReplaceFirstAt(p[1..], a, b, q);
    }
  }

  /** The text before the first `c`, or all of `s` (Python's `s.split(c)[0]`). */
  function SplitFirst(s: string, c: char): (r: string)
    ensures StartsWith(s, r)
    ensures c !in r
    ensures |r| == |s| || s[|r|] == c
  {
    if s == [] then []
    else if s[0] == c then []
    else [s[0]] + SplitFirst(s[1..], c)
  }

  /** The text before the first `c` is everything up to a `c` the field does not contain. */
  lemma {:induction false} SplitFirstAt(a: string, b: string, c: char)
    requires c !in a && |b| > 0 && b[0] == c
    ensures SplitFirst(a + b, c) == a
  {
    if a != [] {
      assert (a + b)[1..] == a[1..] + b;
      SplitFirstAt(a[1..], b, c);
    } else {
      assert a + b == b;
    }
  }

  /** Without any `c`, the whole string is the first field. */
  lemma {:induction false} SplitFirstWhole(a: string, c: char)
    requires c !in a
    ensures SplitFirst(a, c) == a
  {
    if a != [] {
      SplitFirstWhole(a[1..], c);
    }
  }
}

=== FILE: users.dfy ===
/** The custom user record: a person ("fisica") identified by a CPF or a company
    ("juridica") identified by a CNPJ, and the database schema named after that document.
    A missing document (None) and an empty one are both the empty string here: the code
    only ever asks whether the field is truthy. */
module Users {
  import opened Wrappers
  import opened Text

  datatype TipoPessoa = Fisica | Juridica | Outro

  datatype User = User(
    id: nat,
    tipo: TipoPessoa,
    cpf: string,
    cnpj: string,
    schemaName: string,
    isSuperuser: bool)

  /** The four ValidationErrors of `clean`, one per field rule. */
  datatype CleanError = CpfObrigatorio | CnpjProibido | CnpjObrigatorio | CpfProibido

  /** The document rule `clean` enforces before it strips the formatting. */
  function DocumentError(u: User): (e: Option<CleanError>)
    ensures e.None? <==>
      (u.tipo == Fisica ==> u.cpf != [] && u.cnpj == []) &&
      (u.tipo == Juridica ==> u.cnpj != [] && u.cpf == [])
  {
    match u.tipo
    case Fisica =>
      if u.cpf == [] then Some(CpfObrigatorio)
      else if u.cnpj != [] then Some(CnpjProibido)
      else None
    case Juridica =>
      if u.cnpj == [] then Some(CnpjObrigatorio)
      else if u.cpf != [] then Some(CpfProibido)
      else None
    case Outro => None
  }

  /** `CustomUser.clean`: the document rule, then every non-digit is removed from a
      non-empty CPF and CNPJ. Nothing else changes. */
  function Clean(u: User): (r: Result<User, CleanError>)
    ensures r.Err? <==> DocumentError(u).Some?
    ensures r.Err? ==> r.error == DocumentError(u).value
    ensures r.Ok? ==> AllDigits(r.value.cpf) && AllDigits(r.value.cnpj)
    ensures r.Ok? ==> KeepDigits(r.value.cpf) == KeepDigits(u.cpf)
    ensures r.Ok? ==> KeepDigits(r.value.cnpj) == KeepDigits(u.cnpj)
    ensures r.Ok? ==> r.value.(cpf := u.cpf, cnpj := u.cnpj) == u
  {
    match DocumentError(u)
    case Some(e) => Err(e)
    case None =>
      KeepDigitsIdempotent(u.cpf);
      KeepDigitsIdempotent(u.cnpj);
      Ok(u.(cpf := if u.cpf != [] then KeepDigits(u.cpf) else u.cpf,
            cnpj := if u.cnpj != [] then KeepDigits(u.cnpj) else u.cnpj))
  }

  /** Cleaning an accepted user again changes nothing, as long as the document it must
      have kept at least one digit; a CPF of punctuation alone is accepted once and
      emptied, and then refused. */
  lemma CleanIdempotent(u: User)
    requires Clean(u).Ok?
    requires u.tipo == Fisica ==> KeepDigits(u.cpf) != []
    requires u.tipo == Juridica ==> KeepDigits(u.cnpj) != []
    ensures Clean(Clean(u).value) == Clean(u)
  {
    var v := Clean(u).value;
    KeepDigitsOfDigits(v.cpf);
    KeepDigitsOfDigits(v.cnpj);
    assert DocumentError(v).None?;
  }

  /** A CPF without digits passes the first `clean`, is emptied, and fails the next. */
  lemma CleanEmptiesPunctuation(u: User)
    requires u.tipo == Fisica && u.cpf != [] && KeepDigits(u.cpf) == [] && u.cnpj == []
    ensures Clean(u).Ok? && Clean(u).value.cpf == []
    ensures Clean(Clean(u).value) == Err(CpfObrigatorio)
  {
  }

  /** The prefix of every generated schema name. */
  const SchemaPrefix: string := "user_"

  /** `CustomUser.save`: an empty schema name is derived from the document that matches
      the person type; a schema name once set is never replaced. */
  function Save(u: User): (r: User)
    ensures u.schemaName != [] ==> r == u
    ensures r.(schemaName := u.schemaName) == u
    ensures u.schemaName == [] && u.tipo == Fisica && u.cpf != [] ==>
      r.schemaName == SchemaPrefix + KeepDigits(u.cpf)
    ensures u.schemaName == [] && u.tipo == Juridica && u.cnpj != [] ==>
      r.schemaName == SchemaPrefix + KeepDigits(u.cnpj)
  {
    if u.schemaName != [] then u
    else if u.tipo == Fisica && u.cpf != [] then u.(schemaName := SchemaPrefix + KeepDigits(u.cpf))
    else if u.tipo == Juridica && u.cnpj != [] then u.(schemaName := SchemaPrefix + KeepDigits(u.cnpj))
    else u
  }

  /** Saving twice is saving once: a generated name is never empty. */
  lemma SaveIdempotent(u: User)
    ensures Save(Save(u)) == Save(u)
  {
    if u.schemaName == [] && ((u.tipo == Fisica && u.cpf != []) || (u.tipo == Juridica && u.cnpj != [])) {
      assert Save(u).schemaName[0] == 'u';
    }
  }

  /** A CNPJ of 14 digits gives a 19-character name, within the column's 20. */
  lemma SchemaNameFits(u: User)
    requires u.schemaName == []
    requires u.tipo == Fisica ==> |KeepDigits(u.cpf)| <= 15
    requires u.tipo == Juridica ==> |KeepDigits(u.cnpj)| <= 15
    ensures |Save(u).schemaName| <= 20
  {
  }

  /** `get_documento`: the CPF of a person, the CNPJ of a company, None otherwise. */
  function GetDocumento(u: User): (r: Option<string>)
    ensures r.Some? <==> u.tipo != Outro
    ensures u.tipo == Fisica ==> r == Some(u.cpf)
    ensures u.tipo == Juridica ==> r == Some(u.cnpj)
  {
    match u.tipo
    case Fisica => Some(u.cpf)
    case Juridica => Some(u.cnpj)
    case Outro => None
  }

  /** `pode_acessar_schema`: one's own schema, or any schema for a superuser. */
  predicate PodeAcessarSchema(u: User, schema: string) {
    u.schemaName == schema || u.isSuperuser
  }

  /** After cleaning and saving, a user reaches the schema named after the digits of their
      own document, and an ordinary user reaches no other. */
  lemma OwnSchemaAfterSave(u: User, other: string)
    requires Clean(u).Ok? && u.schemaName == [] && u.tipo != Outro
    requires KeepDigits(GetDocumento(u).value) != []
    ensures var v := Save(Clean(u).value);
      PodeAcessarSchema(v, SchemaPrefix + KeepDigits(GetDocumento(u).value))
      && (!u.isSuperuser && other != v.schemaName ==> !PodeAcessarSchema(v, other))
  {
    var c := Clean(u).value;
    KeepDigitsIdempotent(u.cpf);
    KeepDigitsIdempotent(u.cnpj);
    assert u.tipo == Fisica ==> c.cpf == KeepDigits(u.cpf);
    assert u.tipo == Juridica ==> c.cnpj == KeepDigits(u.cnpj);
  }

  // ---------------------------------------------------------------- PasswordResetToken

  /** A password-reset token; instants are whole seconds on one clock. */
  datatype ResetToken = ResetToken(userId: nat, token: string, criadoEm: int, usado: bool, expiraEm: int)

  /** `PasswordResetToken.is_valid` at instant `agora`. */
  predicate TokenValido(t: ResetToken, agora: int) {
    !t.usado && agora < t.expiraEm
  }

  /** `PasswordResetToken.marcar_como_usado`. */
  function MarcarComoUsado(t: ResetToken): (r: ResetToken)
    ensures r.usado
    ensures r.(usado := t.usado) == t
  {
    t.(usado := true)
  }

  /** A used token is never valid again, whatever the clock says, and a valid token was
      valid at every earlier instant too. */
  lemma TokenLifecycle(t: ResetToken, antes: int, agora: int)
    ensures !TokenValido(MarcarComoUsado(t), agora)
    ensures TokenValido(t, agora) && antes <= agora ==> TokenValido(t, antes)
    ensures agora >= t.expiraEm ==> !TokenValido(t, agora)
  {
  }
}

=== FILE: validators.dfy ===
/** The account validators: password strength, Brazilian taxpayer numbers (CPF for
    people, CNPJ for companies) with their mod-11 check digits, and their display masks. */
module Validators {
  import opened Wrappers
  import opened Text

  // ---------------------------------------------------------------- passwords

  /** The four character classes a strong password must draw from. */
  datatype CharClass = LowerLetter | UpperLetter | Digit | Special

  const SpecialChars: string := "!@#$%^&*(),.?\":{}|<>"

  predicate InClass(c: char, k: CharClass) {
    match k
    case LowerLetter => 'a' <= c <= 'z'
    case UpperLetter => 'A' <= c <= 'Z'
    case Digit => IsDigit(c)
    case Special => c in SpecialChars
  }

  /** Some character of `s` belongs to `k`. */
  predicate Has(s: string, k: CharClass) {
    exists i :: 0 <= i < |s| && InClass(s[i], k)
  }

  /** `re.search` with a one-class pattern: scans left to right for a member of `k`. */
  function Search(s: string, k: CharClass): (found: bool)
    ensures found <==> Has(s, k)
  {
    if s == [] then false
    else if InClass(s[0], k) then true
    else
      var rest := Search(s[1..], k);
      assert Has(s, k) ==> Has(s[1..], k) by {
        if Has(s, k) {
          var i :| 0 <= i < |s| && InClass(s[i], k);
          assert i > 0 && InClass(s[1..][i - 1], k);
        }
      }
      assert Has(s[1..], k) ==> Has(s, k) by {
        if Has(s[1..], k) {
          var i :| 0 <= i < |s[1..]| && InClass(s[1..][i], k);
          assert InClass(s[i + 1], k);
        }
      }
      rest
  }

  /** The strength rule: at least eight characters, with a lower-case letter, an
      upper-case letter, a digit and one of the listed special characters. */
  predicate IsStrong(senha: string) {
    |senha| >= 8 && Has(senha, LowerLetter) && Has(senha, UpperLetter) && Has(senha, Digit) && Has(senha, Special)
  }

  /** `validar_senha_forte`: the length test, then one search per class, failing at the first miss. */
  function ValidarSenhaForte(senha: string): (ok: bool)
    ensures ok <==> IsStrong(senha)
  {
    if |senha| < 8 then false
    else if !Search(senha, LowerLetter) then false
    else if !Search(senha, UpperLetter) then false
    else if !Search(senha, Digit) then false
    else if !Search(senha, Special) then false
    else true
  }

  const SenhaFracaMsg: string :=
    "A senha deve ter pelo menos 8 caracteres, incluindo: uma letra minúscula, uma maiúscula, um número e um caractere especial."

  /** `django_validar_senha_forte`: raises a ValidationError exactly for weak passwords. */
  function DjangoValidarSenhaForte(value: string): (r: Result<(), string>)
    ensures r.Ok? <==> IsStrong(value)
    ensures r.Err? ==> r.error == SenhaFracaMsg
  {
    if !ValidarSenhaForte(value) then Err(SenhaFracaMsg) else Ok(())
  }

  lemma StrongExample()
    ensures ValidarSenhaForte("Senha@123")
  {
    var w := "Senha@123";
    assert InClass(w[1], LowerLetter) && InClass(w[0], UpperLetter);
    assert InClass(w[6], Digit) && InClass(w[5], Special);
  }

  /** Without a special character a password is weak, however long. */
  lemma NoSpecialExample()
    ensures !ValidarSenhaForte("Senha123")
  {
    var w := "Senha123";
    assert forall i :: 0 <= i < |w| ==> w[i] !in SpecialChars;
  }

  lemma TooShortExample()
    ensures !ValidarSenhaForte("S@1a")
  {
  }


  // ---------------------------------------------------------------- check digits

  /** Σ digit(ds[i]) × ws[i]. */
  function WeightedSum(ds: string, ws: seq<nat>): nat
    requires AllDigits(ds) && |ds| == |ws|
  {
    if ds == [] then 0 else DigitValue(ds[0]) * ws[0] + WeightedSum(ds[1..], ws[1..])
  }

  /** The mod-11 rule both documents use: 0 for a remainder below 2, else 11 − remainder. */
  function CheckDigit(soma: nat): (d: nat)
    ensures d < 10
    ensures (soma + d) % 11 == 0 || (soma % 11 < 2 && d == 0)
  {
    var resto := soma % 11;
    if resto < 2 then 0 else 11 - resto
  }

  /** All characters equal to the first (`s == s[0] * len(s)`). */
  predicate AllSame(s: string) {
    forall i :: 0 <= i < |s| ==> s[i] == s[0]
  }

  const CpfPesos1: seq<nat> := [10, 9, 8, 7, 6, 5, 4, 3, 2]
  const CpfPesos2: seq<nat> := [11, 10, 9, 8, 7, 6, 5, 4, 3, 2]
  const CnpjPesos1: seq<nat> := [5, 4, 3, 2, 9, 8, 7, 6, 5, 4, 3, 2]
  const CnpjPesos2: seq<nat> := [6, 5, 4, 3, 2, 9, 8, 7, 6, 5, 4, 3, 2]

  /** The two check digits a document body gets: the first from the body under `w1`,
      the second from the body followed by the first under `w2`. */
  function CheckDigits(body: string, w1: seq<nat>, w2: seq<nat>): (r: string)
    requires AllDigits(body) && |body| == |w1| && |w2| == |w1| + 1
    ensures |r| == 2 && AllDigits(r)
  {
    var d1 := DigitChar(CheckDigit(WeightedSum(body, w1)));
    assert AllDigits(body + [d1]);
    var d2 := DigitChar(CheckDigit(WeightedSum(body + [d1], w2)));
    [d1, d2]
  }

  /** The shape shared by `validar_cpf` and `validar_cnpj` on the extracted digits `d`:
      the right length, not one repeated digit, and both check digits matching. */
  function ValidDigits(d: string, w1: seq<nat>, w2: seq<nat>): (ok: bool)
    requires AllDigits(d) && |w2| == |w1| + 1
    ensures ok <==> |d| == |w2| + 1 && !AllSame(d) && d == d[..|w1|] + CheckDigits(d[..|w1|], w1, w2)
  {
    var n := |w1|;
    if |d| != n + 2 then false
    else if AllSame(d) then false
    else
      var d1 := CheckDigit(WeightedSum(d[..n], w1));
      if DigitValue(d[n]) != d1 then
        assert d[n] != DigitChar(d1);
        assert (d[..n] + CheckDigits(d[..n], w1, w2))[n] != d[n];
        false
      else
        assert d[n] == DigitChar(d1);
        assert d[..n + 1] == d[..n] + [DigitChar(d1)];
        var d2 := CheckDigit(WeightedSum(d[..n + 1], w2));
        assert CheckDigits(d[..n], w1, w2) == [d[n], DigitChar(d2)];
        if DigitValue(d[n + 1]) != d2 then
          assert (d[..n] + CheckDigits(d[..n], w1, w2))[n + 1] != d[n + 1];
          false
        else
          assert d == d[..n] + [d[n], d[n + 1]];
          true
  }

  /** `validar_cpf`: eleven digits after dropping the rest, not all equal, check digits
      from weights 10..2 and 11..2. */
  function ValidarCpf(cpf: string): (ok: bool)
    ensures ok <==> var d := KeepDigits(cpf);
      |d| == 11 && !AllSame(d) && d == d[..9] + CheckDigits(d[..9], CpfPesos1, CpfPesos2)
  {
    ValidDigits(KeepDigits(cpf), CpfPesos1, CpfPesos2)
  }

  /** `validar_cnpj`: fourteen digits after dropping the rest, not all equal, check digits
      from the weights 5,4,3,2,9..2 and 6,5,4,3,2,9..2. */
  function ValidarCnpj(cnpj: string): (ok: bool)
    ensures ok <==> var d := KeepDigits(cnpj);
      |d| == 14 && !AllSame(d) && d == d[..12] + CheckDigits(d[..12], CnpjPesos1, CnpjPesos2)
  {
    ValidDigits(KeepDigits(cnpj), CnpjPesos1, CnpjPesos2)
  }

  /** Any nine-digit body that is not one repeated digit becomes a valid CPF once its
      computed check digits are appended. */
  lemma CpfFromBody(body: string)
    requires |body| == 9 && AllDigits(body) && !AllSame(body)
    ensures ValidarCpf(body + CheckDigits(body, CpfPesos1, CpfPesos2))
  {
    var d := body + CheckDigits(body, CpfPesos1, CpfPesos2);
    KeepDigitsOfDigits(d);
    assert d[..9] == body;
    var i :| 0 <= i < 9 && body[i] != body[0];
    assert d[i] != d[0];
  }

  /** The same for a twelve-digit CNPJ body. */
  lemma CnpjFromBody(body: string)
    requires |body| == 12 && AllDigits(body) && !AllSame(body)
    ensures ValidarCnpj(body + CheckDigits(body, CnpjPesos1, CnpjPesos2))
  {
    var d := body + CheckDigits(body, CnpjPesos1, CnpjPesos2);
    KeepDigitsOfDigits(d);
    assert d[..12] == body;
    var i :| 0 <= i < 12 && body[i] != body[0];
    assert d[i] != d[0];
  }

  /** The check digits are determined by the body: two valid CPFs with the same first
      nine digits have the same digits. */
  lemma CpfCheckDigitsUnique(a: string, b: string)
    requires ValidarCpf(a) && ValidarCpf(b)
    requires KeepDigits(a)[..9] == KeepDigits(b)[..9]
    ensures KeepDigits(a) == KeepDigits(b)
  {
  }

  /** A document of one repeated digit is rejected whatever its check digits say. */
  lemma RepeatedDigitsRejected(c: char)
    requires IsDigit(c)
    ensures !ValidarCpf(seq(11, i => c))
    ensures !ValidarCnpj(seq(14, i => c))
  {
    KeepDigitsOfDigits(seq(11, i => c));
    KeepDigitsOfDigits(seq(14, i => c));
  }


  /** `django_validar_cpf` / `django_validar_cnpj`: a ValidationError for an invalid document. */
  function DjangoValidarCpf(value: string): (r: Result<(), string>)
    ensures r.Ok? <==> ValidarCpf(value)
    ensures r.Err? ==> r.error == "CPF inválido."
  {
    if !ValidarCpf(value) then Err("CPF inválido.") else Ok(())
  }

  function DjangoValidarCnpj(value: string): (r: Result<(), string>)
    ensures r.Ok? <==> ValidarCnpj(value)
    ensures r.Err? ==> r.error == "CNPJ inválido."
  {
    if !ValidarCnpj(value) then Err("CNPJ inválido.") else Ok(())
  }

  // ---------------------------------------------------------------- display masks

  /** The CPF mask `XXX.XXX.XXX-XX` laid over eleven digits. */
  function CpfMask(d: string): (r: string)
    requires |d| == 11
    ensures |r| == 14 && r[3] == '.' && r[7] == '.' && r[11] == '-'
  {
    d[..3] + "." + d[3..6] + "." + d[6..9] + "-" + d[9..]
  }

  /** The CNPJ mask `XX.XXX.XXX/XXXX-XX` laid over fourteen digits. */
  function CnpjMask(d: string): (r: string)
    requires |d| == 14
    ensures |r| == 18 && r[2] == '.' && r[6] == '.' && r[10] == '/' && r[15] == '-'
  {
    d[..2] + "." + d[2..5] + "." + d[5..8] + "/" + d[8..12] + "-" + d[12..]
  }

  lemma CpfMaskDigits(d: string)
    requires |d| == 11 && AllDigits(d)
    ensures KeepDigits(CpfMask(d)) == d
  {
    var a, b, c, e := d[..3], d[3..6], d[6..9], d[9..];
    var p1 := a + "." + b;
    var p2 := p1 + "." + c;
    assert KeepDigits(p1) == a + b by { JoinDigits(d, 0, 3, 6, '.'); }
    assert KeepDigits(p2) == a + b + c by {
      SliceDigits(d, 6, 9);
      KeepDigitsJoin(p1, '.', c);
      KeepDigitsOfDigits(c);
    }
    assert KeepDigits(p2 + "-" + e) == a + b + c + e by {
      SliceDigits(d, 9, 11);
      KeepDigitsJoin(p2, '-', e);
      KeepDigitsOfDigits(e);
    }
    assert a + b + c + e == d;
  }

  lemma CnpjMaskDigits(d: string)
    requires |d| == 14 && AllDigits(d)
    ensures KeepDigits(CnpjMask(d)) == d
  {
    var a, b, c, e, f := d[..2], d[2..5], d[5..8], d[8..12], d[12..];
    var p1 := a + "." + b;
    var p2 := p1 + "." + c;
    var p3 := p2 + "/" + e;
    assert KeepDigits(p1) == a + b by { JoinDigits(d, 0, 2, 5, '.'); }
    assert KeepDigits(p2) == a + b + c by {
      SliceDigits(d, 5, 8);
      KeepDigitsJoin(p1, '.', c);
      KeepDigitsOfDigits(c);
    }
    assert KeepDigits(p3) == a + b + c + e by {
      SliceDigits(d, 8, 12);
      KeepDigitsJoin(p2, '/', e);
      KeepDigitsOfDigits(e);
    }
    assert KeepDigits(p3 + "-" + f) == a + b + c + e + f by {
      SliceDigits(d, 12, 14);
      KeepDigitsJoin(p3, '-', f);
      KeepDigitsOfDigits(f);
    }
    assert a + b + c + e + f == d;
  }

  /** A slice of digits is digits. */
  lemma SliceDigits(d: string, i: nat, j: nat)
    requires i <= j <= |d| && AllDigits(d)
    ensures AllDigits(d[i..j])
  {
    assert forall k :: 0 <= k < j - i ==> d[i..j][k] == d[i + k];
  }

  /** Two adjacent slices of digits joined by a separator keep just their digits. */
  lemma JoinDigits(d: string, i: nat, j: nat, k: nat, sep: char)
    requires i <= j <= k <= |d| && AllDigits(d) && !IsDigit(sep)
    ensures KeepDigits(d[i..j] + [sep] + d[j..k]) == d[i..j] + d[j..k]
  {
    SliceDigits(d, i, j);
    SliceDigits(d, j, k);
    KeepDigitsJoin(d[i..j], sep, d[j..k]);
    KeepDigitsOfDigits(d[i..j]);
    KeepDigitsOfDigits(d[j..k]);
  }


  /** `formatar_cpf`: the mask when there are exactly eleven digits, otherwise the bare
      digits. Formatting never adds, loses or reorders a digit. */
  function FormatarCpf(cpf: string): (r: string)
    ensures KeepDigits(r) == KeepDigits(cpf)
    ensures |KeepDigits(cpf)| == 11 ==> r == CpfMask(KeepDigits(cpf))
    ensures |KeepDigits(cpf)| != 11 ==> r == KeepDigits(cpf)
  {
    var d := KeepDigits(cpf);
    if |d| == 11 then
      CpfMaskDigits(d);
      CpfMask(d)
    else
      KeepDigitsOfDigits(d);
      d
  }

  /** `formatar_cnpj`: the mask when there are exactly fourteen digits, otherwise the
      bare digits. */
  function FormatarCnpj(cnpj: string): (r: string)
    ensures KeepDigits(r) == KeepDigits(cnpj)
    ensures |KeepDigits(cnpj)| == 14 ==> r == CnpjMask(KeepDigits(cnpj))
    ensures |KeepDigits(cnpj)| != 14 ==> r == KeepDigits(cnpj)
  {
    var d := KeepDigits(cnpj);
    if |d| == 14 then
      CnpjMaskDigits(d);
      CnpjMask(d)
    else
      KeepDigitsOfDigits(d);
      d
  }

  /** Masking a document does not change whether it validates. */
  lemma FormatPreservesValidity(s: string)
    ensures ValidarCpf(FormatarCpf(s)) == ValidarCpf(s)
    ensures ValidarCnpj(FormatarCnpj(s)) == ValidarCnpj(s)
  {
  }

  /** Masking an already masked document changes nothing. */
  lemma FormatIdempotent(s: string)
    ensures FormatarCpf(FormatarCpf(s)) == FormatarCpf(s)
    ensures FormatarCnpj(FormatarCnpj(s)) == FormatarCnpj(s)
  {
    var a, b := FormatarCpf(s), FormatarCnpj(s);
    assert KeepDigits(a) == KeepDigits(s) && KeepDigits(b) == KeepDigits(s);
  }
}

=== FILE: wrappers.dfy ===
/** Option and Result, the two failure-carrying shapes the rest of the model returns
    in place of Python's None and raised exceptions. */
module Wrappers {

  datatype Option<+T> = None | Some(value: T) {
    /** The wrapped value, or `default` when there is none. */
    function GetOr(default: T): T {
      match this
      case Some(v) => v
      case None => default
    }
  }

  /** `Ok` for a normal return, `Err` for an exception the source raises or reports. */
  datatype Result<+T, +E> = Ok(value: T) | Err(error: E)

  /** An optional text that Python reads as true: present and not empty. */
  predicate Given(o: Option<string>) {
    o.Some? && o.value != []
  }
}
